=== FILE: README.md ===
# surfgeo, modelled in Dafny

surfgeo is a server-side tracking SDK for Python web applications. It has
three parts:
- middleware observes every request and its final status;
- `build_payload` turns the request into a normalized payload;
- `surfgeoClient` validates its configuration once and then sends each payload with a
  fire-and-forget POST.

This project models:
- the payload builder (`surfgeo/payload.py`);
- the configuration shapes (`surfgeo/types.py`);
- the client (`surfgeo/client.py`);
- three adapters: generic WSGI, generic ASGI and the Flask extension (`surfgeo/middleware/`).

It then proves what these promise.

Modules, one per file:

| file | module | what it holds |
|---|---|---|
| wrappers.dfy | Wrappers | `Option`, `Result`, `Outcome` (an exception or none) |
| pyvalues.dfy | PyValues | dynamically typed Python values, truthiness, `or`, `and`, `dict.get` |
| pystrings.dfy | PyStrings | the `str` methods the SDK calls: `upper`, `title`, `replace`, `isalnum`, `split()[0]`, `int()` |
| urls.dfy | Urls | `urllib.parse.urlparse` as far as `normalize_path` and the endpoint check depend on it |
| types.dfy | Types | `TrackingPayload`, `RequestMetadata`, `surfgeoConfig` |
| payload.dfy | Payload | `normalize_path`, the header extractors, `build_payload` |
| payload_examples.dfy | PayloadExamples | the payload unit tests' inputs and outputs |
| client.dfy | Client | validation, the stored configuration, `track`/`track_async`, `_post`/`_post_async` |
| client_examples.dfy | ClientExamples | the client unit tests' configurations |
| wsgi.dfy | Wsgi | the environ-to-headers loop, the status capture of `start_response`, the middleware class |
| asgi.dfy | Asgi | latin-1 header decoding, the status capture of `send`, the pass-through of non-HTTP scopes, the middleware class |
| flask.dfy | Flask | configuration precedence in `init_app`, the extension, its after-request hook |

How Python is represented:
- **Dictionary keys.** A dictionary key that may be missing is a `Field` (`Absent | Present(v)`). Python's `None` is `Option.None`.
- **Exceptions.** An exception the code raises is an `Err` or `Fail` value. Nothing in the SDK catches exceptions except `_post`, so each error path ends at the caller.
- **Config values.** These are `PyValue`, not typed. This keeps reachable:
  - the "script_key must be a string" rule;
  - the truthiness of Flask's `or` / `and` chains;
  - the `TypeError` of `min(None, 0.1)`.
- **Payloads.** A payload is a `TrackingPayload` with the ten keys of the typed dict. `track` copies every key of the dict it is given (`{**payload, ...}` at `surfgeo/client.py:59-63`); keys outside those ten are not represented, so "every other field is kept" covers the ten.
- **Dispatch.** Starting a thread or task is an append of the would-be POST request to the client's ghost `sent` log. The network outcome is a parameter of `Post`.
- **Clock and request id.** `time.time()` and `uuid.uuid4()` are the parameters `now` and `requestId`.
- **Wrapped applications.** An application is a function from its request to what it does:
  - WSGI: the `start_response` calls it makes, then its body or its exception;
  - ASGI: the messages it sends, then whether it raises.

  Each middleware method `Call` returns what reaches the server (the forwarded `start_response` calls or messages) together with its own result.

Points where the code does less than its names or docstrings suggest; the model follows the code:
- **Timeout clamp.** Out-of-range timeouts are rejected (`surfgeo/client.py:179-181`) before the clamp at `surfgeo/client.py:35` runs. So on every accepted timeout that is a real number the clamp changes nothing (`Client.Clamp`, `Client.StoredConfig`). A NaN timeout is the exception; see "Floating point" under "## Left out".
- **Header lookup.** The docstring at `surfgeo/payload.py:50` promises case-insensitive headers. The code tries only the fixed spellings at `surfgeo/payload.py:53` and `:69`, so `User-agent` is not found (`PayloadExamples.OtherCasingsNotFound`).
- **Endpoint check.** The endpoint is checked only by catching an exception from `urlparse` (`surfgeo/client.py:171-176`). Nothing asks for a scheme or a host. CPython's `urlparse` raises for unbalanced brackets in the network location, for bracketed hosts that are not IP addresses, and for non-ASCII hosts whose NFKC form holds a delimiter. The model has only the first of these (`Client.UnbalancedEndpointRejected`, `Urls.BracketFreeParses`).
- **Flask precedence.** The code chooses with `or`, which skips falsy keyword arguments. So `debug=False` cannot override `SURFGEO_DEBUG = True` (`Flask.DebugNotOverridable`), and `timeout=0` falls back to the application config.
- **`timeout=None`.** This value passes validation but makes construction raise `TypeError`. It is modelled as an error (`Client.NoTimeoutRaises`), not excluded.

## Model

| member | source | states |
|---|---|---|
| PyValues.Truthy | surfgeo/client.py:155 | Python truthiness of the modelled values: `None`, `False`, `0`, `0.0` and `''` are false; used by every `or`, `and` and `if not` of the model |
| PyValues.Or | surfgeo/middleware/flask.py:43-53 | `a or b` is truthy iff either operand is, and is `a` when `a` is truthy, else `b` |
| PyValues.And | surfgeo/middleware/flask.py:55-56 | `a and b` is truthy iff both are, and is `a` when `a` is falsy, else `b` |
| PyValues.Get | surfgeo/middleware/wsgi.py:32-36 | `d.get(key, default)` is the stored value when the key is present, else the default |
| PyStrings.Upper | surfgeo/payload.py:21 | `upper()` keeps the length and maps every character through the upper-case mapping |
| PyStrings.UpperOfUpperCase | surfgeo/payload.py:21 | upper-casing a string without lower-case letters changes nothing |
| PyStrings.Lower | surfgeo/payload.py:36 | lower-casing (used for the URL scheme) keeps the length and maps every character |
| PyStrings.ToUpper | surfgeo/payload.py:21 | the upper-case mapping of a character is never lower-case and keeps whether it is cased |
| PyStrings.ToLower | surfgeo/payload.py:36 | the lower-case mapping of a character is never upper-case and keeps whether it is cased |
| PyStrings.ReplaceChar | surfgeo/middleware/wsgi.py:91 | `replace('_', '-')` keeps the length and replaces exactly the matching characters |
| PyStrings.RemoveChar | surfgeo/client.py:167 | `replace('_', '')` never lengthens the string |
| PyStrings.RemoveCharChars | surfgeo/client.py:167 | `replace('_', '')` leaves no underscore and keeps every other character, and no new one |
| PyStrings.RemoveCharAppend | surfgeo/client.py:167 | removing a character distributes over concatenation |
| PyStrings.TitleFrom | surfgeo/middleware/wsgi.py:91 | the title-casing scan keeps the length |
| PyStrings.Title | surfgeo/middleware/wsgi.py:91 | `title()` keeps the length |
| PyStrings.TitleFromAt | surfgeo/middleware/wsgi.py:91 | each character of the scan is lower-cased after a cased character and upper-cased otherwise |
| PyStrings.TitleAt | surfgeo/middleware/wsgi.py:91 | the same rule for `title()` at every index |
| PyStrings.TitleIsTitled | surfgeo/middleware/wsgi.py:91 | the result of `title()` is title-cased |
| PyStrings.TitleFixpoints | surfgeo/middleware/wsgi.py:91 | `title()` leaves a string unchanged iff it is already title-cased |
| PyStrings.TitleIdempotent | surfgeo/middleware/wsgi.py:91 | `title()` applied twice equals applied once |
| PyStrings.LowerStartNotTitled | surfgeo/middleware/wsgi.py:91 | a string starting with a lower-case letter is not title-cased |
| PyStrings.UpperAfterCasedNotTitled | surfgeo/middleware/wsgi.py:91 | an upper-case letter after a cased one breaks title case |
| PyStrings.IndexOf | surfgeo/payload.py:36 | the first index of a character, or the length: no earlier occurrence |
| PyStrings.IndexOfAppend | surfgeo/payload.py:36 | the first index in a concatenation is found in the first part when it occurs there |
| PyStrings.RFind | surfgeo/payload.py:36 | the last index of a character, or -1: no later occurrence |
| PyStrings.RFindAppend | surfgeo/payload.py:36 | appending text without the character leaves its last index unchanged |
| PyStrings.StartsWith | surfgeo/client.py:161 | `script_key.startswith('sk_')`; the prefix rule it decides is stated by `Client.ValidateReportsFirstViolation` |
| PyStrings.IsAlnumString | surfgeo/client.py:167 | `.isalnum()`: non-empty and every character a letter or digit; stated for the key body by `Client.KeyBodyCheck` |
| PyStrings.IsSpace | surfgeo/middleware/wsgi.py:58 | the characters `str.split()` separates on, the ASCII part of `str.isspace` (helper) |
| PyStrings.TokenLength | surfgeo/middleware/wsgi.py:58 | the first token's length is at most the string's |
| PyStrings.TokenLengthShape | surfgeo/middleware/wsgi.py:58 | the first token's length: no whitespace before it, whitespace (or the end) at it |
| PyStrings.FirstTokenShape | surfgeo/middleware/wsgi.py:58 | `split()[0]` is a non-empty run without whitespace, and fails (no token) iff the string is all whitespace |
| PyStrings.FirstTokenOfWord | surfgeo/middleware/wsgi.py:58 | the first token of `word + sep + rest` is `word` |
| PyStrings.FirstToken | surfgeo/middleware/wsgi.py:58 | `status.split()[0]`: skips leading whitespace and returns the run up to the next whitespace, or nothing for an all-whitespace string; its meaning is stated by `PyStrings.FirstTokenShape` |
| PyStrings.TokenLengthOfWord | surfgeo/middleware/wsgi.py:58 | a word followed by whitespace or the end is one token |
| PyStrings.ParseDigits | surfgeo/middleware/wsgi.py:58 | the unsigned part of `int()`, read left to right; stated by `PyStrings.ParseDigitsMeaning` |
| PyStrings.ParseDigitsMeaning | surfgeo/middleware/wsgi.py:58 | the left-to-right reading of `int()` accepts an unsigned literal iff it is digit groups joined by single underscores, and its value is that of the digits once the underscores are removed |
| PyStrings.DigitsAfterAccepts | surfgeo/middleware/wsgi.py:58 | after a digit, the reader accepts exactly the rests where every `_` is followed by a digit |
| PyStrings.DigitsAfterValue | surfgeo/middleware/wsgi.py:58 | on such a rest the value read so far is shifted past the remaining digits and theirs added |
| PyStrings.DigitGroupsAfterFirst | surfgeo/middleware/wsgi.py:58 | a literal starting with a digit is digit groups iff the rest after that digit is well formed |
| PyStrings.DigitsValuePrepend | surfgeo/middleware/wsgi.py:58 | a leading digit weighs ten to the power of the number of digits after it |
| PyStrings.NonDigitStartNoGroups | surfgeo/middleware/wsgi.py:58 | a literal starting with a non-digit is rejected |
| PyStrings.DigitChar | surfgeo/middleware/wsgi.py:58 | the digit character of a value below ten has that value |
| PyStrings.DecimalString | surfgeo/middleware/wsgi.py:58 | a number's decimal text is non-empty and all digits |
| PyStrings.DecimalStringValue | surfgeo/middleware/wsgi.py:58 | the decimal text's value is the number (round trip) |
| PyStrings.RemoveAbsent | surfgeo/client.py:167 | removing an absent character changes nothing |
| PyStrings.ParseDecimalString | surfgeo/middleware/wsgi.py:58 | `int()` reads back a number's decimal text, and its negation with a `-` sign |
| PyStrings.ParseInt | surfgeo/middleware/wsgi.py:58 | `int(token)`: an optional `+` or `-`, then digit groups read by `PyStrings.ParseDigits`; what it accepts and the value it reads are stated by `PyStrings.ParseDigitsMeaning` and `PyStrings.ParseDecimalString` |
| Urls.LStripC0 | surfgeo/payload.py:36 | after stripping, the string is empty or starts with a kept character |
| Urls.LStripC0Append | surfgeo/payload.py:36 | stripping stops at the first kept character |
| Urls.LStripC0Chars | surfgeo/payload.py:36 | stripping adds no character |
| Urls.RemoveUnsafe | surfgeo/payload.py:36 | `urlsplit`'s removal of every tab, CR and LF; stated by `Urls.RemoveUnsafeChars`, `Urls.RemoveUnsafeAppend` and `Urls.RemoveUnsafeClean` |
| Urls.RemoveUnsafeChars | surfgeo/payload.py:36 | removal keeps exactly the characters that are not tab, CR or LF |
| Urls.RemoveUnsafeAppend | surfgeo/payload.py:36 | removal distributes over concatenation |
| Urls.RemoveUnsafeClean | surfgeo/payload.py:36 | a string without those characters is unchanged |
| Urls.Sanitized | surfgeo/payload.py:36 | the string `urlsplit` goes on to split: leading C0 controls and spaces stripped, then the unsafe characters removed; stated by `Urls.SanitizedChars` and `Urls.SanitizedAppend` |
| Urls.SanitizedChars | surfgeo/payload.py:36 | the sanitized URL holds only characters of the input, and none of tab, CR, LF |
| Urls.SanitizedAppend | surfgeo/payload.py:36 | sanitizing stops stripping at the first kept character |
| Urls.HasScheme | surfgeo/payload.py:36 | urlsplit's scheme test: the text before the first `:` is non-empty, starts with a letter and holds only scheme characters; stated by `Urls.SchemeSplit`, `Urls.HasSchemeAppendFound` and `Urls.HasSchemeAppendMissing` |
| Urls.SplitScheme | surfgeo/payload.py:36 | with a scheme, it is the lower-cased text before the first `:` and the rest follows it; without one, all is rest |
| Urls.SchemeSplit | surfgeo/payload.py:36 | a well-formed scheme name before `:` is split off and lower-cased |
| Urls.SplitSchemeChars | surfgeo/payload.py:36 | what follows the scheme is made of characters of the input |
| Urls.HasSchemeAppendFound | surfgeo/payload.py:36 | a suffix after the first `:` changes neither its index nor whether a scheme is present |
| Urls.HasSchemeAppendMissing | surfgeo/payload.py:36 | without a `:` before it, a `?` or `#` rules a scheme out |
| Urls.SplitSchemeAppend | surfgeo/payload.py:36 | a `?` or `#` suffix lands in the rest, not the scheme |
| Urls.FirstDelim | surfgeo/payload.py:36 | the index of the first delimiter, with none before it |
| Urls.FirstDelimAppend | surfgeo/payload.py:36 | a suffix starting with a delimiter does not move the first one |
| Urls.SplitNetloc | surfgeo/payload.py:36 | `//netloc rest` reassembles the input, the network location has no delimiter, and the rest starts with one |
| Urls.HasAuthority | surfgeo/payload.py:36 | urlsplit's `url[:2] == '//'` test for a network location; stated by `Urls.SplitAuthority` |
| Urls.SplitAuthority | surfgeo/payload.py:36 | without `//` the network location is empty; with it, the input is `//` + netloc + rest |
| Urls.SplitAuthorityChars | surfgeo/payload.py:36 | both parts are made of characters of the input, and the network location holds no delimiter |
| Urls.SplitAuthorityAppend | surfgeo/payload.py:36 | a `?` or `#` suffix lands in the rest |
| Urls.AuthoritySplit | surfgeo/payload.py:36 | a plain host followed by a path splits into exactly those two |
| Urls.NoUnsafeInAuthority | surfgeo/payload.py:36 | such a URL has nothing to remove |
| Urls.Before | surfgeo/payload.py:36 | the text before the first occurrence of a character: a prefix without it |
| Urls.After | surfgeo/payload.py:36 | the text after it, which reassembles the input with `Before` |
| Urls.BeforeAppend | surfgeo/payload.py:36 | the cut in a concatenation falls in the second part when the first lacks the character |
| Urls.Unbalanced | surfgeo/client.py:174 | the condition under which urlsplit raises "Invalid IPv6 URL": exactly one of `[` and `]` in the network location; stated by `Urls.AuthorityPath` and `Client.UnbalancedEndpointRejected` |
| Urls.UrlSplit | surfgeo/payload.py:36 | a split path holds no `?` or `#` |
| Urls.UrlSplitNetloc | surfgeo/payload.py:36 | the network location holds no delimiter |
| Urls.BracketFreeParses | surfgeo/client.py:171-176 | a URL without `[` or `]` never makes `urlparse` raise |
| Urls.AuthorityPath | surfgeo/client.py:171-176 | `//host/path` raises iff the host's brackets are unbalanced, and otherwise keeps the host and the path |
| Urls.SchemeAuthorityPath | surfgeo/client.py:171-176 | `scheme://host/path` raises iff the host's brackets are unbalanced, and otherwise has that scheme, host and path |
| Urls.SchemeSeparator | surfgeo/client.py:171-176 | `scheme://rest` is `scheme:` followed by `//rest` (helper) |
| Urls.SchemeSanitized | surfgeo/client.py:171-176 | such a URL is not changed by sanitizing |
| Urls.StripParams | surfgeo/payload.py:36-37 | cutting `;params` off the last segment yields a prefix, and nothing without `;` |
| Urls.StripParamsTrailingSlash | surfgeo/payload.py:36-37 | a path ending in `/` has an empty last segment, so keeps everything |
| Urls.LastSegment | surfgeo/payload.py:36-37 | the last path segment holds no `/` |
| Urls.StripParamsKeepsEarlierSegments | surfgeo/payload.py:36-37 | a `;` before the last `/` is kept |
| Urls.LastSlashFound | surfgeo/payload.py:36-37 | a path with a `/` has a last one |
| Urls.FirstSemicolonAfter | surfgeo/payload.py:36-37 | the first `;` of a concatenation whose first part lacks one starts the second part |
| Urls.FirstSemicolonFrom | surfgeo/payload.py:36-37 | from a `/` followed by no `;`, the first `;` starts the appended tail |
| Urls.FirstSemicolonOfTail | surfgeo/payload.py:36-37 | the same from the last `/` |
| Urls.StripParamsOfAppendedParams | surfgeo/payload.py:36-37 | `;params` appended to the last segment is removed |
| Urls.UrlParsePath | surfgeo/payload.py:36-37 | `urlparse(url).path` holds no `?` or `#`, and fails exactly when splitting raises |
| Urls.SingleSlashAppend | surfgeo/payload.py:36-37 | extending a path that starts with a single `/` keeps it such a path |
| Urls.SingleSlashUrlPath | surfgeo/payload.py:36-37 | for such a path, the parsed path is the text before `#` and `?` with the last segment's params cut |
| Urls.SuffixIgnoredSplit | surfgeo/payload.py:36-37 | a `?query` or `#fragment` suffix changes neither the scheme, the host nor the path |
| Urls.SuffixIgnored | surfgeo/payload.py:36-37 | the parsed path ignores a `?query` or `#fragment` suffix |
| Types.ConfigWithKey | surfgeo/types.py:27-34 | a configuration from a key alone has no endpoint, timeout 0.05, debug off, tracking on |
| Payload.DropTrailingSlash | surfgeo/payload.py:40-41 | the result is a prefix at most one shorter, and differs iff the path is longer than 1 and ends in `/` |
| Payload.NormalizePath | surfgeo/payload.py:29-43 | raises iff `urlparse` does; otherwise the parsed path without one trailing `/`, with no `?` or `#` |
| Payload.SingleSlashNormalization | surfgeo/payload.py:29-43 | a path starting with a single `/` normalizes to a path starting with `/` |
| Payload.PlainPathNormalization | surfgeo/payload.py:29-43 | a plain path loses exactly one trailing `/` when longer than 1 and is otherwise unchanged |
| Payload.TrailingSlashRemoved | surfgeo/payload.py:40-41 | `p + "/"` normalizes to `p` |
| Payload.NormalizationNotIdempotent | surfgeo/payload.py:40-41 | only one trailing slash goes: `p + "//"` gives `p + "/"`, which normalizes again to `p` |
| Payload.SegmentParamsKept | surfgeo/payload.py:36-37 | a `;` in an earlier segment survives normalization |
| Payload.ParamsAppended | surfgeo/payload.py:36-37 | appending `;params` keeps a single-slash path free of `?` and `#` |
| Payload.ParamsIgnored | surfgeo/payload.py:36-37 | `;params` on the last segment is removed by `urlparse` |
| Payload.QueryIgnored | surfgeo/payload.py:36-37 | the query string is removed |
| Payload.FragmentIgnored | surfgeo/payload.py:36-37 | the fragment is removed |
| Payload.FirstPresent | surfgeo/payload.py:53-54 | the index of the first spelling present, with every earlier one absent |
| Payload.FirstOr | surfgeo/payload.py:56-59 | a string value is returned as it is, a list gives its first element or the default (`'Unknown'` there) when empty; stated as part of `Payload.ExtractUserAgent` |
| Payload.FirstOrNone | surfgeo/payload.py:71-74 | the same with `None` for an empty list; stated as part of `Payload.ExtractReferrer` |
| Payload.ExtractUserAgent | surfgeo/payload.py:46-60 | the value under the first present of `User-Agent`, `user-agent`, `USER-AGENT` (a list's first element, `'Unknown'` for an empty list), else `'Unknown'` |
| Payload.ExtractReferrer | surfgeo/payload.py:63-75 | the value under the first present of the five spellings (a list's first element, `None` for an empty list), else `None` |
| Payload.FirstPresentAgrees | surfgeo/payload.py:53-54 | the search depends only on which listed spellings are present |
| Payload.UserAgentIgnoresOtherKeys | surfgeo/payload.py:53 | a header under any other spelling does not change the user agent |
| Payload.ReferrerIgnoresOtherKeys | surfgeo/payload.py:69 | a header under any other spelling does not change the referrer |
| Payload.ReferrerAnySpelling | surfgeo/payload.py:69-74 | a lone referrer under any listed spelling is found unchanged |
| Payload.StatusOrDefault | surfgeo/payload.py:22 | a missing status becomes 200; a present one, even `None`, is kept |
| Payload.BuildPayload | surfgeo/payload.py:8-26 | raises iff the path does; otherwise all seven fields from the metadata, the clock and the id, and no `headers`, `script_key` or `source` |
| Payload.BuiltMethodIsUpperCase | surfgeo/payload.py:21 | the payload's method has the input's length and no lower-case letter |
| PayloadExamples.NormalizeQueryExample | tests/unit/test_payload.py:42-45 | a plain path with a query normalizes to the path |
| PayloadExamples.TestQuery | tests/unit/test_payload.py:44 | `'/test?page=1'` gives `'/test'` |
| PayloadExamples.UsersQuery | tests/unit/test_payload.py:45 | `'/api/users?id=123'` gives `'/api/users'` |
| PayloadExamples.NormalizePathDropsQueryExamples | tests/unit/test_payload.py:42-45 | both query examples |
| PayloadExamples.SlashExample | tests/unit/test_payload.py:49-51 | `'/test/'` and `'/api/users/'` lose the slash |
| PayloadExamples.RootExample | tests/unit/test_payload.py:50 | `'/'` stays `'/'` |
| PayloadExamples.NormalizePathTrailingSlashExamples | tests/unit/test_payload.py:47-51 | all three trailing-slash examples |
| PayloadExamples.OtherCasingsNotFound | surfgeo/payload.py:53-60 | `User-agent` and `ReFeReR` are not found |
| PayloadExamples.EmptyListShadowsLaterSpelling | surfgeo/payload.py:57-58 | an empty list under an earlier spelling wins over a value under a later one |
| PayloadExamples.ExtractorExamples | tests/unit/test_payload.py:53-70 | missing header, list value and the three referrer casings |
| PayloadExamples.TestPath | tests/unit/test_payload.py:15 | `'/test'` is already normalized |
| PayloadExamples.BuildPayloadOf | tests/unit/test_payload.py:12-27 | a GET of a normalized path with a user agent and status 200 keeps them all |
| PayloadExamples.BuildPayloadExample | tests/unit/test_payload.py:12-27 | the test's metadata gives path `/test`, method `GET`, agent `test-agent`, status 200 |
| Client.DefaultEndpointParses | surfgeo/client.py:9 | the default endpoint passes the `urlparse` check |
| Client.UrlParses | surfgeo/client.py:171-176 | whether `urlparse(endpoint)` returns: a string parses unless `Urls.UrlSplit` raises, a falsy non-string parses and a truthy one does not; used by `Client.ValidateReportsFirstViolation` and `Client.UnparsableEndpointRejected` |
| Client.ValidateConfig | surfgeo/client.py:152-183 | `_validate_config`: the key, endpoint and timeout guards in source order, the first failing one deciding the error; its meaning is stated by `Client.ValidateReportsFirstViolation` and `Client.KeyAloneAccepted` |
| Client.Message | surfgeo/client.py:156-181 | the exact text of the `ValueError` raised for each rule; `Client.MessagesDistinct` states that the seven texts differ |
| Client.MessageHasLength | surfgeo/client.py:156-181 | each error message has its stated length (helper) |
| Client.MessagesDistinct | surfgeo/client.py:156-181 | every rule has its own message |
| Client.KeyBodyCheck | surfgeo/client.py:167 | the body after `sk_`, underscores removed, is alphanumeric iff it holds only letters, digits and underscores and at least one letter or digit |
| Client.ValidateReportsFirstViolation | surfgeo/client.py:152-183 | validation passes iff no rule is broken, and fails with a rule's error iff that rule is the first one broken |
| Client.KeyAloneAccepted | surfgeo/client.py:155-168 | a configuration from a key alone passes iff the key is valid |
| Client.Underscores | surfgeo/client.py:167 | a run of n underscores (helper) |
| Client.UnparsableEndpointRejected | surfgeo/client.py:171-176 | with a valid key, an endpoint `urlparse` rejects fails with the endpoint error |
| Client.UnbalancedEndpointRejected | surfgeo/client.py:171-176 | a URL whose host has unbalanced brackets is such an endpoint |
| Client.UnderscoreOnlyKeyRejected | surfgeo/client.py:167 | `sk_` followed only by underscores fails the character rule |
| Client.Clamp | surfgeo/client.py:35 | `max(0.01, min(t, 0.1))` lies in the range, is `t` inside it and the nearest bound outside |
| Client.ConstructionError | surfgeo/client.py:18-40 | construction raises the validation error when there is one; when it does not raise, the timeout is in range and the endpoint parses |
| Client.StoredConfig | surfgeo/client.py:32-38 | key, debug, enabled and timeout are kept; an empty endpoint becomes the default URL |
| Client.EndpointReplaced | surfgeo/client.py:34 | any parsing endpoint gives a usable stored configuration |
| Client.WithCredentials | surfgeo/client.py:59-63 | `script_key` and `source='server'` are set and every other field is kept |
| Client.CredentialsOverride | surfgeo/client.py:59-63 | the later credentials override earlier ones |
| Client.Outbox | surfgeo/client.py:56-71 | one POST when enabled, none when not; it goes to the endpoint with the SDK headers, the credentialed payload and an in-range timeout |
| Client.EnabledTrackSendsCredentials | surfgeo/client.py:56-63 | when enabled, exactly one POST carries the key, `source='server'` and the payload's path |
| Client.DisabledTrackSendsNothing | surfgeo/client.py:56-57 | when disabled, nothing is sent |
| Client.TimeoutOutOfRangeRejected | surfgeo/client.py:179-181 | an out-of-range timeout fails validation and construction |
| Client.NoTimeoutRaises | surfgeo/client.py:29-35 | `timeout=None` passes validation, but construction raises `TypeError` |
| Client.SurfgeoClient.constructor | surfgeo/client.py:18-40 | the stored configuration, and nothing sent yet |
| Client.SurfgeoClient.Create | surfgeo/client.py:18-40 | a new client iff construction does not raise, else that error |
| Client.SurfgeoClient.Validate | surfgeo/client.py:42-44 | re-validating a constructed client returns `True` |
| Client.SurfgeoClient.Track | surfgeo/client.py:46-71 | appends exactly the outbox of the payload to the sent log |
| Client.SurfgeoClient.TrackAsync | surfgeo/client.py:74-94 | the same for the asynchronous variant |
| Client.SurfgeoClient.Post | surfgeo/client.py:96-123 | never raises; a line is printed iff debug is on and the POST timed out or failed, with the matching text |
| Client.SurfgeoClient.PostAsync | surfgeo/client.py:125-150 | the same with the asynchronous messages |
| ClientExamples.TestKeyBody | tests/unit/test_client.py:11 | the test key is valid |
| ClientExamples.AcceptedTestKey | tests/unit/test_client.py:9-14 | the test key's configuration is accepted and stored with the default endpoint and timeout |
| ClientExamples.TestKeyAccepted | tests/unit/test_client.py:9-14 | the same for the literal key |
| ClientExamples.EmptyKeyRequired | tests/unit/test_client.py:16-20 | an empty key raises the "required" error |
| ClientExamples.NoPrefix | tests/unit/test_client.py:22-26 | `'invalid_key'` raises the prefix error |
| ClientExamples.InvalidKeyPrefix | tests/unit/test_client.py:22-26 | the same for the literal key |
| ClientExamples.SlowTimeoutRejected | surfgeo/client.py:179-181 | a timeout of 0.5 is rejected, not clamped |
| Wsgi.Lookup | surfgeo/middleware/wsgi.py:95-98 | an environ lookup misses iff no entry has the key, and otherwise returns a value stored under it |
| Wsgi.DistinctKeys | surfgeo/middleware/wsgi.py:42 | the environ is a dict: no key occurs twice; demanded by `Wsgi.HeadersFromEnviron`, `Wsgi.Handle` and `Wsgi.WsgiMiddleware.Call` |
| Wsgi.LookupEntry | surfgeo/middleware/wsgi.py:66-67 | in such an environ, looking up an entry's key gives exactly that entry's value |
| Wsgi.LookupOr | surfgeo/middleware/wsgi.py:66-67 | `environ.get(key, default)`: the value under the key, or the default; with `Wsgi.LookupEntry` the entry's own value |
| Wsgi.IsHttpKey | surfgeo/middleware/wsgi.py:89 | `key.startswith('HTTP_')`; used by `Wsgi.LoopHeaderNames` and `Wsgi.OtherKeysIgnored` |
| Wsgi.HeaderName | surfgeo/middleware/wsgi.py:91 | `key[5:].replace('_', '-').title()`; stated by `Wsgi.LoopHeaderNamesTitled`, `Wsgi.UserAgentKeyName` and `Wsgi.RefererKeyName` |
| Wsgi.LoopHeaders | surfgeo/middleware/wsgi.py:87-92 | the header dict after the `HTTP_` loop; stated by `Wsgi.LoopHeaderNames` and `Wsgi.LoopHeaderValue` |
| Wsgi.EnvironHeaders | surfgeo/middleware/wsgi.py:81-100 | the loop's dict with `Content-Type` and `Content-Length` set from their keys; stated by `Wsgi.EnvironHeaderNamesTitled`, `Wsgi.ContentKeysOverride` and `Wsgi.EnvironUserAgent` |
| Wsgi.HeadersFromEnviron | surfgeo/middleware/wsgi.py:81-100 | the loop and the two overrides compute the header map |
| Wsgi.LoopHeaderNames | surfgeo/middleware/wsgi.py:88-92 | a name is a header iff some `HTTP_` key translates to it |
| Wsgi.LoopHeaderValue | surfgeo/middleware/wsgi.py:88-92 | its value is that of the last such key |
| Wsgi.LoopHeaderNamesTitled | surfgeo/middleware/wsgi.py:91 | every name from the loop is title-cased |
| Wsgi.ContentNamesTitled | surfgeo/middleware/wsgi.py:95-98 | `Content-Type` and `Content-Length` are title-cased (helper) |
| Wsgi.LiteralTitled | surfgeo/middleware/wsgi.py:95-98 | either of those names is title-cased (helper) |
| Wsgi.EnvironHeaderNamesTitled | surfgeo/middleware/wsgi.py:81-100 | every header name produced is title-cased |
| Wsgi.TitledHeadersMiss | surfgeo/payload.py:53-69 | title-cased headers never hold the lower- or upper-case spellings the extractors also try |
| Wsgi.OtherSpellingsAbsent | surfgeo/middleware/wsgi.py:81-100 | so the environ's headers hold none of them |
| Wsgi.ContentKeysOverride | surfgeo/middleware/wsgi.py:95-98 | `CONTENT_TYPE` and `CONTENT_LENGTH` override whatever the loop stored |
| Wsgi.LookupAppend | surfgeo/middleware/wsgi.py:95-98 | an entry under another key does not change a lookup |
| Wsgi.OtherKeysIgnored | surfgeo/middleware/wsgi.py:88-98 | an entry that is neither `HTTP_` nor a content key changes no header |
| Wsgi.UserAgentKeyName | surfgeo/middleware/wsgi.py:91 | `HTTP_USER_AGENT` becomes `User-Agent` |
| Wsgi.RefererKeyName | surfgeo/middleware/wsgi.py:91 | `HTTP_REFERER` becomes `Referer` |
| Wsgi.EnvironUserAgent | surfgeo/middleware/wsgi.py:88-92 | the payload's user agent is the value of the last key that translates to `User-Agent` |
| Wsgi.EnvironUserAgentMissing | surfgeo/middleware/wsgi.py:88-92 | without such a key it is `'Unknown'` |
| Wsgi.ParseStatus | surfgeo/middleware/wsgi.py:58 | `int(status.split()[0])`, with `IndexError` and `ValueError` as its two errors; stated by `Wsgi.BlankStatusRejected`, `Wsgi.StatusLineCode` and `Wsgi.StatusWordRejected` |
| Wsgi.BlankStatusRejected | surfgeo/middleware/wsgi.py:58 | `status.split()[0]` raises iff the status is all whitespace |
| Wsgi.StatusLineCode | surfgeo/middleware/wsgi.py:58 | `"<code> <reason>"` gives the code |
| Wsgi.StatusWordRejected | surfgeo/middleware/wsgi.py:58 | a status starting with a word raises `ValueError` |
| Wsgi.CapturedStatus | surfgeo/middleware/wsgi.py:54-59 | the cell `status_code[0]` after the given calls: 200 at first, the first unreadable status raising; stated by the four `Wsgi.CapturedStatus…` lemmas below |
| Wsgi.CapturedStatusStep | surfgeo/middleware/wsgi.py:56-59 | one more call overwrites the cell with its status, unless a call already raised |
| Wsgi.CapturedStatusErrorSticks | surfgeo/middleware/wsgi.py:56-59 | a raised error is final |
| Wsgi.CapturedStatusIsLast | surfgeo/middleware/wsgi.py:54-58 | with readable statuses, the cell is 200 without calls and the last call's code otherwise |
| Wsgi.CapturedStatusFirstError | surfgeo/middleware/wsgi.py:56-58 | the first unreadable status decides the error |
| Wsgi.ConfigFromOptions | surfgeo/middleware/wsgi.py:31-37 | the configuration built from the keyword options with defaults `''`, `None`, `0.05`, `False` and `True`; stated by `Wsgi.KeyOnlyOptions` and `Wsgi.MissingKeyOption` |
| Wsgi.KeyOnlyOptions | surfgeo/middleware/wsgi.py:31-37 | options naming only a key give the key-alone configuration |
| Wsgi.MissingKeyOption | surfgeo/middleware/wsgi.py:32 | without a key option construction raises the "required" error |
| Wsgi.ReadableCount | surfgeo/middleware/wsgi.py:56-59 | at most the number of calls |
| Wsgi.ReadablePrefix | surfgeo/middleware/wsgi.py:56-59 | the calls before the count have readable statuses, and the call at the count does not |
| Wsgi.RequestOf | surfgeo/middleware/wsgi.py:65-70 | the metadata dict: `PATH_INFO` or `'/'`, `REQUEST_METHOD` or `'GET'`, the environ's headers and the captured status; stated by `Wsgi.HandledRequest` |
| Wsgi.Handle | surfgeo/middleware/wsgi.py:62-79 | one request: the captured status or its error, then the app's exception, then the payload or the path's error; stated by `Wsgi.HandledRequest` and `Wsgi.UnreadableStatusRaises` and used by `Wsgi.WsgiMiddleware.Call` |
| Wsgi.HandledRequest | surfgeo/middleware/wsgi.py:62-79 | a request with readable statuses, a returning app and a parsing path is tracked with the last status (or 200), `PATH_INFO` or `'/'`, `REQUEST_METHOD` or `'GET'`, and the app's body returned |
| Wsgi.UnreadableStatusRaises | surfgeo/middleware/wsgi.py:56-59 | the first unreadable status raises its error and is the first call not forwarded |
| Wsgi.CaptureStep | surfgeo/middleware/wsgi.py:56-59 | one turn of the capture: an unreadable status is the final outcome and the count of forwarded calls, a readable one moves the cell on |
| Wsgi.CaptureStatus | surfgeo/middleware/wsgi.py:54-59 | forwards exactly the calls before the first unreadable status, unchanged, and computes the captured cell |
| Wsgi.WsgiMiddleware.constructor | surfgeo/middleware/wsgi.py:20-40 | keeps the app and the client |
| Wsgi.WsgiMiddleware.Create | surfgeo/middleware/wsgi.py:20-40 | builds a client from the option defaults, or raises its construction error |
| Wsgi.WsgiMiddleware.Call | surfgeo/middleware/wsgi.py:42-79 | forwards the readable `start_response` calls, returns the app's body or the error, and tracks exactly once when nothing raised |
| Asgi.Latin1Decode | surfgeo/middleware/asgi.py:87-88 | `decode('latin1')` keeps the length and maps each byte to the code point of its value |
| Asgi.Latin1Encode | surfgeo/middleware/asgi.py:87-88 | the inverse mapping on strings below U+0100 |
| Asgi.Latin1DecodeEncode | surfgeo/middleware/asgi.py:87-88 | encoding the decoded string gives the bytes back |
| Asgi.Latin1EncodeDecode | surfgeo/middleware/asgi.py:87-88 | decoding the encoding gives the string back |
| Asgi.Latin1DecodeInjective | surfgeo/middleware/asgi.py:87-88 | different byte strings decode to different names |
| Asgi.HeadersFromScope | surfgeo/middleware/asgi.py:79-90 | the loop computes the header map of the scope's list |
| Asgi.HeaderMap | surfgeo/middleware/asgi.py:85-90 | the dict after the loop over the scope's pairs, each decoded as Latin-1; stated by `Asgi.HeaderMapNames` and `Asgi.HeaderMapValue` |
| Asgi.ScopeHeaders | surfgeo/middleware/asgi.py:79-90 | `_extract_headers_from_scope`: the header map of `scope.get('headers', [])`; stated by `Asgi.HeaderMapNames`, `Asgi.HeaderMapValue` and `Asgi.NoHeaderList` |
| Asgi.HeaderMapNames | surfgeo/middleware/asgi.py:86-89 | a name is a header iff some pair's name decodes to it: case is kept |
| Asgi.HeaderMapValue | surfgeo/middleware/asgi.py:86-89 | its value is the decoded value of the last such pair |
| Asgi.LowerCaseUserAgent | surfgeo/middleware/asgi.py:86-89 | a lower-case `user-agent` pair is what the payload reports when no `User-Agent` pair exists |
| Asgi.NoHeaderList | surfgeo/middleware/asgi.py:86 | a scope without `headers` has none, so the agent is `'Unknown'` and the referrer `None` |
| Asgi.Observe | surfgeo/middleware/asgi.py:56-59 | `custom_send` on one message: a start message sets the cell to its status, another leaves it, a missing key raises; stated by `Asgi.ObserveRaises` |
| Asgi.CapturedSend | surfgeo/middleware/asgi.py:54-60 | the cell after the given messages: 200 at first, the first bad message raising; stated by `Asgi.CapturedSendIsLastStart`, `Asgi.CapturedSendStep` and `Asgi.CapturedSendErrorSticks` |
| Asgi.CapturedSendIsLastStart | surfgeo/middleware/asgi.py:54-59 | with well-formed messages, the cell is the last `http.response.start` status, or 200 |
| Asgi.ObserveRaises | surfgeo/middleware/asgi.py:58-59 | one message raises `KeyError` iff it lacks `type`, or is a start message without `status` |
| Asgi.AcceptedCount | surfgeo/middleware/asgi.py:56-60 | at most the number of messages |
| Asgi.AcceptedPrefix | surfgeo/middleware/asgi.py:56-60 | the messages before the count are well-formed, the one at it is not |
| Asgi.CapturedSendStep | surfgeo/middleware/asgi.py:56-60 | one more message updates the cell, unless an earlier one raised |
| Asgi.CapturedSendErrorSticks | surfgeo/middleware/asgi.py:56-60 | a raised error is final |
| Asgi.CaptureSend | surfgeo/middleware/asgi.py:54-60 | forwards exactly the messages before the first bad one, unchanged and in order, and computes the cell |
| Asgi.HandledConnection | surfgeo/middleware/asgi.py:63-77 | an HTTP connection with well-formed messages, a returning app and a parsing path is tracked with the last start status, the path or `'/'`, the method or `'GET'` |
| Asgi.StatusMissingRaises | surfgeo/middleware/asgi.py:58-59 | a start message without `status` raises and is the first message not forwarded |
| Asgi.FieldOr | surfgeo/middleware/asgi.py:67-68 | `scope.get(key, default)`: the field when present, else the default (helper) |
| Asgi.RequestOf | surfgeo/middleware/asgi.py:66-71 | the metadata dict: the path or `'/'`, the method or `'GET'`, the scope's headers and the captured status; stated by `Asgi.HandledConnection` |
| Asgi.HandleHttp | surfgeo/middleware/asgi.py:53-77 | one HTTP connection: the captured status or its error, then the app's exception, then the payload or the path's error; stated by `Asgi.HandledConnection` and `Asgi.StatusMissingRaises` and used by `Asgi.AsgiMiddleware.Call` |
| Asgi.AsgiMiddleware.constructor | surfgeo/middleware/asgi.py:17-37 | keeps the app and the client |
| Asgi.AsgiMiddleware.Create | surfgeo/middleware/asgi.py:17-37 | builds a client from the option defaults, or raises its construction error |
| Asgi.AsgiMiddleware.Call | surfgeo/middleware/asgi.py:39-77 | a scope without `type` raises; a non-HTTP scope runs the app with the real `send` and tracks nothing; an HTTP scope forwards the accepted messages and tracks exactly once when nothing raised |
| Flask.ResolveConfig | surfgeo/middleware/flask.py:42-65 | each field follows truthy keyword > application config > default; debug is on iff either side is; tracking is on iff both sides allow it |
| Flask.NothingConfigured | surfgeo/middleware/flask.py:42-65 | with no settings the configuration is the key-alone one for `''` |
| Flask.NoKeyAnywhere | surfgeo/middleware/flask.py:43-60 | without a truthy key on either side, set-up raises the "required" error |
| Flask.DebugNotOverridable | surfgeo/middleware/flask.py:52-53 | a keyword argument cannot switch debugging off |
| Flask.EitherSideDisables | surfgeo/middleware/flask.py:55-56 | either side alone switches tracking off |
| Flask.AppTimeoutNoneRaises | surfgeo/middleware/flask.py:49-50 | `SURFGEO_TIMEOUT = None` makes set-up raise `TypeError` |
| Flask.RequestOf | surfgeo/middleware/flask.py:89-94 | the metadata dict: the request's path, method and headers with the response's status code; stated by `Flask.TrackedRequest` |
| Flask.TrackedRequest | surfgeo/middleware/flask.py:89-97 | the payload of a request carries the response's status, the normalized path and the upper-cased method |
| Flask.FlaskApp.constructor | surfgeo/middleware/flask.py:74 | an application with its config and no extensions |
| Flask.FlaskResponse.constructor | surfgeo/middleware/flask.py:93 | a response with its status code |
| Flask.SurfgeoExtension.constructor | surfgeo/middleware/flask.py:19-27 | no client before `init_app` |
| Flask.SurfgeoExtension.InitApp | surfgeo/middleware/flask.py:32-74 | raises the construction error of the resolved configuration with nothing changed, or stores a new client and registers the extension under `'surfgeo'` |
| Flask.SurfgeoExtension.TrackRequest | surfgeo/middleware/flask.py:76-103 | returns the very same response after tracking once, or raises the path error (or `AttributeError` without a client) |
| Flask.NewExtension | surfgeo/middleware/flask.py:19-30 | without an app, an extension with no client; with one, the extension set up on it, or `init_app`'s error |

## Left out

- Threads and tasks: `threading.Thread` and `asyncio.create_task` are left out as concurrency. Dispatch is the append to `sent`; a started POST is never awaited.
- The network: `requests.post` and `httpx.AsyncClient` are left out as I/O. `Post` and `PostAsync` take the network's outcome as a parameter.
- `print`: the debug lines are left out as a side channel. They are returned as `trace` instead.
- The clock and `uuid.uuid4()`: these are non-deterministic, so they are the parameters `now` and `requestId`. Nothing is proved about the identifier's uniqueness.
- Unicode: `upper`, `title`, `isalnum`, `isdigit` and `split()` use ASCII character classes. Python's full Unicode tables are not modelled.
- Python versions: `urlparse` follows CPython 3.12, while the package accepts Python 3.8 and later. Earlier interpreters split some inputs differently: 3.8 keeps `a:123` as a path under its port-number rule, where 3.12 reads scheme `a` and path `123`, and patch releases before the 2023 security fix do not strip leading C0 controls and spaces.
- `Urls.UrlSplit`: does not model `_checknetloc` (NFKC normalisation of non-ASCII hosts). It also does not model `_check_bracketed_netloc` (IP-address validation of `[...]` hosts). Both are table-driven library code. The model raises only for unbalanced brackets.
- `Urls.BracketFreeParses`: holds for the model's `urlparse` only. CPython also raises for a non-ASCII host whose NFKC form holds `/`, `?`, `#`, `@` or `:` (for example `http://a\uFF0Fb/`), which contains no bracket.
- `Urls.AuthorityPath`: its balanced-bracket direction holds for the model only. CPython raises for balanced but invalid bracketed hosts such as `http://[foo]/` and `http://[127.0.0.1]/`.
- `Urls.SchemeAuthorityPath`: the same restriction as `Urls.AuthorityPath`, for URLs with a scheme.
- Floating point: timeouts are exact `real` numbers, with no rounding and no NaN. A NaN timeout passes the range test at `surfgeo/client.py:179-181`, since every comparison with it is false, and `max(0.01, min(nan, 0.1))` at `surfgeo/client.py:35` stores 0.01. The model has no such value, so `Client.StoredConfig` never shows a stored timeout that differs from the given one.
- Wrapped applications are pure functions of their request (environ or scope). A WSGI application that calls `start_response` lazily, while its body is iterated, is not modelled. So is one that catches the `ValueError` raised by `custom_start_response`, or an ASGI application that catches the `KeyError` raised by `custom_send` (`surfgeo/middleware/asgi.py:58-59`). In both `AppRun` types the first call that raises ends the request.
- `exc_info`: the third argument of `start_response` is passed through untouched and not represented.
- WSGI environ values are strings. ASGI `status` values are integers. Header values in a Flask request are a header map.
- ASGI `receive` is passed through untouched and not represented. Message contents other than `type` and `status` are an opaque byte string.
- Flask's `after_request` registration and the global `request` object are framework glue, outside the model. `TrackRequest` takes the request as a parameter.
- `Flask.SurfgeoExtension.TrackRequest`: states the response is returned unchanged by returning the same object. The response's other fields are not represented.
- The Django and FastAPI adapters, `surfgeo/__init__.py`, `setup.py` and the example applications are not part of this model.

=== FILE: asgi.dfy ===
/**
 * The ASGI adapter: latin-1 decoding of the scope's header list, the
 * status capture done by the wrapped `send`, the pass-through of
 * non-HTTP scopes, and the middleware object that tracks HTTP requests.
 */
module Asgi {
  import opened Wrappers
  import opened PyValues
  import opened PyStrings
  import opened Types
  import opened Urls
  import opened Payload
  import opened Client
  import Wsgi

  newtype byte = x: int | 0 <= x < 256

  /** `bytes.decode('latin1')`: every byte is the code point of the same value. */
  function Latin1Decode(bs: seq<byte>): (s: string)
    ensures |s| == |bs|
    ensures forall i :: 0 <= i < |bs| ==> s[i] as int == bs[i] as int
  {
    if bs == [] then "" else [(bs[0] as int) as char] + Latin1Decode(bs[1..])
  }

  /** A string every character of which latin-1 can encode. */
  predicate Latin1Encodable(s: string)
  {
    forall i :: 0 <= i < |s| ==> s[i] as int < 256
  }

  /** `str.encode('latin1')` on an encodable string. */
  function Latin1Encode(s: string): (bs: seq<byte>)
    requires Latin1Encodable(s)
    ensures |bs| == |s|
    ensures forall i :: 0 <= i < |s| ==> bs[i] as int == s[i] as int
  {
    if s == "" then [] else [(s[0] as int) as byte] + Latin1Encode(s[1..])
  }

  /** Decoding loses nothing: encoding the decoded string gives the bytes back. */
  lemma Latin1DecodeEncode(bs: seq<byte>)
    ensures Latin1Encodable(Latin1Decode(bs))
    ensures Latin1Encode(Latin1Decode(bs)) == bs
  {
    var s := Latin1Decode(bs);
    assert Latin1Encodable(s);
    var back := Latin1Encode(s);
    assert forall i :: 0 <= i < |bs| ==> back[i] == bs[i];
  }

  /** And every encodable string is the decoding of its encoding. */
  lemma Latin1EncodeDecode(s: string)
    requires Latin1Encodable(s)
    ensures Latin1Decode(Latin1Encode(s)) == s
  {
    var back := Latin1Decode(Latin1Encode(s));
    assert forall i :: 0 <= i < |s| ==> back[i] as int == s[i] as int;
  }

  /** Two byte strings decode alike only when they are equal. */
  lemma Latin1DecodeInjective(a: seq<byte>, b: seq<byte>)
    requires Latin1Decode(a) == Latin1Decode(b)
    ensures a == b
  {
    Latin1DecodeEncode(a);
    Latin1DecodeEncode(b);
  }

  /** The scope's `headers` list: (name, value) byte-string pairs in order. */
  type RawHeaders = seq<(seq<byte>, seq<byte>)>

  /** The header dict after the loop of `_extract_headers_from_scope`. */
  function HeaderMap(pairs: RawHeaders): Headers
  {
    if pairs == [] then map[]
    else
      var (name, value) := pairs[|pairs| - 1];
      HeaderMap(pairs[..|pairs| - 1])[Latin1Decode(name) := Text(Latin1Decode(value))]
  }

  /** Pair `i` is stored under `name`. */
  predicate Decodes(pairs: RawHeaders, i: int, name: string)
  {
    0 <= i < |pairs| && Latin1Decode(pairs[i].0) == name
  }

  /** A name is a key exactly when some pair's name decodes to it: names keep their case. */
  lemma {:induction false} HeaderMapNames(pairs: RawHeaders, name: string)
    ensures name in HeaderMap(pairs) <==> exists i :: Decodes(pairs, i, name)
  {
    if pairs != [] {
      var init := pairs[..|pairs| - 1];
      HeaderMapNames(init, name);
      assert forall i :: Decodes(init, i, name) ==> Decodes(pairs, i, name);
      assert forall i :: Decodes(pairs, i, name) && i < |pairs| - 1 ==> Decodes(init, i, name);
      if Decodes(pairs, |pairs| - 1, name) {
        assert name in HeaderMap(pairs);
      } else {
        assert name in HeaderMap(pairs) <==> name in HeaderMap(init);
      }
    }
  }

  /** The value stored under a name is that of the last pair with that name. */
  lemma {:induction false} HeaderMapValue(pairs: RawHeaders, j: nat, name: string)
    requires Decodes(pairs, j, name)
    requires forall i :: j < i < |pairs| ==> !Decodes(pairs, i, name)
    ensures name in HeaderMap(pairs) && HeaderMap(pairs)[name] == Text(Latin1Decode(pairs[j].1))
  {
    var init := pairs[..|pairs| - 1];
    if j < |pairs| - 1 {
      assert !Decodes(pairs, |pairs| - 1, name);
      assert Decodes(init, j, name);
      assert forall i :: j < i < |init| && Decodes(init, i, name) ==> Decodes(pairs, i, name);
      HeaderMapValue(init, j, name);
    }
  }

  /** What the middleware reads of an ASGI connection scope. */
  datatype Scope = Scope(
    kind: Field<string>,        // `scope['type']`
    path: Field<string>,
    httpMethod: Field<string>,
    headers: Field<RawHeaders>)

  /** `scope.get('headers', [])`. */
  function RawHeadersOf(scope: Scope): RawHeaders
  {
    match scope.headers
    case Present(pairs) => pairs
    case Absent => []
  }

  /** `_extract_headers_from_scope`. */
  function ScopeHeaders(scope: Scope): Headers
  {
    HeaderMap(RawHeadersOf(scope))
  }

  /** `_extract_headers_from_scope`, loop and all. */
  method HeadersFromScope(scope: Scope) returns (headers: Headers)
    ensures headers == ScopeHeaders(scope)
  {
    var pairs := RawHeadersOf(scope);
    headers := map[];
    for i := 0 to |pairs|
      invariant headers == HeaderMap(pairs[..i])
    {
      assert pairs[..i + 1][..i] == pairs[..i];
      var (name, value) := pairs[i];
      headers := headers[Latin1Decode(name) := Text(Latin1Decode(value))];
    }
    assert pairs[..|pairs|] == pairs;
  }

  /**
   * ASGI servers send header names in lower case; the user agent is then
   * read from the `user-agent` spelling, the second the extractor tries.
   */
  lemma LowerCaseUserAgent(scope: Scope, j: nat)
    requires Decodes(RawHeadersOf(scope), j, "user-agent")
    requires forall i :: j < i < |RawHeadersOf(scope)| ==> !Decodes(RawHeadersOf(scope), i, "user-agent")
    requires forall i :: !Decodes(RawHeadersOf(scope), i, "User-Agent")
    ensures ExtractUserAgent(ScopeHeaders(scope)) == Latin1Decode(RawHeadersOf(scope)[j].1)
  {
    HeaderMapValue(RawHeadersOf(scope), j, "user-agent");
    HeaderMapNames(RawHeadersOf(scope), "User-Agent");
  }

  /** A scope without a header list has no headers, so the user agent is `'Unknown'`. */
  lemma NoHeaderList(scope: Scope)
    requires scope.headers.Absent?
    ensures ScopeHeaders(scope) == map[]
    ensures ExtractUserAgent(ScopeHeaders(scope)) == "Unknown" && ExtractReferrer(ScopeHeaders(scope)) == None
  {
  }

  /** What the middleware reads of a message the application sends. */
  datatype Message = Message(
    kind: Field<string>,    // `message['type']`
    status: Field<int>,     // `message['status']`
    body: seq<byte>)        // everything else, passed on untouched

  const ResponseStart: string := "http.response.start"

  /** Why `custom_send` raises. */
  datatype SendError =
    | MissingType    // `message['type']` raises `KeyError`
    | MissingStatus  // `message['status']` raises `KeyError` on a start message

  /** `custom_send` on one message with the cell holding `cell`. */
  function Observe(cell: int, m: Message): (r: Result<int, SendError>)
  {
    match m.kind
    case Absent => Err(MissingType)
    case Present(k) =>
      if k != ResponseStart then Ok(cell)
      else match m.status
        case Absent => Err(MissingStatus)
        case Present(s) => Ok(s)
  }

  /** The cell `status_code[0]` after the given messages: 200 at first; the first bad message raises. */
  function CapturedSend(messages: seq<Message>): Result<int, SendError>
  {
    if messages == [] then Ok(200)
    else
      match CapturedSend(messages[..|messages| - 1])
      case Err(e) => Err(e)
      case Ok(cell) => Observe(cell, messages[|messages| - 1])
  }

  /** A message `custom_send` accepts. */
  predicate WellFormed(m: Message)
  {
    m.kind.Present? && (m.kind.value == ResponseStart ==> m.status.Present?)
  }

  /** The status of the last start message, searched from the end, or 200. */
  function LastStartStatus(messages: seq<Message>): int
  {
    if messages == [] then 200
    else
      var m := messages[|messages| - 1];
      if m.kind == Present(ResponseStart) && m.status.Present? then m.status.value
      else LastStartStatus(messages[..|messages| - 1])
  }

  /** On well-formed messages the cell ends with the last start message's status. */
  lemma {:induction false} CapturedSendIsLastStart(messages: seq<Message>)
    requires forall i :: 0 <= i < |messages| ==> WellFormed(messages[i])
    ensures CapturedSend(messages) == Ok(LastStartStatus(messages))
  {
    if messages != [] {
      var init := messages[..|messages| - 1];
      assert forall i :: 0 <= i < |init| ==> init[i] == messages[i];
      CapturedSendIsLastStart(init);
      assert WellFormed(messages[|messages| - 1]);
    }
  }

  /** Observing a message raises exactly when the message is not well-formed. */
  lemma ObserveRaises(cell: int, m: Message)
    ensures Observe(cell, m).Err? <==> !WellFormed(m)
  {
  }

  /** The number of leading messages `custom_send` accepts; only those reach the server. */
  function AcceptedCount(messages: seq<Message>): (n: nat)
    ensures n <= |messages|
  {
    if messages == [] || !WellFormed(messages[0]) then 0 else 1 + AcceptedCount(messages[1..])
  }

  lemma {:induction false} AcceptedPrefix(messages: seq<Message>, i: nat)
    requires i < |messages|
    ensures i < AcceptedCount(messages) ==> WellFormed(messages[i])
    ensures i == AcceptedCount(messages) ==> !WellFormed(messages[i])
  {
    if i > 0 && WellFormed(messages[0]) {
      AcceptedPrefix(messages[1..], i - 1);
      assert messages[1..][i - 1] == messages[i];
    }
  }

  lemma CapturedSendStep(messages: seq<Message>, i: nat)
    requires i < |messages|
    ensures CapturedSend(messages[..i + 1]) ==
      match CapturedSend(messages[..i])
      case Err(e) => Err(e)
      case Ok(cell) => Observe(cell, messages[i])
  {
    assert messages[..i + 1][..i] == messages[..i];
  }

  lemma {:induction false} CapturedSendErrorSticks(messages: seq<Message>, n: nat)
    requires n <= |messages| && CapturedSend(messages[..n]).Err?
    ensures CapturedSend(messages) == CapturedSend(messages[..n])
    decreases |messages| - n
  {
    if n < |messages| {
      assert messages[..n + 1][..n] == messages[..n];
      CapturedSendErrorSticks(messages, n + 1);
    } else {
      assert messages[..n] == messages;
    }
  }

  /**
   * The messages through `custom_send`: each is looked at before it is
   * awaited on the real `send`, so the first bad message raises and is not
   * passed on; the others are passed on unchanged and in order.
   */
  method CaptureSend(messages: seq<Message>) returns (forwarded: seq<Message>, captured: Result<int, SendError>)
    ensures forwarded == messages[..AcceptedCount(messages)]
    ensures captured == CapturedSend(messages)
  {
    var statusCode := 200;
    forwarded := [];
    for i := 0 to |messages|
      invariant CapturedSend(messages[..i]) == Ok(statusCode)
      invariant i <= AcceptedCount(messages) && forwarded == messages[..i]
    {
      var m := messages[i];
      CapturedSendStep(messages, i);
      AcceptedPrefix(messages, i);
      if m.kind.Absent? {
        CapturedSendErrorSticks(messages, i + 1);
        return forwarded, Err(MissingType);
      }
      if m.kind.value == ResponseStart {
        if m.status.Absent? {
          CapturedSendErrorSticks(messages, i + 1);
          return forwarded, Err(MissingStatus);
        }
        statusCode := m.status.value;
      }
      forwarded := forwarded + [m];
    }
    assert messages[..|messages|] == messages;
    return forwarded, Ok(statusCode);
  }

  /**
   * What the wrapped application does with one connection: the messages it
   * sends, in order, then whether it returns or raises (with the message).
   */
  datatype AppRun = AppRun(sent: seq<Message>, outcome: Outcome<string>)

  /** Why a call of the middleware raises. */
  datatype CallError =
    | ScopeTypeMissing              // `scope['type']` raises `KeyError`
    | SendRaised(send: SendError)   // from `custom_send`, inside the application
    | AppRaised(message: string)    // the application's own exception
    | PathRaised(url: UrlError)     // from `urlparse` in `build_payload`

  /** A field of the scope, or its default. */
  function FieldOr(f: Field<string>, default: string): string
  {
    match f
    case Present(v) => v
    case Absent => default
  }

  /** The request metadata `__call__` builds once the application has returned. */
  function RequestOf(scope: Scope, status: int): RequestMetadata
  {
    RequestMetadata(FieldOr(scope.path, "/"), FieldOr(scope.httpMethod, "GET"), ScopeHeaders(scope), Present(Some(status)))
  }

  /** One HTTP connection: the payload to track, or the exception that escapes. */
  function HandleHttp(run: AppRun, scope: Scope, now: int, requestId: string): Result<TrackingPayload, CallError>
  {
    match CapturedSend(run.sent)
    case Err(e) => Err(SendRaised(e))
    case Ok(status) =>
      match run.outcome
      case Fail(m) => Err(AppRaised(m))
      case Pass =>
        match BuildPayload(RequestOf(scope, status), now, requestId)
        case Err(u) => Err(PathRaised(u))
        case Ok(payload) => Ok(payload)
  }

  /**
   * An HTTP connection whose messages are well-formed, whose application
   * returns and whose path parses is tracked with the last start
   * message's status (200 without one) and the scope's path and method
   * (defaulting to `'/'` and `'GET'`).
   */
  lemma HandledConnection(run: AppRun, scope: Scope, now: int, requestId: string)
    requires forall i :: 0 <= i < |run.sent| ==> WellFormed(run.sent[i])
    requires run.outcome.Pass?
    requires NormalizePath(FieldOr(scope.path, "/")).Ok?
    ensures HandleHttp(run, scope, now, requestId).Ok?
    ensures var p := HandleHttp(run, scope, now, requestId).value;
      p.statusCode == Present(Some(LastStartStatus(run.sent))) &&
      p.path == Present(NormalizePath(FieldOr(scope.path, "/")).value) &&
      p.httpMethod == Present(Upper(FieldOr(scope.httpMethod, "GET"))) &&
      p.userAgent == Present(ExtractUserAgent(ScopeHeaders(scope))) &&
      p.referrer == Present(ExtractReferrer(ScopeHeaders(scope)))
  {
    CapturedSendIsLastStart(run.sent);
  }

  /** A start message without a status raises `KeyError`, so the request is not tracked. */
  lemma StatusMissingRaises(run: AppRun, scope: Scope, now: int, requestId: string, j: nat)
    requires j < |run.sent| && run.sent[j].kind == Present(ResponseStart) && run.sent[j].status.Absent?
    requires forall i :: 0 <= i < j ==> WellFormed(run.sent[i])
    ensures HandleHttp(run, scope, now, requestId) == Err(SendRaised(MissingStatus))
    ensures AcceptedCount(run.sent) == j
  {
    var upto := run.sent[..j];
    assert forall i :: 0 <= i < |upto| ==> upto[i] == run.sent[i];
    CapturedSendIsLastStart(upto);
    CapturedSendStep(run.sent, j);
    CapturedSendErrorSticks(run.sent, j + 1);
    AcceptedPrefix(run.sent, j);
    var n := AcceptedCount(run.sent);
    if n < j {
      AcceptedPrefix(run.sent, n);
    }
  }

  /** The generic ASGI middleware around an application. */
  class AsgiMiddleware {
    const app: Scope -> AppRun
    const client: SurfgeoClient

    ghost predicate Valid()
    {
      client.Valid()
    }

    constructor (app: Scope -> AppRun, client: SurfgeoClient)
      requires client.Valid()
      ensures Valid() && this.app == app && this.client == client
    {
      this.app := app;
      this.client := client;
    }

    /** `surfgeoASGIMiddleware(app, **config)`: builds the client, or raises its error. */
    static method Create(app: Scope -> AppRun, options: Wsgi.Options) returns (r: Result<AsgiMiddleware, CreateError>)
      ensures r.Err? <==> ConstructionError(Wsgi.ConfigFromOptions(options)).Some?
      ensures r.Err? ==> r.error == ConstructionError(Wsgi.ConfigFromOptions(options)).value
      ensures r.Ok? ==> fresh(r.value) && fresh(r.value.client) && r.value.Valid() && r.value.app == app
      ensures r.Ok? ==> r.value.client.config == StoredConfig(Wsgi.ConfigFromOptions(options)) && r.value.client.sent == []
    {
      var created := SurfgeoClient.Create(Wsgi.ConfigFromOptions(options));
      match created {
        case Err(e) =>
          return Err(e);
        case Ok(client) =>
          var middleware := new AsgiMiddleware(app, client);
          return Ok(middleware);
      }
    }

    /**
     * `__call__(scope, receive, send)`. Returns the messages that reach the
     * server's `send` and whether the call raises. A scope of another type
     * goes to the application with the real `send`; an HTTP scope is
     * tracked once, after the application returns, when nothing raised.
     */
    method Call(scope: Scope, now: int, requestId: string) returns (forwarded: seq<Message>, r: Outcome<CallError>)
      requires Valid()
      modifies client`sent
      ensures scope.kind.Absent? ==> forwarded == [] && r == Fail(ScopeTypeMissing) && client.sent == old(client.sent)
      ensures scope.kind.Present? && scope.kind.value != "http" ==>
        forwarded == app(scope).sent && client.sent == old(client.sent) &&
        r == (match app(scope).outcome case Pass => Pass case Fail(m) => Fail(AppRaised(m)))
      ensures scope.kind == Present("http") ==> forwarded == app(scope).sent[..AcceptedCount(app(scope).sent)]
      ensures scope.kind == Present("http") ==> var h := HandleHttp(app(scope), scope, now, requestId);
        (r.Pass? <==> h.Ok?) && (r.Fail? ==> r.error == h.error) &&
        client.sent == old(client.sent) + (if h.Ok? then Outbox(client.config, h.value) else [])
    {
      if scope.kind.Absent? {
        return [], Fail(ScopeTypeMissing);
      }
      var run := app(scope);
      if scope.kind.value != "http" {
        forwarded := run.sent;
        match run.outcome {
          case Pass =>
            return forwarded, Pass;
          case Fail(m) =>
            return forwarded, Fail(AppRaised(m));
        }
      }
      var captured;
      forwarded, captured := CaptureSend(run.sent);
      if captured.Err? {
        return forwarded, Fail(SendRaised(captured.error));
      }
      if run.outcome.Fail? {
        return forwarded, Fail(AppRaised(run.outcome.error));
      }
      var headers := HeadersFromScope(scope);
      var metadata := RequestMetadata(FieldOr(scope.path, "/"), FieldOr(scope.httpMethod, "GET"),
        headers, Present(Some(captured.value)));
      match BuildPayload(metadata, now, requestId) {
        case Err(u) =>
          return forwarded, Fail(PathRaised(u));
        case Ok(payload) =>
          client.TrackAsync(payload);
          return forwarded, Pass;
      }
    }
  }
}

=== FILE: client.dfy ===
/**
 * The tracking client: configuration validation, the immutable stored
 * configuration, and fire-and-forget dispatch. Dispatch is modelled as
 * appending the POST request a background worker would send to a ghost
 * log; the network outcome of that POST is a parameter of the worker.
 */
module Client {
  import opened Wrappers
  import opened PyValues
  import opened PyStrings
  import opened Types
  import opened Urls

  const DefaultEndpoint: string := "https://api.surfgeo.com/api/track"
  const MinTimeout: real := 0.01
  const MaxTimeout: real := 0.1

  /** The default endpoint is accepted by `urlparse`. */
  lemma DefaultEndpointParses()
    ensures UrlSplit(DefaultEndpoint).Ok?
  {
    BracketFreeParses(DefaultEndpoint);
  }

  /** The identifying `User-Agent` the SDK sends with every POST. */
  const SdkUserAgent: string := "surfgeo-Python-SDK/1.0.0"

  /** The headers of every POST. */
  const RequestHeaders: map<string, string> :=
    map["Content-Type" := "application/json", "User-Agent" := SdkUserAgent]

  /** The rules of configuration validation, one error per rule. */
  datatype ConfigError =
    | KeyRequired
    | KeyNotString
    | KeyPrefix
    | KeyLength
    | KeyCharset
    | EndpointInvalid
    | TimeoutRange

  /** The message of the `ValueError` raised for each rule. */
  function Message(e: ConfigError): string
  {
    match e
    case KeyRequired => "surfgeo: script_key is required"
    case KeyNotString => "surfgeo: script_key must be a string"
    case KeyPrefix => "surfgeo: script_key must start with \"sk_\""
    case KeyLength => "surfgeo: script_key must be between 20 and 50 characters"
    case KeyCharset => "surfgeo: script_key must be alphanumeric (underscores allowed) after \"sk_\" prefix"
    case EndpointInvalid => "surfgeo: endpoint must be a valid URL"
    case TimeoutRange => "surfgeo: timeout must be between 0.01 and 0.1 seconds"
  }

  /** The lengths of the messages, which already tell them apart. */
  function MessageLength(e: ConfigError): nat
  {
    match e
    case KeyRequired => 31
    case KeyNotString => 36
    case KeyPrefix => 41
    case KeyLength => 56
    case KeyCharset => 81
    case EndpointInvalid => 37
    case TimeoutRange => 53
  }

  lemma MessageHasLength(e: ConfigError)
    ensures |Message(e)| == MessageLength(e)
  {
  }

  /** Each rule has its own message. */
  lemma MessagesDistinct(e1: ConfigError, e2: ConfigError)
    requires e1 != e2
    ensures Message(e1) != Message(e2)
  {
    MessageHasLength(e1);
    MessageHasLength(e2);
  }

  /**
   * Whether `urlparse(e)` returns normally: a string parses unless its
   * network location has an unbalanced bracket, a falsy non-string is
   * turned into `''` first, and a truthy non-string has no `decode` method.
   */
  predicate UrlParses(e: PyValue)
  {
    if e.PyStr? then UrlSplit(e.s).Ok? else !Truthy(e)
  }

  /** `_validate_config`: the guards in order; the first that fails decides the error. */
  function ValidateConfig(c: Config): Outcome<ConfigError>
  {
    if !Truthy(c.scriptKey) then Fail(KeyRequired)
    else if !c.scriptKey.PyStr? then Fail(KeyNotString)
    else if !StartsWith(c.scriptKey.s, "sk_") then Fail(KeyPrefix)
    else if |c.scriptKey.s| < 20 || |c.scriptKey.s| > 50 then Fail(KeyLength)
    else if !IsAlnumString(RemoveChar(c.scriptKey.s[3..], '_')) then Fail(KeyCharset)
    else if c.endpoint != PyNone && !UrlParses(c.endpoint) then Fail(EndpointInvalid)
    else if c.timeout != PyNone &&
            (!IsNumber(c.timeout) || NumberValue(c.timeout) < MinTimeout || NumberValue(c.timeout) > MaxTimeout)
    then Fail(TimeoutRange)
    else Pass
  }

  /** The rules in the order they are checked. */
  const Rules: seq<ConfigError> :=
    [KeyRequired, KeyNotString, KeyPrefix, KeyLength, KeyCharset, EndpointInvalid, TimeoutRange]

  /** What may follow `sk_`: letters, digits and `_`, with at least one letter or digit. */
  predicate WellFormedKeyBody(b: string)
  {
    (forall i :: 0 <= i < |b| ==> IsAlnum(b[i]) || b[i] == '_') &&
    (exists i :: 0 <= i < |b| && IsAlnum(b[i]))
  }

  /** `s[3:]`. */
  function KeyBody(s: string): string
  {
    if |s| >= 3 then s[3..] else ""
  }

  /** Whether configuration `c`, taken on its own, breaks the rule of error `e`. */
  predicate Violates(c: Config, e: ConfigError)
  {
    match e
    case KeyRequired => !Truthy(c.scriptKey)
    case KeyNotString => !c.scriptKey.PyStr?
    case KeyPrefix => c.scriptKey.PyStr? && !("sk_" <= c.scriptKey.s)
    case KeyLength => c.scriptKey.PyStr? && !(20 <= |c.scriptKey.s| <= 50)
    case KeyCharset => c.scriptKey.PyStr? && !WellFormedKeyBody(KeyBody(c.scriptKey.s))
    case EndpointInvalid =>
      if c.endpoint.PyStr? then UrlSplit(c.endpoint.s).Err? else Truthy(c.endpoint)
    case TimeoutRange =>
      c.timeout != PyNone && !(IsNumber(c.timeout) && MinTimeout <= NumberValue(c.timeout) <= MaxTimeout)
  }

  /** Removing the underscores leaves a non-empty alphanumeric string exactly for a well-formed body. */
  lemma KeyBodyCheck(b: string)
    ensures IsAlnumString(RemoveChar(b, '_')) <==> WellFormedKeyBody(b)
  {
    var r := RemoveChar(b, '_');
    RemoveCharChars(b, '_');
    if IsAlnumString(r) {
      assert r[0] in r;
      var i :| 0 <= i < |b| && b[i] == r[0];
      assert IsAlnum(b[i]);
      forall k | 0 <= k < |b| ensures IsAlnum(b[k]) || b[k] == '_' {
        if b[k] != '_' {
          assert b[k] in r;
          var j :| 0 <= j < |r| && r[j] == b[k];
        }
      }
    }
    if WellFormedKeyBody(b) {
      var i :| 0 <= i < |b| && IsAlnum(b[i]);
      assert b[i] in r;
      forall k | 0 <= k < |r| ensures IsAlnum(r[k]) {
        assert r[k] in b;
        var j :| 0 <= j < |b| && b[j] == r[k];
      }
    }
  }

  /**
   * Validation fails with the error of the first rule the configuration
   * breaks, and passes exactly when it breaks none.
   */
  lemma ValidateReportsFirstViolation(c: Config)
    ensures ValidateConfig(c) == Pass <==> forall i :: 0 <= i < |Rules| ==> !Violates(c, Rules[i])
    ensures forall i :: 0 <= i < |Rules| ==>
      (ValidateConfig(c) == Fail(Rules[i]) <==>
        Violates(c, Rules[i]) && forall j :: 0 <= j < i ==> !Violates(c, Rules[j]))
  {
    if c.scriptKey.PyStr? {
      var s := c.scriptKey.s;
      if |s| >= 3 {
        KeyBodyCheck(s[3..]);
      }
      assert StartsWith(s, "sk_") <==> "sk_" <= s;
    }
    assert Rules[0] == KeyRequired && Rules[1] == KeyNotString && Rules[2] == KeyPrefix;
    assert Rules[3] == KeyLength && Rules[4] == KeyCharset && Rules[5] == EndpointInvalid;
    assert Rules[6] == TimeoutRange;
  }

  /** A script key that passes every key rule. */
  predicate ValidKey(s: string)
  {
    StartsWith(s, "sk_") && 20 <= |s| <= 50 && WellFormedKeyBody(s[3..])
  }

  /** A configuration given only a script key is accepted exactly when the key is valid. */
  lemma KeyAloneAccepted(s: string)
    ensures ValidateConfig(ConfigWithKey(PyStr(s))) == Pass <==> ValidKey(s)
  {
    if |s| >= 3 {
      KeyBodyCheck(s[3..]);
    }
  }

  function Underscores(n: nat): (u: string)
    ensures |u| == n && forall i :: 0 <= i < n ==> u[i] == '_'
  {
    seq(n, _ => '_')
  }

  /** With a valid key, an endpoint that `urlparse` rejects is reported as such. */
  lemma UnparsableEndpointRejected(c: Config)
    requires c.scriptKey.PyStr? && ValidKey(c.scriptKey.s)
    requires c.endpoint != PyNone && !UrlParses(c.endpoint)
    ensures ValidateConfig(c) == Fail(EndpointInvalid)
  {
    KeyBodyCheck(c.scriptKey.s[3..]);
  }

  /** An endpoint whose host part opens a bracket it never closes is rejected. */
  lemma UnbalancedEndpointRejected(c: Config, sc: string, host: string, path: string)
    requires c.scriptKey.PyStr? && ValidKey(c.scriptKey.s)
    requires c.endpoint == PyStr(sc + "://" + host + path)
    requires SchemeName(sc) && PlainNetloc(host) && SingleSlashPath(path) && Unbalanced(host)
    ensures ValidateConfig(c) == Fail(EndpointInvalid)
  {
    SchemeAuthorityPath(sc, host, path);
    UnparsableEndpointRejected(c);
  }

  /** A key whose part after `sk_` is only underscores fails the character rule. */
  lemma UnderscoreOnlyKeyRejected(n: nat)
    requires 17 <= n <= 47
    ensures ValidateConfig(ConfigWithKey(PyStr("sk_" + Underscores(n)))) == Fail(KeyCharset)
  {
    var s := "sk_" + Underscores(n);
    assert s[..3] == "sk_";
    assert s[3..] == Underscores(n);
    KeyBodyCheck(s[3..]);
  }

  /** `max(MIN_TIMEOUT, min(t, MAX_TIMEOUT))`. */
  function Clamp(t: real): (r: real)
    ensures MinTimeout <= r <= MaxTimeout
    ensures MinTimeout <= t <= MaxTimeout ==> r == t
    ensures t < MinTimeout ==> r == MinTimeout
    ensures t > MaxTimeout ==> r == MaxTimeout
  {
    var capped := if MaxTimeout < t then MaxTimeout else t;
    if capped < MinTimeout then MinTimeout else capped
  }

  /** Why constructing a client raises. */
  datatype CreateError =
    | Invalid(error: ConfigError)  // `ValueError` from validation
    | TimeoutNotComparable         // `TypeError` from `min(None, MAX_TIMEOUT)`

  /** The exception constructing a client from `c` raises, if any. */
  function ConstructionError(c: Config): (r: Option<CreateError>)
    ensures r.None? ==> ValidateConfig(c) == Pass
    ensures r.None? ==> c.timeout.PyFloat? && MinTimeout <= c.timeout.f <= MaxTimeout
    ensures r.None? ==> !Truthy(c.endpoint) || (c.endpoint.PyStr? && UrlSplit(c.endpoint.s).Ok?)
    ensures ValidateConfig(c).Fail? ==> r == Some(Invalid(ValidateConfig(c).error))
  {
    match ValidateConfig(c)
    case Fail(e) => Some(Invalid(e))
    case Pass =>
      if c.timeout == PyNone then Some(TimeoutNotComparable)
      else None
  }

  /** The shape of a configuration a client holds: accepted, with a string key and endpoint. */
  predicate Settled(c: Config)
  {
    ConstructionError(c).None? && c.scriptKey.PyStr? && c.endpoint.PyStr?
  }

  /**
   * The configuration the constructor stores. The clamp of the timeout is
   * the identity on every accepted configuration.
   */
  function StoredConfig(c: Config): (r: Config)
    requires ConstructionError(c).None?
    ensures Settled(r)
    ensures r.scriptKey == c.scriptKey && r.debug == c.debug && r.enabled == c.enabled
    ensures r.timeout == c.timeout
    ensures Truthy(c.endpoint) ==> r.endpoint == c.endpoint
    ensures !Truthy(c.endpoint) ==> r.endpoint == PyStr(DefaultEndpoint)
  {
    var endpoint := Or(c.endpoint, PyStr(DefaultEndpoint));
    var r := Config(
      scriptKey := c.scriptKey,
      endpoint := endpoint,
      timeout := PyFloat(Clamp(NumberValue(c.timeout))),
      debug := c.debug,
      enabled := c.enabled);
    assert r == c.(endpoint := endpoint);
    DefaultEndpointParses();
    EndpointReplaced(c, endpoint);
    r
  }

  /** Replacing the endpoint of an accepted configuration by a parsable string keeps it accepted. */
  lemma EndpointReplaced(c: Config, e: PyValue)
    requires ConstructionError(c).None?
    requires e.PyStr? && UrlSplit(e.s).Ok?
    ensures Settled(c.(endpoint := e))
  {
  }

  /** The payload with the client's credentials: `{**payload, 'script_key': key, 'source': 'server'}`. */
  function WithCredentials(payload: TrackingPayload, key: string): (r: TrackingPayload)
    ensures r.scriptKey == Present(Some(key)) && r.source == Present(Some("server"))
    ensures r.(scriptKey := payload.scriptKey, source := payload.source) == payload
  {
    payload.(scriptKey := Present(Some(key)), source := Present(Some("server")))
  }

  /** Adding credentials twice leaves only the last key: the entries are overwritten, not merged. */
  lemma CredentialsOverride(payload: TrackingPayload, first: string, second: string)
    ensures WithCredentials(WithCredentials(payload, first), second) == WithCredentials(payload, second)
  {
  }

  /** One HTTP POST as the background worker issues it. */
  datatype PostRequest = PostRequest(
    url: string,
    headers: map<string, string>,
    body: TrackingPayload,
    timeout: real)

  /** The POST requests one `track` call starts: none when disabled, else exactly one. */
  function Outbox(c: Config, payload: TrackingPayload): (r: seq<PostRequest>)
    requires Settled(c)
    ensures |r| == if Truthy(c.enabled) then 1 else 0
    ensures forall q :: q in r ==>
      q.url == c.endpoint.s && q.headers == RequestHeaders &&
      q.body == WithCredentials(payload, c.scriptKey.s) &&
      MinTimeout <= q.timeout <= MaxTimeout
  {
    if Truthy(c.enabled) then
      [PostRequest(c.endpoint.s, RequestHeaders, WithCredentials(payload, c.scriptKey.s), c.timeout.f)]
    else []
  }

  /** An enabled client sends the payload with its own key and `source` set to `server`. */
  lemma EnabledTrackSendsCredentials(c: Config, payload: TrackingPayload)
    requires Settled(c) && Truthy(c.enabled)
    ensures |Outbox(c, payload)| == 1
    ensures Outbox(c, payload)[0].body.scriptKey == Present(Some(c.scriptKey.s))
    ensures Outbox(c, payload)[0].body.source == Present(Some("server"))
    ensures Outbox(c, payload)[0].body.path == payload.path
  {
    assert Outbox(c, payload)[0] in Outbox(c, payload);
  }

  /** A disabled client sends nothing. */
  lemma DisabledTrackSendsNothing(c: Config, payload: TrackingPayload)
    requires Settled(c) && !Truthy(c.enabled)
    ensures Outbox(c, payload) == []
  {
  }

  /** With a valid key, a timeout outside `[0.01, 0.1]` is rejected rather than clamped. */
  lemma TimeoutOutOfRangeRejected(c: Config, t: real)
    requires c.scriptKey.PyStr? && ValidKey(c.scriptKey.s) && c.endpoint == PyNone
    requires c.timeout == PyFloat(t) && (t < MinTimeout || t > MaxTimeout)
    ensures ValidateConfig(c) == Fail(TimeoutRange)
    ensures ConstructionError(c) == Some(Invalid(TimeoutRange))
  {
    KeyBodyCheck(c.scriptKey.s[3..]);
  }

  /** A configuration that passes validation with `timeout=None` still fails in the clamp. */
  lemma NoTimeoutRaises(c: Config)
    requires c.scriptKey.PyStr? && ValidKey(c.scriptKey.s) && c.endpoint == PyNone && c.timeout == PyNone
    ensures ValidateConfig(c) == Pass
    ensures ConstructionError(c) == Some(TimeoutNotComparable)
  {
    KeyBodyCheck(c.scriptKey.s[3..]);
  }

  /** The outcome of a POST as the network decides it. */
  datatype Transport =
    | Delivered(status: int)  // any response; its status is never looked at
    | TimedOut
    | Failed(reason: string)  // connection, DNS, serialisation or any other exception

  class SurfgeoClient {
    const config: Config
    const endpoint: string

    /** The POST requests started so far, oldest first. */
    ghost var sent: seq<PostRequest>

    ghost predicate Valid()
    {
      Settled(config) && config.endpoint == PyStr(endpoint)
    }

    /** `__init__` on a configuration whose construction does not raise. */
    constructor (c: Config)
      requires ConstructionError(c).None?
      ensures Valid() && config == StoredConfig(c) && sent == []
    {
      config := StoredConfig(c);
      endpoint := StoredConfig(c).endpoint.s;
      sent := [];
    }

    /** `surfgeoClient(config)`: either a new client or the exception construction raises. */
    static method Create(c: Config) returns (r: Result<SurfgeoClient, CreateError>)
      ensures r.Err? <==> ConstructionError(c).Some?
      ensures r.Err? ==> r.error == ConstructionError(c).value
      ensures r.Ok? ==> fresh(r.value) && r.value.Valid() && r.value.config == StoredConfig(c) && r.value.sent == []
    {
      match ValidateConfig(c) {
        case Fail(e) =>
          return Err(Invalid(e));
        case Pass =>
      }
      if c.timeout == PyNone {
        return Err(TimeoutNotComparable);
      }
      var client := new SurfgeoClient(c);
      return Ok(client);
    }

    /** `validate()`: re-validating the stored configuration always returns `True`. */
    function Validate(): (r: Result<bool, ConfigError>)
      requires Valid()
      ensures r == Ok(true)
    {
      match ValidateConfig(config)
      case Pass => Ok(true)
      case Fail(e) => Err(e)
    }

    /** `track`: start the POST of the payload with credentials, unless tracking is disabled. */
    method Track(payload: TrackingPayload)
      requires Valid()
      modifies this`sent
      ensures sent == old(sent) + Outbox(config, payload)
    {
      if !Truthy(config.enabled) {
        return;
      }
      var full := WithCredentials(payload, config.scriptKey.s);
      sent := sent + [PostRequest(endpoint, RequestHeaders, full, config.timeout.f)];
    }

    /** `track_async`: the same as `track`, with the POST scheduled as a task. */
    method TrackAsync(payload: TrackingPayload)
      requires Valid()
      modifies this`sent
      ensures sent == old(sent) + Outbox(config, payload)
    {
      if !Truthy(config.enabled) {
        return;
      }
      var full := WithCredentials(payload, config.scriptKey.s);
      sent := sent + [PostRequest(endpoint, RequestHeaders, full, config.timeout.f)];
    }

    /**
     * `_post`: whatever the network does, it returns normally. The result is
     * the diagnostic line printed in debug mode. `payload` is the posted
     * body; what the network does with it is the parameter `outcome`, so
     * the result does not depend on it.
     */
    method Post(payload: TrackingPayload, outcome: Transport) returns (trace: Option<string>)
      ensures trace.Some? <==> Truthy(config.debug) && !outcome.Delivered?
      ensures outcome.TimedOut? && trace.Some? ==> trace.value == "[surfgeo] Request timeout"
      ensures outcome.Failed? && trace.Some? ==> trace.value == "[surfgeo] Tracking failed: " + outcome.reason
    {
      trace := None;
      match outcome {
        case Delivered(_) =>
        case TimedOut =>
          if Truthy(config.debug) {
            trace := Some("[surfgeo] Request timeout");
          }
        case Failed(reason) =>
          if Truthy(config.debug) {
            trace := Some("[surfgeo] Tracking failed: " + reason);
          }
      }
    }

    /** `_post_async`: as `_post`, with the asynchronous client's messages; `payload` is again only the posted body. */
    method PostAsync(payload: TrackingPayload, outcome: Transport) returns (trace: Option<string>)
      ensures trace.Some? <==> Truthy(config.debug) && !outcome.Delivered?
      ensures outcome.TimedOut? && trace.Some? ==> trace.value == "[surfgeo] Async request timeout"
      ensures outcome.Failed? && trace.Some? ==> trace.value == "[surfgeo] Async tracking failed: " + outcome.reason
    {
      trace := None;
      match outcome {
        case Delivered(_) =>
        case TimedOut =>
          if Truthy(config.debug) {
            trace := Some("[surfgeo] Async request timeout");
          }
        case Failed(reason) =>
          if Truthy(config.debug) {
            trace := Some("[surfgeo] Async tracking failed: " + reason);
          }
      }
    }
  }
}

=== FILE: client_examples.dfy ===
/**
 * The behaviour the client unit tests check, stated as lemmas about the
 * keys those tests use.
 */
module ClientExamples {
  import opened Wrappers
  import opened PyValues
  import opened PyStrings
  import opened Types
  import opened Client

  /** The key the unit tests use. */
  const TestKey: string := "sk_test_key_123456789012345"

  lemma TestKeyBody(k: string)
    requires k == TestKey
    ensures ValidKey(k)
  {
    assert k[..3] == "sk_";
    assert k[3..][0] == 't';
    assert forall i :: 0 <= i < |k[3..]| ==> IsAlnum(k[3..][i]) || k[3..][i] == '_';
  }

  lemma AcceptedTestKey(k: string)
    requires k == TestKey
    ensures ConstructionError(ConfigWithKey(PyStr(k))).None?
    ensures StoredConfig(ConfigWithKey(PyStr(k))).scriptKey == PyStr(k)
    ensures StoredConfig(ConfigWithKey(PyStr(k))).endpoint == PyStr(DefaultEndpoint)
    ensures StoredConfig(ConfigWithKey(PyStr(k))).timeout == PyFloat(DefaultTimeout)
  {
    TestKeyBody(k);
    KeyAloneAccepted(k);
  }

  /** A client built from the test key keeps that key, the default endpoint and the default timeout. */
  lemma TestKeyAccepted()
    ensures ConstructionError(ConfigWithKey(PyStr(TestKey))).None?
    ensures StoredConfig(ConfigWithKey(PyStr(TestKey))).scriptKey == PyStr(TestKey)
    ensures StoredConfig(ConfigWithKey(PyStr(TestKey))).endpoint == PyStr(DefaultEndpoint)
  {
    AcceptedTestKey(TestKey);
  }

  /** An empty key is reported as missing. */
  lemma EmptyKeyRequired()
    ensures ConstructionError(ConfigWithKey(PyStr(""))) == Some(Invalid(KeyRequired))
  {
  }

  /** A step of `InvalidKeyPrefix`: the key is bound to a parameter so that its first character is read off as a term, instead of the verifier evaluating the literal string. */
  lemma NoPrefix(k: string)
    requires k == "invalid_key"
    ensures ConstructionError(ConfigWithKey(PyStr(k))) == Some(Invalid(KeyPrefix))
  {
    assert k[..3][0] == 'i';
  }

  /** A key without the `sk_` prefix is reported as such, before its length is looked at. */
  lemma InvalidKeyPrefix()
    ensures ConstructionError(ConfigWithKey(PyStr("invalid_key"))) == Some(Invalid(KeyPrefix))
  {
    NoPrefix("invalid_key");
  }

  /** The test key with a 0.5 second timeout is rejected. */
  lemma SlowTimeoutRejected(k: string)
    requires k == TestKey
    ensures ConstructionError(ConfigWithKey(PyStr(k)).(timeout := PyFloat(0.5))) == Some(Invalid(TimeoutRange))
  {
    TestKeyBody(k);
    TimeoutOutOfRangeRejected(ConfigWithKey(PyStr(k)).(timeout := PyFloat(0.5)), 0.5);
  }
}

=== FILE: flask.dfy ===
/**
 * The Flask extension: how `init_app` resolves the configuration from the
 * keyword arguments and the application's config with Python's `or` and
 * `and`, the registration under `app.extensions`, and the after-request
 * hook that tracks a request and hands the response back unchanged.
 */
module Flask {
  import opened Wrappers
  import opened PyValues
  import opened PyStrings
  import opened Types
  import opened Urls
  import opened Payload
  import opened Client

  /** Keyword arguments and `app.config` alike: string keys to Python values. */
  type Settings = map<string, PyValue>

  /**
   * The configuration `init_app` builds: a truthy keyword argument wins;
   * otherwise the `SURFGEO_*` entry of the application's config, and then
   * the default. `debug` is truthy when either side is, and `enabled` only
   * when both are.
   */
  function ResolveConfig(options: Settings, appConfig: Settings): (c: Config)
    ensures Truthy(Get(options, "script_key", PyNone)) ==> c.scriptKey == options["script_key"]
    ensures !Truthy(Get(options, "script_key", PyNone)) && Truthy(Get(appConfig, "SURFGEO_SCRIPT_KEY", PyNone)) ==>
      c.scriptKey == appConfig["SURFGEO_SCRIPT_KEY"]
    ensures !Truthy(Get(options, "script_key", PyNone)) && !Truthy(Get(appConfig, "SURFGEO_SCRIPT_KEY", PyNone)) ==>
      c.scriptKey == PyStr("")
    ensures Truthy(Get(options, "endpoint", PyNone)) ==> c.endpoint == options["endpoint"]
    ensures !Truthy(Get(options, "endpoint", PyNone)) ==> c.endpoint == Get(appConfig, "SURFGEO_ENDPOINT", PyNone)
    ensures Truthy(Get(options, "timeout", PyNone)) ==> c.timeout == options["timeout"]
    ensures !Truthy(Get(options, "timeout", PyNone)) ==>
      c.timeout == Get(appConfig, "SURFGEO_TIMEOUT", PyFloat(DefaultTimeout))
    ensures Truthy(c.debug) <==>
      Truthy(Get(options, "debug", PyNone)) || Truthy(Get(appConfig, "SURFGEO_DEBUG", PyBool(false)))
    ensures Truthy(c.enabled) <==>
      Truthy(Get(options, "enabled", PyBool(true))) && Truthy(Get(appConfig, "SURFGEO_ENABLED", PyBool(true)))
  {
    Config(
      Or(Or(Get(options, "script_key", PyNone), Get(appConfig, "SURFGEO_SCRIPT_KEY", PyNone)), PyStr("")),
      Or(Get(options, "endpoint", PyNone), Get(appConfig, "SURFGEO_ENDPOINT", PyNone)),
      Or(Get(options, "timeout", PyNone), Get(appConfig, "SURFGEO_TIMEOUT", PyFloat(DefaultTimeout))),
      Or(Get(options, "debug", PyNone), Get(appConfig, "SURFGEO_DEBUG", PyBool(false))),
      And(Get(options, "enabled", PyBool(true)), Get(appConfig, "SURFGEO_ENABLED", PyBool(true))))
  }

  /** With no setting on either side the configuration is the default one for an empty key. */
  lemma NothingConfigured()
    ensures ResolveConfig(map[], map[]) == ConfigWithKey(PyStr(""))
  {
  }

  /** Without a truthy key on either side the extension cannot be set up: the key is required. */
  lemma NoKeyAnywhere(options: Settings, appConfig: Settings)
    requires !Truthy(Get(options, "script_key", PyNone)) && !Truthy(Get(appConfig, "SURFGEO_SCRIPT_KEY", PyNone))
    ensures ConstructionError(ResolveConfig(options, appConfig)) == Some(Invalid(KeyRequired))
  {
  }

  /** A keyword argument cannot switch debugging off once the application's config switches it on. */
  lemma DebugNotOverridable(options: Settings, appConfig: Settings)
    requires Truthy(Get(appConfig, "SURFGEO_DEBUG", PyBool(false)))
    ensures Truthy(ResolveConfig(options, appConfig).debug)
  {
  }

  /** Either side alone switches tracking off. */
  lemma EitherSideDisables(options: Settings, appConfig: Settings)
    requires !Truthy(Get(options, "enabled", PyBool(true))) || !Truthy(Get(appConfig, "SURFGEO_ENABLED", PyBool(true)))
    ensures !Truthy(ResolveConfig(options, appConfig).enabled)
  {
  }

  /**
   * `SURFGEO_TIMEOUT = None` in the application's config, with no truthy
   * keyword timeout, passes validation but then makes the client's `min`
   * raise `TypeError`.
   */
  lemma AppTimeoutNoneRaises(options: Settings, appConfig: Settings, key: string)
    requires Get(options, "script_key", PyNone) == PyStr(key) && ValidKey(key)
    requires !Truthy(Get(options, "endpoint", PyNone)) && "SURFGEO_ENDPOINT" !in appConfig
    requires !Truthy(Get(options, "timeout", PyNone)) && "SURFGEO_TIMEOUT" in appConfig && appConfig["SURFGEO_TIMEOUT"] == PyNone
    ensures ConstructionError(ResolveConfig(options, appConfig)) == Some(TimeoutNotComparable)
  {
    NoTimeoutRaises(ResolveConfig(options, appConfig));
  }

  /** What the hook reads of Flask's `request` object. */
  datatype FlaskRequest = FlaskRequest(path: string, httpMethod: string, headers: Headers)

  /** A Flask response; the hook reads its status code and returns it as it is. */
  class FlaskResponse {
    const statusCode: int

    constructor (statusCode: int)
      ensures this.statusCode == statusCode
    {
      this.statusCode := statusCode;
    }
  }

  /** The part of a Flask application the extension uses. */
  class FlaskApp {
    const config: Settings
    var extensions: map<string, object>

    constructor (config: Settings)
      ensures this.config == config && extensions == map[]
    {
      this.config := config;
      extensions := map[];
    }
  }

  /** Why the after-request hook raises. */
  datatype HookError =
    | PathRaised(url: UrlError)   // from `urlparse` in `build_payload`
    | ClientMissing               // `None.track`: the hook of an extension never set up

  /** The metadata the hook builds for a request and its response's status code. */
  function RequestOf(request: FlaskRequest, statusCode: int): RequestMetadata
  {
    RequestMetadata(request.path, request.httpMethod, request.headers, Present(Some(statusCode)))
  }

  /**
   * The payload tracked for a request whose path parses: the response's
   * status code, the normalized path and the upper-cased method.
   */
  lemma TrackedRequest(request: FlaskRequest, statusCode: int, now: int, requestId: string)
    requires NormalizePath(request.path).Ok?
    ensures BuildPayload(RequestOf(request, statusCode), now, requestId).Ok?
    ensures var p := BuildPayload(RequestOf(request, statusCode), now, requestId).value;
      p.statusCode == Present(Some(statusCode)) &&
      p.path == Present(NormalizePath(request.path).value) &&
      p.httpMethod == Present(Upper(request.httpMethod)) &&
      p.userAgent == Present(ExtractUserAgent(request.headers))
  {
  }

  /** The `surfgeo` Flask extension object. */
  class SurfgeoExtension {
    var client: SurfgeoClient?

    ghost predicate Valid()
      reads this, client
    {
      client != null ==> client.Valid()
    }

    /** `surfgeo()` with no application: no client until `init_app`. */
    constructor ()
      ensures Valid() && client == null
    {
      client := null;
    }

    /**
     * `init_app(app, **config)`. On failure the exception escapes before
     * anything is assigned or registered; on success the extension holds a
     * new client for the resolved configuration and is registered under
     * `app.extensions['surfgeo']`, every other entry kept.
     */
    method InitApp(app: FlaskApp, options: Settings) returns (r: Outcome<CreateError>)
      requires Valid()
      modifies this, app`extensions
      ensures Valid()
      ensures var c := ResolveConfig(options, app.config);
        (r.Fail? <==> ConstructionError(c).Some?) && (r.Fail? ==> r.error == ConstructionError(c).value)
      ensures r.Fail? ==> client == old(client) && app.extensions == old(app.extensions)
      ensures r.Pass? ==> client != null && fresh(client) && client.sent == []
      ensures r.Pass? ==> client != null && client.config == StoredConfig(ResolveConfig(options, app.config))
      ensures r.Pass? ==> app.extensions == old(app.extensions)["surfgeo" := this]
    {
      var created := SurfgeoClient.Create(ResolveConfig(options, app.config));
      match created {
        case Err(e) =>
          return Fail(e);
        case Ok(c) =>
          client := c;
          app.extensions := app.extensions["surfgeo" := this];
          return Pass;
      }
    }

    /**
     * `_track_request(response)` for the current `request`: tracks once
     * through the client and returns the very same response object.
     */
    method TrackRequest(request: FlaskRequest, response: FlaskResponse, now: int, requestId: string)
      returns (r: Result<FlaskResponse, HookError>)
      requires Valid()
      modifies if client != null then {client} else {}
      ensures var b := BuildPayload(RequestOf(request, response.statusCode), now, requestId);
        (b.Err? ==> r == Err(PathRaised(b.error))) &&
        (b.Ok? && client == null ==> r == Err(ClientMissing)) &&
        (b.Ok? && client != null ==> r == Ok(response) && client.sent == old(client.sent) + Outbox(client.config, b.value))
      ensures r.Err? && client != null ==> client.sent == old(client.sent)
    {
      var metadata := RequestOf(request, response.statusCode);
      match BuildPayload(metadata, now, requestId) {
        case Err(u) =>
          return Err(PathRaised(u));
        case Ok(payload) =>
          if client == null {
            return Err(ClientMissing);
          }
          client.Track(payload);
          return Ok(response);
      }
    }
  }

  /**
   * `surfgeo(app, **config)`: a new extension, set up on `app` when one is
   * given; the exception of `init_app` escapes from the constructor.
   */
  method NewExtension(app: FlaskApp?, options: Settings) returns (r: Result<SurfgeoExtension, CreateError>)
    modifies if app != null then {app} else {}
    ensures r.Ok? ==> fresh(r.value) && r.value.Valid()
    ensures app == null ==> r.Ok? && r.value.client == null
    ensures app != null ==> var c := ResolveConfig(options, app.config);
      (r.Err? <==> ConstructionError(c).Some?) && (r.Err? ==> r.error == ConstructionError(c).value)
    ensures app != null && r.Ok? ==> r.value.client != null
    ensures app != null && r.Ok? ==> r.value.client != null && r.value.client.config == StoredConfig(ResolveConfig(options, app.config))
    ensures app != null && r.Ok? ==> app.extensions == old(app.extensions)["surfgeo" := r.value]
    ensures app != null && r.Err? ==> app.extensions == old(app.extensions)
  {
    var extension := new SurfgeoExtension();
    if app == null {
      return Ok(extension);
    }
    var outcome := extension.InitApp(app, options);
    match outcome {
      case Fail(e) =>
        return Err(e);
      case Pass =>
        return Ok(extension);
    }
  }
}

=== FILE: payload.dfy ===
/**
 * The payload builder: turns the request metadata an adapter extracted
 * into the wire payload (without credentials, which the client adds).
 * The clock and the random request identifier are parameters.
 */
module Payload {
  import opened Wrappers
  import opened PyStrings
  import opened Types
  import opened Urls

  /** One trailing `/` removed, unless the path is `/` itself. */
  function DropTrailingSlash(p: string): (r: string)
    ensures r <= p && |r| >= |p| - 1 && (|p| > 0 ==> |r| > 0)
    ensures r != p <==> |p| > 1 && p[|p| - 1] == '/'
  {
    if |p| > 1 && p[|p| - 1] == '/' then p[..|p| - 1] else p
  }

  /** `normalize_path`: the URL path with one trailing `/` dropped, except for the root. */
  function NormalizePath(path: string): (r: Result<string, UrlError>)
    ensures r.Err? <==> UrlSplit(path).Err?
    ensures r.Ok? ==> '?' !in r.value && '#' !in r.value
    ensures r.Ok? ==> r.value == DropTrailingSlash(UrlParsePath(path).value)
  {
    match UrlParsePath(path)
    case Err(e) => Err(e)
    case Ok(normalized) => Ok(DropTrailingSlash(normalized))
  }

  /** A path starting with one `/` is normalised without error and keeps its leading `/`. */
  lemma SingleSlashNormalization(s: string)
    requires SingleSlashPath(s)
    ensures NormalizePath(s).Ok?
    ensures |NormalizePath(s).value| > 0 && NormalizePath(s).value[0] == '/'
  {
    SingleSlashUrlPath(s);
    var a := Before(s, '#');
    assert |a| > 0 && a[0] == '/' by { assert IndexOf(s, '#') > 0; }
    var u := Before(a, '?');
    assert |u| > 0 && u[0] == '/' by { assert IndexOf(a, '?') > 0; }
    if ';' in u && '/' in u {
      var slash := RFind(u, '/');
      assert slash >= 0;
      assert u[slash..][0] == '/';
      assert IndexOf(u[slash..], ';') > 0;
    }
  }

  /**
   * On a path starting with one `/` and without `?`, `#` or `;`,
   * normalisation only removes one trailing `/` from a path longer than
   * one character.
   */
  lemma PlainPathNormalization(s: string)
    requires SingleSlashPath(s) && '?' !in s && '#' !in s && ';' !in s
    ensures NormalizePath(s) == Ok(if |s| > 1 && s[|s| - 1] == '/' then s[..|s| - 1] else s)
  {
    SingleSlashUrlPath(s);
  }

  /** Appending a `/` to a path is undone by normalisation, whatever `;params` the path holds. */
  lemma TrailingSlashRemoved(p: string)
    requires SingleSlashPath(p) && |p| > 1 && '?' !in p && '#' !in p
    ensures NormalizePath(p + "/") == Ok(p)
  {
    var s := p + "/";
    assert SingleSlashPath(s) by {
      assert s[..2] == p[..2];
    }
    SingleSlashUrlPath(s);
    assert Before(Before(s, '#'), '?') == s;
    StripParamsTrailingSlash(s);
    assert s[..|s| - 1] == p;
  }

  /** Normalising twice can remove two slashes: the operation is not idempotent. */
  lemma NormalizationNotIdempotent(p: string)
    requires SingleSlashPath(p) && |p| > 1 && '?' !in p && '#' !in p
    ensures NormalizePath(p + "//") == Ok(p + "/")
    ensures NormalizePath(p + "/") == Ok(p)
  {
    var q := p + "/";
    assert SingleSlashPath(q) by {
      assert q[0] == p[0] && q[1] == p[1];
    }
    assert p + "//" == q + "/";
    TrailingSlashRemoved(p);
    TrailingSlashRemoved(q);
  }

  /** The parameters `urlparse` cuts are those of the last segment only. */
  lemma SegmentParamsKept(s: string)
    requires SingleSlashPath(s) && '?' !in s && '#' !in s && ';' !in LastSegment(s)
    ensures NormalizePath(s) == Ok(DropTrailingSlash(s))
  {
    SingleSlashUrlPath(s);
    assert Before(Before(s, '#'), '?') == s;
    StripParamsKeepsEarlierSegments(s);
  }

  /** Appending `;params` keeps a single-slash path free of `?` and `#`. */
  lemma ParamsAppended(s: string, params: string)
    requires SingleSlashPath(s) && '?' !in s && '#' !in s
    requires forall c :: c in params ==> !IsNetlocDelim(c) && !IsUnsafe(c)
    ensures SingleSlashPath(s + ";" + params)
    ensures '?' !in s + ";" + params && '#' !in s + ";" + params
  {
    var tail := ";" + params;
    assert s + ";" + params == s + tail;
    assert forall c :: c in tail ==> c == ';' || c in params;
    SingleSlashAppend(s, tail);
  }

  /** Parameters appended to the last segment are cut before the path is normalised. */
  lemma ParamsIgnored(s: string, params: string)
    requires SingleSlashPath(s) && '?' !in s && '#' !in s && ';' !in LastSegment(s)
    requires forall c :: c in params ==> !IsNetlocDelim(c) && !IsUnsafe(c)
    ensures NormalizePath(s + ";" + params) == NormalizePath(s)
  {
    SegmentParamsKept(s);
    var u := s + ";" + params;
    ParamsAppended(s, params);
    SingleSlashUrlPath(u);
    assert Before(Before(u, '#'), '?') == u;
    assert s[0] in s;
    StripParamsOfAppendedParams(s, params);
  }

  /** Whatever follows the first `?` does not reach the normalised path. */
  lemma QueryIgnored(p: string, query: string)
    requires '?' !in p && '#' !in p
    ensures NormalizePath(p + "?" + query) == NormalizePath(p)
  {
    assert p + "?" + query == p + ['?'] + query;
    SuffixIgnored(p, '?', query);
    SuffixIgnoredSplit(p, '?', query);
  }

  /** Whatever follows the first `#` does not reach the normalised path. */
  lemma FragmentIgnored(p: string, fragment: string)
    requires '#' !in p
    ensures NormalizePath(p + "#" + fragment) == NormalizePath(p)
  {
    assert p + "#" + fragment == p + ['#'] + fragment;
    SuffixIgnored(p, '#', fragment);
    SuffixIgnoredSplit(p, '#', fragment);
  }

  /** The key spellings tried for the User-Agent field, in order. */
  const UserAgentKeys: seq<string> := ["User-Agent", "user-agent", "USER-AGENT"]

  /** The key spellings tried for the Referer field, in order. */
  const ReferrerKeys: seq<string> := ["Referer", "referer", "REFERER", "Referrer", "referrer"]

  /** The index of the first of `keys` present in `headers`, or `|keys|`. */
  function FirstPresent(headers: Headers, keys: seq<string>): (i: nat)
    ensures i <= |keys|
    ensures i < |keys| ==> keys[i] in headers
    ensures forall j :: 0 <= j < i ==> keys[j] !in headers
  {
    if keys == [] then 0
    else if keys[0] in headers then 0
    else 1 + FirstPresent(headers, keys[1..])
  }

  /** A string value itself; the first element of a list, or `default` for `[]`. */
  function FirstOr(v: HeaderValue, default: string): string
  {
    match v
    case Text(t) => t
    case Items(l) => if |l| > 0 then l[0] else default
  }

  /** `extract_user_agent`: the first spelling present decides; `'Unknown'` otherwise. */
  function ExtractUserAgent(headers: Headers): (r: string)
    ensures "User-Agent" in headers ==> r == FirstOr(headers["User-Agent"], "Unknown")
    ensures "User-Agent" !in headers && "user-agent" in headers ==>
      r == FirstOr(headers["user-agent"], "Unknown")
    ensures "User-Agent" !in headers && "user-agent" !in headers && "USER-AGENT" in headers ==>
      r == FirstOr(headers["USER-AGENT"], "Unknown")
    ensures (forall k :: k in UserAgentKeys ==> k !in headers) ==> r == "Unknown"
  {
    var i := FirstPresent(headers, UserAgentKeys);
    assert UserAgentKeys[0] == "User-Agent" && UserAgentKeys[1] == "user-agent" && UserAgentKeys[2] == "USER-AGENT";
    if i == |UserAgentKeys| then "Unknown" else FirstOr(headers[UserAgentKeys[i]], "Unknown")
  }

  /** A string value itself; the first element of a list, or `None` for `[]`. */
  function FirstOrNone(v: HeaderValue): Option<string>
  {
    match v
    case Text(t) => Some(t)
    case Items(l) => if |l| > 0 then Some(l[0]) else None
  }

  /** `extract_referrer`: the first of the five spellings present decides; `None` otherwise. */
  function ExtractReferrer(headers: Headers): (r: Option<string>)
    ensures forall i :: 0 <= i < |ReferrerKeys| && ReferrerKeys[i] in headers &&
                        (forall j :: 0 <= j < i ==> ReferrerKeys[j] !in headers)
                        ==> r == FirstOrNone(headers[ReferrerKeys[i]])
    ensures (forall k :: k in ReferrerKeys ==> k !in headers) ==> r == None
  {
    var i := FirstPresent(headers, ReferrerKeys);
    if i == |ReferrerKeys| then None else FirstOrNone(headers[ReferrerKeys[i]])
  }

  /** The search result depends only on which of `keys` are present. */
  lemma {:induction false} FirstPresentAgrees(h: Headers, h': Headers, keys: seq<string>)
    requires forall k :: k in keys ==> (k in h <==> k in h')
    ensures FirstPresent(h, keys) == FirstPresent(h', keys)
  {
    if keys != [] && keys[0] !in h {
      FirstPresentAgrees(h, h', keys[1..]);
    }
  }

  /** Keys other than the three spellings never influence the user agent. */
  lemma UserAgentIgnoresOtherKeys(headers: Headers, key: string, v: HeaderValue)
    requires key !in UserAgentKeys
    ensures ExtractUserAgent(headers[key := v]) == ExtractUserAgent(headers)
  {
    FirstPresentAgrees(headers, headers[key := v], UserAgentKeys);
  }

  /** Keys other than the five spellings never influence the referrer. */
  lemma ReferrerIgnoresOtherKeys(headers: Headers, key: string, v: HeaderValue)
    requires key !in ReferrerKeys
    ensures ExtractReferrer(headers[key := v]) == ExtractReferrer(headers)
  {
    FirstPresentAgrees(headers, headers[key := v], ReferrerKeys);
  }

  /** Every listed spelling of the referrer field is found on its own. */
  lemma ReferrerAnySpelling(key: string, value: string)
    requires key in ReferrerKeys
    ensures ExtractReferrer(map[key := Text(value)]) == Some(value)
  {
    var h := map[key := Text(value)];
    var i :| 0 <= i < |ReferrerKeys| && ReferrerKeys[i] == key;
    assert forall j :: 0 <= j < |ReferrerKeys| && j != i ==> ReferrerKeys[j] != key;
    assert FirstPresent(h, ReferrerKeys) == i;
  }

  /** The status code the builder reports: the supplied one, or 200 when the key is absent. */
  function StatusOrDefault(status: Field<Option<int>>): (r: Option<int>)
    ensures status.Absent? ==> r == Some(200)
    ensures status.Present? ==> r == status.value
  {
    match status
    case Absent => Some(200)
    case Present(v) => v
  }

  /**
   * `build_payload`: every field derived from the metadata, with the clock
   * reading `now` and the identifier `requestId`; no credential fields.
   * It raises only when `urlparse` rejects the path.
   */
  function BuildPayload(metadata: RequestMetadata, now: int, requestId: string): (r: Result<TrackingPayload, UrlError>)
    ensures r.Err? <==> NormalizePath(metadata.path).Err?
    ensures r.Ok? ==> var p := r.value;
      p.timestamp == Present(now) && p.requestId == Present(Some(requestId)) &&
      p.path == Present(NormalizePath(metadata.path).value) &&
      p.httpMethod == Present(Upper(metadata.httpMethod)) &&
      p.statusCode == Present(StatusOrDefault(metadata.statusCode)) &&
      p.userAgent == Present(ExtractUserAgent(metadata.headers)) &&
      p.referrer == Present(ExtractReferrer(metadata.headers)) &&
      p.headers == Absent && p.scriptKey == Absent && p.source == Absent
  {
    match NormalizePath(metadata.path)
    case Err(e) => Err(e)
    case Ok(path) =>
      Ok(TrackingPayload(
        timestamp := Present(now),
        path := Present(path),
        httpMethod := Present(Upper(metadata.httpMethod)),
        statusCode := Present(StatusOrDefault(metadata.statusCode)),
        userAgent := Present(ExtractUserAgent(metadata.headers)),
        referrer := Present(ExtractReferrer(metadata.headers)),
        headers := Absent,
        requestId := Present(Some(requestId)),
        scriptKey := Absent,
        source := Absent))
  }

  /** The payload's method has no lower-case letter and keeps the method's length. */
  lemma BuiltMethodIsUpperCase(metadata: RequestMetadata, now: int, requestId: string)
    requires BuildPayload(metadata, now, requestId).Ok?
    ensures var m := BuildPayload(metadata, now, requestId).value.httpMethod.value;
      |m| == |metadata.httpMethod| && forall i :: 0 <= i < |m| ==> !IsLower(m[i])
  {
  }
}

=== FILE: payload_examples.dfy ===
/**
 * The behaviour the payload unit tests check, and a few edge cases of the
 * payload builder, stated as lemmas about concrete inputs.
 */
module PayloadExamples {
  import opened Wrappers
  import opened PyStrings
  import opened Types
  import opened Urls
  import opened Payload

  lemma NormalizeQueryExample(p: string, query: string, s: string)
    requires SingleSlashPath(p) && '?' !in p && '#' !in p && ';' !in p && |p| > 1 && p[|p| - 1] != '/'
    requires s == p + "?" + query
    ensures NormalizePath(s) == Ok(p)
  {
    QueryIgnored(p, query);
    PlainPathNormalization(p);
  }

  /** The string concatenations `NormalizePathDropsQueryExamples` rests on. */
  lemma QueryExampleParts()
    ensures "/test" + "?" + "page=1" == "/test?page=1"
    ensures "/api/users" + "?" + "id=123" == "/api/users?id=123"
  {
  }

  /** A step of `NormalizePathDropsQueryExamples`: the literal is bound to a parameter so that the general lemma is applied to it as a term, instead of the verifier evaluating the literal string. */
  lemma TestQuery(p: string, query: string, s: string)
    requires p == "/test" && query == "page=1" && s == p + "?" + query
    ensures NormalizePath(s) == Ok(p)
  {
    NormalizeQueryExample(p, query, s);
  }

  /** The second step of `NormalizePathDropsQueryExamples`, bound to a parameter for the same reason. */
  lemma UsersQuery(p: string, query: string, s: string)
    requires p == "/api/users" && query == "id=123" && s == p + "?" + query
    ensures NormalizePath(s) == Ok(p)
  {
    NormalizeQueryExample(p, query, s);
  }

  /** The unit-test examples of query removal. */
  lemma NormalizePathDropsQueryExamples()
    ensures NormalizePath("/test?page=1") == Ok("/test")
    ensures NormalizePath("/api/users?id=123") == Ok("/api/users")
  {
    QueryExampleParts();
    TestQuery("/test", "page=1", "/test?page=1");
    UsersQuery("/api/users", "id=123", "/api/users?id=123");
  }

  /** A step of `NormalizePathTrailingSlashExamples`: the literal is bound to a parameter so that the general lemma is applied to it as a term, instead of the verifier evaluating the literal string. */
  lemma SlashExample(p: string, s: string)
    requires (p == "/test" || p == "/api/users") && s == p + "/"
    ensures NormalizePath(s) == Ok(p)
  {
    TrailingSlashRemoved(p);
  }

  /** The root path of `NormalizePathTrailingSlashExamples`, bound to a parameter for the same reason. */
  lemma RootExample(p: string)
    requires p == "/"
    ensures NormalizePath(p) == Ok(p)
  {
    PlainPathNormalization(p);
  }

  /** The string concatenations `NormalizePathTrailingSlashExamples` rests on. */
  lemma SlashExampleParts()
    ensures "/test" + "/" == "/test/" && "/api/users" + "/" == "/api/users/"
  {
  }

  /** The unit-test examples of trailing-slash removal. */
  lemma NormalizePathTrailingSlashExamples()
    ensures NormalizePath("/test/") == Ok("/test")
    ensures NormalizePath("/") == Ok("/")
    ensures NormalizePath("/api/users/") == Ok("/api/users")
  {
    SlashExampleParts();
    SlashExample("/test", "/test/");
    RootExample("/");
    SlashExample("/api/users", "/api/users/");
  }

  /** The lookup is not case-insensitive: only the listed spellings are found. */
  lemma OtherCasingsNotFound()
    ensures ExtractUserAgent(map["User-agent" := Text("UA")]) == "Unknown"
    ensures ExtractReferrer(map["ReFeReR" := Text("https://example.com")]) == None
  {
  }

  /** A present spelling holding `[]` stops the search, even if a later spelling has a value. */
  lemma EmptyListShadowsLaterSpelling()
    ensures ExtractUserAgent(map["User-Agent" := Items([]), "user-agent" := Text("UA")]) == "Unknown"
    ensures ExtractReferrer(map["Referer" := Items([]), "referrer" := Text("https://example.com")]) == None
  {
    var h := map["Referer" := Items([]), "referrer" := Text("https://example.com")];
    assert FirstPresent(h, ReferrerKeys) == 0;
  }

  /** The examples the unit tests check. */
  lemma ExtractorExamples()
    ensures ExtractUserAgent(map[]) == "Unknown"
    ensures ExtractUserAgent(map["User-Agent" := Items(["Mozilla/5.0", "Chrome/1.0"])]) == "Mozilla/5.0"
    ensures ExtractReferrer(map[]) == None
    ensures ExtractReferrer(map["Referer" := Text("https://example.com")]) == Some("https://example.com")
    ensures ExtractReferrer(map["referer" := Text("https://example.com")]) == Some("https://example.com")
    ensures ExtractReferrer(map["REFERER" := Text("https://example.com")]) == Some("https://example.com")
  {
    ReferrerAnySpelling("Referer", "https://example.com");
    ReferrerAnySpelling("referer", "https://example.com");
    ReferrerAnySpelling("REFERER", "https://example.com");
  }

  /** A step of `BuildPayloadExample`: the literal is bound to a parameter so that the general lemma is applied to it as a term, instead of the verifier evaluating the literal string. */
  lemma TestPath(p: string)
    requires p == "/test"
    ensures NormalizePath(p) == Ok(p)
  {
    PlainPathNormalization(p);
  }

  lemma BuildPayloadOf(m: RequestMetadata, now: int, requestId: string)
    requires NormalizePath(m.path) == Ok(m.path)
    requires m.httpMethod == "GET" && m.statusCode == Present(Some(200))
    requires m.headers == map["User-Agent" := Text("test-agent")]
    ensures BuildPayload(m, now, requestId).Ok?
    ensures var p := BuildPayload(m, now, requestId).value;
      p.path == Present(m.path) && p.httpMethod == Present("GET") &&
      p.userAgent == Present("test-agent") && p.statusCode == Present(Some(200))
  {
    UpperOfUpperCase(m.httpMethod);
  }

  /** The first unit-test example of the builder. */
  lemma BuildPayloadExample(now: int, requestId: string)
    ensures var r := BuildPayload(RequestMetadata("/test", "GET", map["User-Agent" := Text("test-agent")],
                                                  Present(Some(200))), now, requestId);
      r.Ok? && var p := r.value;
      p.path == Present("/test") && p.httpMethod == Present("GET") &&
      p.userAgent == Present("test-agent") && p.statusCode == Present(Some(200))
  {
    TestPath("/test");
    BuildPayloadOf(RequestMetadata("/test", "GET", map["User-Agent" := Text("test-agent")], Present(Some(200))),
                   now, requestId);
  }
}

=== FILE: pystrings.dfy ===
/**
 * The Python `str` operations the SDK relies on, restricted to ASCII
 * character classes: `upper`, `title`, `replace`, `isalnum`, `find`,
 * `rfind`, `split()[0]` and `int(...)` of a decimal literal.
 */
module PyStrings {
  import opened Wrappers

  predicate IsLower(c: char) { 'a' <= c <= 'z' }
  predicate IsUpper(c: char) { 'A' <= c <= 'Z' }

  /** A character that has an upper and a lower case form (ASCII letters). */
  predicate IsCased(c: char) { IsLower(c) || IsUpper(c) }

  predicate IsDigit(c: char) { '0' <= c <= '9' }
  predicate IsAlnum(c: char) { IsCased(c) || IsDigit(c) }

  /** The characters `str.split()` separates on (the ASCII part of `str.isspace`). */
  predicate IsSpace(c: char)
  {
    c == ' ' || c == '\t' || c == '\n' || c == '\r' || c == '\U{B}' || c == '\U{C}'
    || ('\U{1C}' <= c <= '\U{1F}')
  }

  function ToUpper(c: char): (r: char)
    ensures IsCased(r) <==> IsCased(c)
    ensures !IsLower(r)
  {
    if IsLower(c) then (c as int - 32) as char else c
  }

  function ToLower(c: char): (r: char)
    ensures IsCased(r) <==> IsCased(c)
    ensures !IsUpper(r)
  {
    if IsUpper(c) then (c as int + 32) as char else c
  }

  /** `s.lower()`. */
  function Lower(s: string): (r: string)
    ensures |r| == |s|
    ensures forall i :: 0 <= i < |s| ==> r[i] == ToLower(s[i])
  {
    if s == "" then "" else [ToLower(s[0])] + Lower(s[1..])
  }

  /** `s.startswith(p)`. */
  predicate StartsWith(s: string, p: string)
  {
    |p| <= |s| && s[..|p|] == p
  }

  /** `s.upper()`. */
  function Upper(s: string): (r: string)
    ensures |r| == |s|
    ensures forall i :: 0 <= i < |s| ==> r[i] == ToUpper(s[i])
  {
    if s == "" then "" else [ToUpper(s[0])] + Upper(s[1..])
  }

  /** `upper()` leaves a string without lower-case letters unchanged. */
  lemma {:induction false} UpperOfUpperCase(s: string)
    requires forall i :: 0 <= i < |s| ==> !IsLower(s[i])
    ensures Upper(s) == s
  {
    if s != "" {
      UpperOfUpperCase(s[1..]);
    }
  }

  /** `s.replace(a, b)` for single characters `a` and `b`. */
  function ReplaceChar(s: string, a: char, b: char): (r: string)
    ensures |r| == |s|
    ensures forall i :: 0 <= i < |s| ==> r[i] == if s[i] == a then b else s[i]
  {
    if s == "" then "" else [if s[0] == a then b else s[0]] + ReplaceChar(s[1..], a, b)
  }

  /** `s.replace(a, '')`: every occurrence of `a` removed. */
  function RemoveChar(s: string, a: char): (r: string)
    ensures |r| <= |s|
  {
    if s == "" then "" else (if s[0] == a then "" else [s[0]]) + RemoveChar(s[1..], a)
  }

  /** What is left holds no `a` and every other character of `s`, and nothing new. */
  lemma {:induction false} RemoveCharChars(s: string, a: char)
    ensures a !in RemoveChar(s, a)
    ensures forall c :: c in RemoveChar(s, a) <==> c in s && c != a
  {
    if s != "" {
      RemoveCharChars(s[1..], a);
      assert forall c :: c in s <==> c == s[0] || c in s[1..];
    }
  }

  /** Removing a character commutes with concatenation. */
  lemma {:induction false} RemoveCharAppend(s: string, t: string, a: char)
    ensures RemoveChar(s + t, a) == RemoveChar(s, a) + RemoveChar(t, a)
  {
    if s == "" {
      assert s + t == t;
    } else {
      assert (s + t)[1..] == s[1..] + t;
      RemoveCharAppend(s[1..], t, a);
    }
  }

  /** `s.isalnum()`: non-empty and made of letters and digits only. */
  predicate IsAlnumString(s: string)
  {
    |s| > 0 && forall i :: 0 <= i < |s| ==> IsAlnum(s[i])
  }

  /**
   * The loop of `str.title()`: a cased character is upper-cased when the
   * character before it is not cased, and lower-cased otherwise.
   */
  function TitleFrom(s: string, previousCased: bool): (r: string)
    ensures |r| == |s|
  {
    if s == "" then ""
    else [if previousCased then ToLower(s[0]) else ToUpper(s[0])] + TitleFrom(s[1..], IsCased(s[0]))
  }

  /** `s.title()`. */
  function Title(s: string): (r: string)
    ensures |r| == |s|
  {
    TitleFrom(s, false)
  }

  /** A string in which every word starts upper-case and continues lower-case. */
  predicate IsTitled(t: string)
  {
    forall i :: 0 <= i < |t| ==> TitledAt(t, i)
  }

  /** Character `i` opens a word upper-case or continues one lower-case. */
  predicate TitledAt(t: string, i: nat)
    requires i < |t|
  {
    if i > 0 && IsCased(t[i - 1]) then !IsUpper(t[i]) else !IsLower(t[i])
  }

  /** A string that starts lower-case is not title-cased. */
  lemma LowerStartNotTitled(t: string)
    requires |t| > 0 && IsLower(t[0])
    ensures !IsTitled(t)
  {
    assert !TitledAt(t, 0);
  }

  /** A string with an upper-case letter right after a cased one is not title-cased. */
  lemma UpperAfterCasedNotTitled(t: string, i: nat)
    requires 0 < i < |t| && IsCased(t[i - 1]) && IsUpper(t[i])
    ensures !IsTitled(t)
  {
    assert !TitledAt(t, i);
  }

  lemma {:induction false} TitleFromAt(s: string, previousCased: bool, i: nat)
    requires i < |s|
    ensures TitleFrom(s, previousCased)[i] ==
      if (i == 0 && previousCased) || (i > 0 && IsCased(s[i - 1])) then ToLower(s[i]) else ToUpper(s[i])
    decreases i
  {
    if i > 0 {
      TitleFromAt(s[1..], IsCased(s[0]), i - 1);
      assert s[1..][i - 1] == s[i];
      if i > 1 {
        assert s[1..][i - 2] == s[i - 1];
      }
    }
  }

  /** Character `i` of `s.title()`, stated without the loop. */
  lemma TitleAt(s: string, i: nat)
    requires i < |s|
    ensures Title(s)[i] == if i > 0 && IsCased(s[i - 1]) then ToLower(s[i]) else ToUpper(s[i])
  {
    TitleFromAt(s, false, i);
  }

  /** Every result of `title()` is title-cased. */
  lemma TitleIsTitled(s: string)
    ensures IsTitled(Title(s))
  {
    var t := Title(s);
    forall i | 0 <= i < |t|
      ensures TitledAt(t, i)
    {
      TitleAt(s, i);
      if i > 0 {
        TitleAt(s, i - 1);
      }
    }
  }

  /** `title()` leaves a string unchanged exactly when it is already title-cased. */
  lemma TitleFixpoints(t: string)
    ensures Title(t) == t <==> IsTitled(t)
  {
    if IsTitled(t) {
      forall i | 0 <= i < |t| ensures Title(t)[i] == t[i] {
        TitleAt(t, i);
        assert TitledAt(t, i);
      }
    } else if Title(t) == t {
      TitleIsTitled(t);
    }
  }

  /** `title()` is idempotent. */
  lemma TitleIdempotent(s: string)
    ensures Title(Title(s)) == Title(s)
  {
    TitleIsTitled(s);
    TitleFixpoints(Title(s));
  }

  /** `s.find(c)`, with `|s|` standing for "not found" instead of -1. */
  function IndexOf(s: string, c: char): (i: nat)
    ensures i <= |s|
    ensures i < |s| ==> s[i] == c
    ensures forall j :: 0 <= j < i ==> s[j] != c
  {
    if s == "" then 0 else if s[0] == c then 0 else 1 + IndexOf(s[1..], c)
  }

  /** Searching a concatenation: the first part is searched first. */
  lemma {:induction false} IndexOfAppend(s: string, t: string, c: char)
    ensures c in s ==> IndexOf(s + t, c) == IndexOf(s, c)
    ensures c !in s ==> IndexOf(s + t, c) == |s| + IndexOf(t, c)
  {
    if s == "" {
      assert s + t == t;
    } else {
      assert (s + t)[1..] == s[1..] + t;
      IndexOfAppend(s[1..], t, c);
    }
  }

  /** `s.rfind(c)`: the last index holding `c`, or -1. */
  function RFind(s: string, c: char): (i: int)
    ensures -1 <= i < |s|
    ensures i >= 0 ==> s[i] == c
    ensures forall j :: i < j < |s| ==> s[j] != c
  {
    if s == "" then -1 else if s[|s| - 1] == c then |s| - 1 else RFind(s[..|s| - 1], c)
  }

  /** Searching backwards skips a tail that lacks `c`. */
  lemma {:induction false} RFindAppend(s: string, t: string, c: char)
    requires c !in t
    ensures RFind(s + t, c) == RFind(s, c)
  {
    if t == [] {
      assert s + t == s;
    } else {
      var u := s + t;
      assert u[|u| - 1] == t[|t| - 1];
      assert u[..|u| - 1] == s + t[..|t| - 1];
      RFindAppend(s, t[..|t| - 1], c);
    }
  }

  /** The number of leading characters of `s` that are not whitespace. */
  function TokenLength(s: string): (n: nat)
    ensures n <= |s|
  {
    if s == "" || IsSpace(s[0]) then 0 else 1 + TokenLength(s[1..])
  }

  /** The leading run stops exactly at the first whitespace character. */
  lemma {:induction false} TokenLengthShape(s: string)
    ensures forall i :: 0 <= i < TokenLength(s) ==> !IsSpace(s[i])
    ensures TokenLength(s) < |s| ==> IsSpace(s[TokenLength(s)])
  {
    if s != "" && !IsSpace(s[0]) {
      TokenLengthShape(s[1..]);
      assert forall i :: 1 <= i < TokenLength(s) ==> s[i] == s[1..][i - 1];
    }
  }

  /** `s.split()[0]`, or `None` where that raises `IndexError`. */
  function FirstToken(s: string): Option<string>
  {
    if s == "" then None
    else if IsSpace(s[0]) then FirstToken(s[1..])
    else Some(s[..TokenLength(s)])
  }

  /** The first word is non-empty and has no whitespace; there is none exactly when `s` is all whitespace. */
  lemma {:induction false} FirstTokenShape(s: string)
    ensures FirstToken(s).Some? ==> FirstToken(s).value != "" && forall c :: c in FirstToken(s).value ==> !IsSpace(c)
    ensures FirstToken(s).None? <==> forall c :: c in s ==> IsSpace(c)
  {
    if s != "" {
      FirstTokenShape(s[1..]);
      TokenLengthShape(s);
      assert forall c :: c in s ==> c == s[0] || c in s[1..];
      assert s[0] in s;
    }
  }

  /** A word followed by whitespace is what `split()[0]` returns. */
  lemma FirstTokenOfWord(word: string, sep: char, rest: string)
    requires word != "" && forall c :: c in word ==> !IsSpace(c)
    requires IsSpace(sep)
    ensures FirstToken(word + [sep] + rest) == Some(word)
  {
    var s := word + [sep] + rest;
    assert word[0] in word && s[0] == word[0];
    TokenLengthOfWord(word, [sep] + rest);
    assert s == word + ([sep] + rest);
    assert s[..|word|] == word;
  }

  lemma {:induction false} TokenLengthOfWord(word: string, tail: string)
    requires forall c :: c in word ==> !IsSpace(c)
    requires tail == "" || IsSpace(tail[0])
    ensures TokenLength(word + tail) == |word|
  {
    if word != "" {
      assert (word + tail)[1..] == word[1..] + tail;
      assert word[0] in word;
      TokenLengthOfWord(word[1..], tail);
    }
  }

  /** The digit characters of an `int(...)` literal, with single `_` between digits. */
  predicate DigitGroups(s: string)
  {
    |s| > 0 && forall i :: 0 <= i < |s| ==> DigitGroupAt(s, i)
  }

  /** Character `i` is a digit, or a `_` between two digits. */
  predicate DigitGroupAt(s: string, i: nat)
    requires i < |s|
  {
    IsDigit(s[i]) || (s[i] == '_' && 0 < i < |s| - 1 && IsDigit(s[i + 1]))
  }

  function DigitValue(c: char): nat
    requires IsDigit(c)
  {
    c as int - '0' as int
  }

  /** The value of a string of decimal digits. */
  function DigitsValue(d: string): nat
    requires forall i :: 0 <= i < |d| ==> IsDigit(d[i])
  {
    if d == "" then 0 else 10 * DigitsValue(d[..|d| - 1]) + DigitValue(d[|d| - 1])
  }

  /** `10 ** k`. */
  function Pow10(k: nat): (p: nat)
    ensures p >= 1
  {
    if k == 0 then 1 else 10 * Pow10(k - 1)
  }

  /** A leading digit weighs ten to the power of the number of digits after it. */
  lemma {:induction false} DigitsValuePrepend(c: char, d: string)
    requires IsDigit(c) && forall i :: 0 <= i < |d| ==> IsDigit(d[i])
    ensures DigitsValue([c] + d) == DigitValue(c) * Pow10(|d|) + DigitsValue(d)
    decreases |d|
  {
    if d != "" {
      var init := d[..|d| - 1];
      assert ([c] + d)[..|d|] == [c] + init;
      DigitsValuePrepend(c, init);
      assert DigitsValue([c] + d) == 10 * (DigitValue(c) * Pow10(|init|) + DigitsValue(init)) + DigitValue(d[|d| - 1]);
      assert 10 * (DigitValue(c) * Pow10(|init|)) == DigitValue(c) * Pow10(|d|);
    }
  }

  /** `int(s)` for a decimal string: optional sign, then digit groups; `None` is `ValueError`. */
  function ParseInt(s: string): (r: Option<int>)
  {
    var signed := |s| > 0 && (s[0] == '+' || s[0] == '-');
    var digits := if signed then s[1..] else s;
    match ParseDigits(digits)
    case None => None
    case Some(n) => Some(if signed && s[0] == '-' then -(n as int) else n)
  }

  /**
   * The unsigned part of `int(s)`, read from the left: a digit first, then
   * digits, each `_` followed by a digit.
   */
  function ParseDigits(s: string): Option<nat>
  {
    if s == "" || !IsDigit(s[0]) then None else DigitsAfter(s[1..], DigitValue(s[0]))
  }

  /** The rest of a literal after a digit, with `acc` the value read so far. */
  function DigitsAfter(s: string, acc: nat): Option<nat>
  {
    if s == "" then Some(acc)
    else if IsDigit(s[0]) then DigitsAfter(s[1..], 10 * acc + DigitValue(s[0]))
    else if s[0] == '_' && |s| > 1 && IsDigit(s[1]) then DigitsAfter(s[2..], 10 * acc + DigitValue(s[1]))
    else None
  }

  /** Every character after a digit is a digit, or a `_` followed by one. */
  predicate AfterDigitOk(s: string)
  {
    forall i :: 0 <= i < |s| ==> AfterDigitAt(s, i)
  }

  predicate AfterDigitAt(s: string, i: nat)
    requires i < |s|
  {
    IsDigit(s[i]) || (s[i] == '_' && i + 1 < |s| && IsDigit(s[i + 1]))
  }

  /** Every character is a digit. */
  predicate AllDigits(d: string)
  {
    forall i :: 0 <= i < |d| ==> IsDigit(d[i])
  }

  /** Dropping `k` leading characters shifts the per-character condition. */
  lemma AfterDigitAtDrop(s: string, k: nat, i: nat)
    requires k <= i < |s|
    ensures AfterDigitAt(s, i) <==> AfterDigitAt(s[k..], i - k)
  {
  }

  /** After a digit, a digit is well formed when what follows it is. */
  lemma AfterDigitOkDigit(s: string)
    requires s != "" && IsDigit(s[0])
    ensures AfterDigitOk(s) <==> AfterDigitOk(s[1..])
  {
    forall i | 1 <= i < |s| ensures AfterDigitAt(s, i) <==> AfterDigitAt(s[1..], i - 1) {
      AfterDigitAtDrop(s, 1, i);
    }
    assert AfterDigitAt(s, 0);
    if AfterDigitOk(s[1..]) {
      forall i | 0 <= i < |s| ensures AfterDigitAt(s, i) {
        if i > 0 {
          assert AfterDigitAt(s[1..], i - 1);
        }
      }
    }
    if AfterDigitOk(s) {
      forall j | 0 <= j < |s[1..]| ensures AfterDigitAt(s[1..], j) {
        assert AfterDigitAt(s, j + 1);
      }
    }
  }

  /** After a digit, `_` and a digit are well formed when what follows them is. */
  lemma AfterDigitOkUnderscore(s: string)
    requires |s| > 1 && s[0] == '_' && IsDigit(s[1])
    ensures AfterDigitOk(s) <==> AfterDigitOk(s[2..])
  {
    forall i | 2 <= i < |s| ensures AfterDigitAt(s, i) <==> AfterDigitAt(s[2..], i - 2) {
      AfterDigitAtDrop(s, 2, i);
    }
    assert AfterDigitAt(s, 0) && AfterDigitAt(s, 1);
    if AfterDigitOk(s[2..]) {
      forall i | 0 <= i < |s| ensures AfterDigitAt(s, i) {
        if i > 1 {
          assert AfterDigitAt(s[2..], i - 2);
        }
      }
    }
    if AfterDigitOk(s) {
      forall j | 0 <= j < |s[2..]| ensures AfterDigitAt(s[2..], j) {
        assert AfterDigitAt(s, j + 2);
      }
    }
  }

  /** Anything else after a digit is malformed. */
  lemma AfterDigitBad(s: string)
    requires s != "" && !IsDigit(s[0]) && !(s[0] == '_' && |s| > 1 && IsDigit(s[1]))
    ensures !AfterDigitOk(s)
  {
    assert !AfterDigitAt(s, 0);
  }

  lemma AllDigitsCons(c: char, r: string)
    requires IsDigit(c) && AllDigits(r)
    ensures AllDigits([c] + r)
  {
    assert forall i :: 1 <= i < |[c] + r| ==> ([c] + r)[i] == r[i - 1];
  }

  /** Reading one more digit into the accumulator. */
  lemma ShiftDigit(acc: nat, c: char, k: nat)
    requires IsDigit(c)
    ensures (10 * acc + DigitValue(c)) * Pow10(k) == acc * Pow10(k + 1) + DigitValue(c) * Pow10(k)
  {
    calc {
      (10 * acc + DigitValue(c)) * Pow10(k);
      10 * acc * Pow10(k) + DigitValue(c) * Pow10(k);
      acc * (10 * Pow10(k)) + DigitValue(c) * Pow10(k);
    }
  }

  /** The scanner accepts exactly the well-formed rests. */
  lemma {:induction false} DigitsAfterAccepts(s: string, acc: nat)
    ensures DigitsAfter(s, acc).Some? <==> AfterDigitOk(s)
  {
    if s != "" {
      if IsDigit(s[0]) {
        AfterDigitOkDigit(s);
        DigitsAfterAccepts(s[1..], 10 * acc + DigitValue(s[0]));
      } else if s[0] == '_' && |s| > 1 && IsDigit(s[1]) {
        AfterDigitOkUnderscore(s);
        DigitsAfterAccepts(s[2..], 10 * acc + DigitValue(s[1]));
      } else {
        AfterDigitBad(s);
      }
    }
  }

  /** One step of the scanner keeps the relation between its value and the digits read. */
  lemma DigitsAfterStep(s: string, acc: nat, c: char, t: string)
    requires IsDigit(c) && AllDigits(RemoveChar(t, '_'))
    requires RemoveChar(s, '_') == [c] + RemoveChar(t, '_')
    requires DigitsAfter(s, acc) == DigitsAfter(t, 10 * acc + DigitValue(c))
    requires DigitsAfter(t, 10 * acc + DigitValue(c)) ==
      Some((10 * acc + DigitValue(c)) * Pow10(|RemoveChar(t, '_')|) + DigitsValue(RemoveChar(t, '_')))
    ensures AllDigits(RemoveChar(s, '_'))
    ensures DigitsAfter(s, acc) == Some(acc * Pow10(|RemoveChar(s, '_')|) + DigitsValue(RemoveChar(s, '_')))
  {
    var r := RemoveChar(t, '_');
    AllDigitsCons(c, r);
    DigitsValuePrepend(c, r);
    ShiftDigit(acc, c, |r|);
  }

  /**
   * One step of the scanner on a non-empty well-formed rest: the digit it
   * reads and the rest after it, still well formed.
   */
  lemma ScanStep(s: string, acc: nat) returns (c: char, t: string)
    requires s != "" && AfterDigitOk(s)
    ensures IsDigit(c) && |t| < |s| && AfterDigitOk(t)
    ensures RemoveChar(s, '_') == [c] + RemoveChar(t, '_')
    ensures DigitsAfter(s, acc) == DigitsAfter(t, 10 * acc + DigitValue(c))
  {
    if IsDigit(s[0]) {
      c, t := s[0], s[1..];
      AfterDigitOkDigit(s);
    } else {
      assert AfterDigitAt(s, 0);
      c, t := s[1], s[2..];
      AfterDigitOkUnderscore(s);
      assert s[1..][1..] == t;
    }
  }

  /**
   * On a well-formed rest the scanner's value is the one read so far,
   * shifted past the remaining digits, plus theirs.
   */
  lemma {:induction false} DigitsAfterValue(s: string, acc: nat)
    requires AfterDigitOk(s)
    ensures AllDigits(RemoveChar(s, '_'))
    ensures DigitsAfter(s, acc) == Some(acc * Pow10(|RemoveChar(s, '_')|) + DigitsValue(RemoveChar(s, '_')))
    decreases |s|
  {
    if s != "" {
      var c, t := ScanStep(s, acc);
      DigitsAfterValue(t, 10 * acc + DigitValue(c));
      DigitsAfterStep(s, acc, c, t);
    }
  }

  /** A literal that starts with a digit is digit groups when the rest after that digit is well formed. */
  lemma DigitGroupsAfterFirst(s: string)
    requires s != "" && IsDigit(s[0])
    ensures DigitGroups(s) <==> AfterDigitOk(s[1..])
  {
    var t := s[1..];
    assert DigitGroupAt(s, 0);
    forall i | 1 <= i < |s| ensures DigitGroupAt(s, i) <==> AfterDigitAt(t, i - 1) {
      assert s[i] == t[i - 1];
      if i + 1 < |s| {
        assert s[i + 1] == t[i];
      }
    }
    if AfterDigitOk(t) {
      forall i | 0 <= i < |s| ensures DigitGroupAt(s, i) {
        if i > 0 {
          assert AfterDigitAt(t, i - 1);
        }
      }
    }
    if DigitGroups(s) {
      forall j | 0 <= j < |t| ensures AfterDigitAt(t, j) {
        assert DigitGroupAt(s, j + 1);
      }
    }
  }

  /**
   * The scanner agrees with the reference reading of `int()`: it accepts
   * exactly the digit groups joined by single underscores, and their value
   * is that of the digits left once the underscores are removed.
   */
  lemma ParseDigitsMeaning(s: string)
    ensures ParseDigits(s).Some? <==> DigitGroups(s)
    ensures DigitGroups(s) ==> AllDigits(RemoveChar(s, '_'))
    ensures DigitGroups(s) ==> ParseDigits(s) == Some(DigitsValue(RemoveChar(s, '_')))
  {
    if s != "" && IsDigit(s[0]) {
      var t := s[1..];
      DigitGroupsAfterFirst(s);
      DigitsAfterAccepts(t, DigitValue(s[0]));
      if DigitGroups(s) {
        DigitsAfterValue(t, DigitValue(s[0]));
        var r := RemoveChar(t, '_');
        assert RemoveChar(s, '_') == [s[0]] + r;
        AllDigitsCons(s[0], r);
        DigitsValuePrepend(s[0], r);
        assert DigitValue(s[0]) * Pow10(|r|) + DigitsValue(r) == DigitsValue([s[0]] + r);
      }
    } else if s != "" {
      NonDigitStartNoGroups(s);
    }
  }

  /** A string that does not start with a digit is not a digit literal. */
  lemma NonDigitStartNoGroups(s: string)
    requires |s| > 0 && !IsDigit(s[0])
    ensures !DigitGroups(s)
  {
    assert !DigitGroupAt(s, 0);
  }

  function DigitChar(n: nat): (c: char)
    requires n < 10
    ensures IsDigit(c) && DigitValue(c) == n
  {
    ('0' as int + n) as char
  }

  /** `str(n)` for a natural number. */
  function DecimalString(n: nat): (s: string)
    ensures |s| > 0
    ensures forall i :: 0 <= i < |s| ==> IsDigit(s[i])
  {
    if n < 10 then [DigitChar(n)] else DecimalString(n / 10) + [DigitChar(n % 10)]
  }

  lemma {:induction false} DecimalStringValue(n: nat)
    ensures DigitsValue(DecimalString(n)) == n
  {
    if n >= 10 {
      var s := DecimalString(n);
      assert s[..|s| - 1] == DecimalString(n / 10);
      DecimalStringValue(n / 10);
    }
  }

  lemma {:induction false} RemoveAbsent(s: string, a: char)
    requires a !in s
    ensures RemoveChar(s, a) == s
  {
    if s != "" {
      RemoveAbsent(s[1..], a);
    }
  }

  /** `int(str(n)) == n`, and `int('-' + str(n)) == -n`. */
  lemma ParseDecimalString(n: nat)
    ensures ParseInt(DecimalString(n)) == Some(n)
    ensures ParseInt("-" + DecimalString(n)) == Some(-(n as int))
  {
    var s := DecimalString(n);
    RemoveAbsent(s, '_');
    DecimalStringValue(n);
    assert DigitGroups(s) by {
      forall i | 0 <= i < |s| ensures DigitGroupAt(s, i) {
      }
    }
    ParseDigitsMeaning(s);
    assert ("-" + s)[1..] == s;
  }
}

=== FILE: pyvalues.dfy ===
/**
 * The dynamically typed Python values that the SDK's configuration code
 * receives as keyword arguments and settings, with Python's truthiness and
 * the value-returning `or` / `and` operators.
 */
module PyValues {

  /** The kinds of Python value a configuration option can hold. */
  datatype PyValue =
    | PyNone
    | PyBool(b: bool)
    | PyInt(i: int)
    | PyFloat(f: real)
    | PyStr(s: string)

  /** Python truthiness: `None`, `False`, `0`, `0.0` and `''` are false. */
  predicate Truthy(v: PyValue)
  {
    match v
    case PyNone => false
    case PyBool(b) => b
    case PyInt(i) => i != 0
    case PyFloat(f) => f != 0.0
    case PyStr(s) => s != ""
  }

  /** `a or b`: the first operand when it is truthy, else the second. */
  function Or(a: PyValue, b: PyValue): (r: PyValue)
    ensures Truthy(r) <==> Truthy(a) || Truthy(b)
    ensures Truthy(a) ==> r == a
    ensures !Truthy(a) ==> r == b
  {
    if Truthy(a) then a else b
  }

  /** `a and b`: the first operand when it is falsy, else the second. */
  function And(a: PyValue, b: PyValue): (r: PyValue)
    ensures Truthy(r) <==> Truthy(a) && Truthy(b)
    ensures !Truthy(a) ==> r == a
    ensures Truthy(a) ==> r == b
  {
    if Truthy(a) then b else a
  }

  /** `d.get(key, default)` on a dictionary of options. */
  function Get(d: map<string, PyValue>, key: string, default: PyValue): (r: PyValue)
    ensures key in d ==> r == d[key]
    ensures key !in d ==> r == default
  {
    if key in d then d[key] else default
  }

  /** `isinstance(v, (int, float))`; `bool` is a subclass of `int` in Python. */
  predicate IsNumber(v: PyValue)
  {
    v.PyBool? || v.PyInt? || v.PyFloat?
  }

  /** The numeric value of an `int`, `float` or `bool` (`True` is 1). */
  function NumberValue(v: PyValue): real
    requires IsNumber(v)
  {
    match v
    case PyBool(b) => if b then 1.0 else 0.0
    case PyInt(i) => i as real
    case PyFloat(f) => f
  }
}

=== FILE: types.dfy ===
/**
 * The data shapes of the SDK: the request metadata an adapter extracts,
 * the tracking payload sent on the wire, and the configuration record.
 */
module Types {
  import opened Wrappers
  import opened PyValues

  /** Whether a key is present in a Python dict, and its value when it is. */
  datatype Field<+T> = Absent | Present(value: T)

  /** A header value as frameworks store it: a string or a list of strings. */
  datatype HeaderValue = Text(text: string) | Items(items: seq<string>)

  type Headers = map<string, HeaderValue>

  /** What an adapter extracts from one request. `statusCode` may be left out. */
  datatype RequestMetadata = RequestMetadata(
    path: string,
    httpMethod: string,
    headers: Headers,
    statusCode: Field<Option<int>>)

  /**
   * The wire payload. Every key is optional (a `total=False` typed dict);
   * keys typed `Optional[...]` may also hold `None`. Keys outside these
   * ten are not represented.
   */
  datatype TrackingPayload = TrackingPayload(
    timestamp: Field<int>,
    path: Field<string>,
    httpMethod: Field<string>,
    statusCode: Field<Option<int>>,
    userAgent: Field<string>,
    referrer: Field<Option<string>>,
    headers: Field<Option<map<string, string>>>,
    requestId: Field<Option<string>>,
    scriptKey: Field<Option<string>>,
    source: Field<Option<string>>)

  /** The payload with no key set (`{}`). */
  const EmptyPayload: TrackingPayload :=
    TrackingPayload(Absent, Absent, Absent, Absent, Absent, Absent, Absent, Absent, Absent, Absent)

  /** The SDK configuration record; fields hold whatever the caller passed. */
  datatype Config = Config(
    scriptKey: PyValue,
    endpoint: PyValue,
    timeout: PyValue,
    debug: PyValue,
    enabled: PyValue)

  /** The configuration's default timeout in seconds. */
  const DefaultTimeout: real := 0.05

  /**
   * The configuration built from a script key alone: no endpoint, the
   * default timeout, debug off and tracking enabled.
   */
  function ConfigWithKey(scriptKey: PyValue): (c: Config)
    ensures c.scriptKey == scriptKey
    ensures c.endpoint == PyNone && c.timeout == PyFloat(DefaultTimeout)
    ensures !Truthy(c.debug) && Truthy(c.enabled)
  {
    Config(scriptKey, PyNone, PyFloat(DefaultTimeout), PyBool(false), PyBool(true))
  }
}

=== FILE: urls.dfy ===
/**
 * The part of `urllib.parse.urlparse` (CPython 3.12) the SDK depends on:
 * the sanitising of the input, the split into scheme, network location,
 * path, query and fragment, the `;params` of the last path segment, and
 * the one error it raises on a `str`, an unbalanced `[` or `]` in the
 * network location.
 */
module Urls {
  import opened Wrappers
  import opened PyStrings

  /** `_WHATWG_C0_CONTROL_OR_SPACE`: U+0000 to U+0020. */
  predicate IsC0ControlOrSpace(c: char) { c <= ' ' }

  /** `s.lstrip(_WHATWG_C0_CONTROL_OR_SPACE)`. */
  function LStripC0(s: string): (r: string)
    ensures r == "" || !IsC0ControlOrSpace(r[0])
  {
    if s == "" then ""
    else if IsC0ControlOrSpace(s[0]) then LStripC0(s[1..])
    else s
  }

  /** Stripping stops at the first character that is kept. */
  lemma {:induction false} LStripC0Append(s: string, t: string)
    requires t != "" && !IsC0ControlOrSpace(t[0])
    ensures LStripC0(s + t) == LStripC0(s) + t
  {
    if s == "" {
      assert s + t == t;
    } else {
      assert (s + t)[0] == s[0];
      assert (s + t)[1..] == s[1..] + t;
      LStripC0Append(s[1..], t);
    }
  }

  /** Tab, carriage return and line feed: `_UNSAFE_URL_BYTES_TO_REMOVE`. */
  predicate IsUnsafe(c: char) { c == '\t' || c == '\r' || c == '\n' }

  /** Every unsafe character removed, wherever it occurs. */
  function RemoveUnsafe(s: string): string
  {
    RemoveChar(RemoveChar(RemoveChar(s, '\t'), '\r'), '\n')
  }

  /** Removal keeps exactly the characters that are not unsafe. */
  lemma RemoveUnsafeChars(s: string)
    ensures forall c :: c in RemoveUnsafe(s) <==> c in s && !IsUnsafe(c)
  {
    RemoveCharChars(s, '\t');
    RemoveCharChars(RemoveChar(s, '\t'), '\r');
    RemoveCharChars(RemoveChar(RemoveChar(s, '\t'), '\r'), '\n');
  }

  lemma RemoveUnsafeAppend(s: string, t: string)
    ensures RemoveUnsafe(s + t) == RemoveUnsafe(s) + RemoveUnsafe(t)
  {
    RemoveCharAppend(s, t, '\t');
    RemoveCharAppend(RemoveChar(s, '\t'), RemoveChar(t, '\t'), '\r');
    RemoveCharAppend(RemoveChar(RemoveChar(s, '\t'), '\r'), RemoveChar(RemoveChar(t, '\t'), '\r'), '\n');
  }

  lemma RemoveUnsafeClean(s: string)
    requires forall c :: c in s ==> !IsUnsafe(c)
    ensures RemoveUnsafe(s) == s
  {
    RemoveAbsent(s, '\t');
    RemoveAbsent(s, '\r');
    RemoveAbsent(s, '\n');
  }

  /** Stripping only removes characters. */
  lemma {:induction false} LStripC0Chars(s: string)
    ensures forall c :: c in LStripC0(s) ==> c in s
  {
    if s != "" && IsC0ControlOrSpace(s[0]) {
      LStripC0Chars(s[1..]);
      assert forall c :: c in s[1..] ==> c in s;
    }
  }

  /** The string `urlsplit` goes on to split. */
  function Sanitized(url: string): string
  {
    RemoveUnsafe(LStripC0(url))
  }

  lemma SanitizedChars(url: string)
    ensures forall c :: c in Sanitized(url) ==> c in url && !IsUnsafe(c)
  {
    LStripC0Chars(url);
    RemoveUnsafeChars(LStripC0(url));
  }

  /** `scheme_chars`: ASCII letters, digits, `+`, `-` and `.`. */
  predicate IsSchemeChar(c: char) { IsAlnum(c) || c == '+' || c == '-' || c == '.' }

  /** Whether the text before the first `:` of `url` is a scheme. */
  predicate HasScheme(url: string)
  {
    var i := IndexOf(url, ':');
    0 < i < |url| && IsCased(url[0]) && forall k :: 0 <= k < i ==> IsSchemeChar(url[k])
  }

  /** The scheme (lower-cased, `""` if none) and what follows its `:`. */
  function SplitScheme(url: string): (r: (string, string))
    ensures !HasScheme(url) ==> r == ("", url)
    ensures HasScheme(url) ==>
      var i := IndexOf(url, ':');
      r.0 == Lower(url[..i]) && r.0 != "" && r.1 == url[i + 1..]
  {
    if HasScheme(url) then
      var i := IndexOf(url, ':');
      (Lower(url[..i]), url[i + 1..])
    else ("", url)
  }

  /** What follows the scheme is made of characters of the input. */
  lemma SplitSchemeChars(url: string)
    ensures forall c :: c in SplitScheme(url).1 ==> c in url
  {
    if HasScheme(url) {
      var i := IndexOf(url, ':');
      forall c | c in url[i + 1..] ensures c in url {
        var k :| 0 <= k < |url[i + 1..]| && url[i + 1..][k] == c;
        assert url[i + 1 + k] == c;
      }
    }
  }

  /** The characters that end a network location. */
  predicate IsNetlocDelim(c: char) { c == '/' || c == '?' || c == '#' }

  /** The index of the first `/`, `?` or `#` in `s`, or `|s|`. */
  function FirstDelim(s: string): (i: nat)
    ensures i <= |s|
    ensures i < |s| ==> IsNetlocDelim(s[i])
    ensures forall j :: 0 <= j < i ==> !IsNetlocDelim(s[j])
  {
    if s == "" then 0 else if IsNetlocDelim(s[0]) then 0 else 1 + FirstDelim(s[1..])
  }

  /** A delimiter right after `s` does not move the end of the network location. */
  lemma {:induction false} FirstDelimAppend(s: string, t: string)
    requires t != "" && IsNetlocDelim(t[0])
    ensures FirstDelim(s + t) == FirstDelim(s)
  {
    if s == "" {
      assert s + t == t;
    } else {
      assert (s + t)[0] == s[0];
      assert (s + t)[1..] == s[1..] + t;
      FirstDelimAppend(s[1..], t);
    }
  }

  /** `url[:2] == '//'`: the reference has a network location. */
  predicate HasAuthority(url: string)
  {
    |url| >= 2 && url[0] == '/' && url[1] == '/'
  }

  /** `_splitnetloc(url, 2)`: the network location and the rest. */
  function SplitNetloc(url: string): (r: (string, string))
    requires HasAuthority(url)
    ensures url == "//" + r.0 + r.1
    ensures forall c :: c in r.0 ==> !IsNetlocDelim(c)
    ensures r.1 == "" || IsNetlocDelim(r.1[0])
  {
    var t := url[2..];
    var d := FirstDelim(t);
    assert url[..2] == "//";
    assert url == url[..2] + t[..d] + t[d..];
    (t[..d], t[d..])
  }

  /** The components `urlsplit` returns. */
  datatype SplitResult = SplitResult(scheme: string, netloc: string, path: string, query: string, fragment: string)

  /** The error `urlsplit` raises on a `str`: `ValueError("Invalid IPv6 URL")`. */
  datatype UrlError = InvalidIPv6

  /** A network location with `[` but no `]`, or the other way round. */
  predicate Unbalanced(netloc: string)
  {
    ('[' in netloc) != (']' in netloc)
  }

  /** The prefix of `s` before the first occurrence of `c` (all of `s` if none). */
  function Before(s: string, c: char): (r: string)
    ensures r <= s && c !in r
    ensures c in s ==> |r| < |s| && s[|r|] == c
    ensures c !in s ==> r == s
  {
    s[..IndexOf(s, c)]
  }

  /** What follows the first occurrence of `c` in `s` (nothing if none). */
  function After(s: string, c: char): (r: string)
    ensures c in s ==> s == Before(s, c) + [c] + r
    ensures c !in s ==> r == ""
  {
    if c in s then s[IndexOf(s, c) + 1..] else ""
  }

  /** `Before` of a concatenation whose first part lacks `c`. */
  lemma BeforeAppend(s: string, t: string, c: char)
    requires c !in s
    ensures Before(s + t, c) == s + Before(t, c)
  {
    IndexOfAppend(s, t, c);
    assert (s + t)[..|s| + IndexOf(t, c)] == s + t[..IndexOf(t, c)];
  }

  /** The network location, when `rest` starts with `//`, and what follows it. */
  function SplitAuthority(rest: string): (r: (string, string))
    ensures !HasAuthority(rest) ==> r == ("", rest)
    ensures HasAuthority(rest) ==> rest == "//" + r.0 + r.1 && (r.1 == "" || IsNetlocDelim(r.1[0]))
  {
    if HasAuthority(rest) then SplitNetloc(rest) else ("", rest)
  }

  /** Both parts are made of characters of the input, and the network location has no delimiter. */
  lemma SplitAuthorityChars(rest: string)
    ensures forall c :: c in SplitAuthority(rest).0 ==> !IsNetlocDelim(c) && c in rest
    ensures forall c :: c in SplitAuthority(rest).1 ==> c in rest
  {
    if HasAuthority(rest) {
      var r := SplitNetloc(rest);
      assert rest == "//" + r.0 + r.1;
      assert forall c :: c in r.0 ==> c in rest by {
        assert rest[2..2 + |r.0|] == r.0;
      }
      assert forall c :: c in r.1 ==> c in rest by {
        assert rest[2 + |r.0|..] == r.1;
      }
    }
  }

  /** `urlsplit(url)` for a `str`. */
  function UrlSplit(url: string): (r: Result<SplitResult, UrlError>)
    ensures r.Ok? ==> '?' !in r.value.path && '#' !in r.value.path
  {
    var u := Sanitized(url);
    var scheme := SplitScheme(u).0;
    var authority := SplitAuthority(SplitScheme(u).1);
    if Unbalanced(authority.0) then Err(InvalidIPv6)
    else
      var beforeFragment := Before(authority.1, '#');
      Ok(SplitResult(scheme, authority.0, Before(beforeFragment, '?'), After(beforeFragment, '?'),
                     After(authority.1, '#')))
  }

  /** The network location `urlsplit` returns holds no delimiter. */
  lemma UrlSplitNetloc(url: string)
    requires UrlSplit(url).Ok?
    ensures forall c :: c in UrlSplit(url).value.netloc ==> !IsNetlocDelim(c)
  {
    SplitAuthorityChars(SplitScheme(Sanitized(url)).1);
  }

  /** `uses_params`: the schemes whose paths carry `;params`. */
  const UsesParams: set<string> :=
    {"", "ftp", "hdl", "prospero", "http", "imap", "https", "shttp", "rtsp", "rtsps", "rtspu",
     "sip", "sips", "mms", "sftp", "tel"}

  /**
   * `_splitparams`: when the path holds a `;`, cut at the first `;` that
   * follows the last `/`.
   */
  function StripParams(u: string): (r: string)
    ensures r <= u
    ensures ';' !in u ==> r == u
  {
    if ';' !in u then u
    else if '/' in u then
      var slash := RFind(u, '/');
      var i := slash + IndexOf(u[slash..], ';');
      if i == |u| then u else u[..i]
    else
      u[..IndexOf(u, ';')]
  }

  /** A path ending in `/` has an empty last segment, so no parameters to cut. */
  lemma StripParamsTrailingSlash(u: string)
    requires |u| > 0 && u[|u| - 1] == '/'
    ensures StripParams(u) == u
  {
    if ';' in u {
      assert RFind(u, '/') == |u| - 1;
      assert u[|u| - 1..] == "/";
    }
  }

  /** What follows the last `/` of a path. */
  function LastSegment(s: string): (r: string)
    ensures '/' !in r
  {
    s[RFind(s, '/') + 1..]
  }

  /** Only a `;` in the last segment starts parameters. */
  lemma StripParamsKeepsEarlierSegments(u: string)
    requires ';' !in LastSegment(u)
    ensures StripParams(u) == u
  {
    var slash := RFind(u, '/');
    if slash < 0 {
      assert u[slash + 1..] == u;
    } else if ';' in u {
      assert '/' in u by {
        assert u[slash] == '/';
      }
      assert u[slash..] == [u[slash]] + LastSegment(u);
      IndexOfAppend([u[slash]], LastSegment(u), ';');
      assert IndexOf(u[slash..], ';') == |u| - slash;
    }
  }

  /** A path holding a `/` has a last one. */
  lemma LastSlashFound(u: string)
    requires '/' in u
    ensures 0 <= RFind(u, '/') < |u| && u[RFind(u, '/')] == '/'
  {
    var j :| 0 <= j < |u| && u[j] == '/';
  }

  /** The first `;` of `head + tail` is the one that starts `tail` when `head` has none. */
  lemma FirstSemicolonAfter(head: string, tail: string)
    requires ';' !in head && tail != "" && tail[0] == ';'
    ensures IndexOf(head + tail, ';') == |head|
  {
    IndexOfAppend(head, tail, ';');
  }

  /** From a `/` followed by no `;`, the first `;` is the one that starts the appended tail. */
  lemma FirstSemicolonFrom(u: string, slash: nat, tail: string)
    requires slash < |u| && u[slash] == '/' && ';' !in u[slash + 1..] && tail != "" && tail[0] == ';'
    ensures IndexOf((u + tail)[slash..], ';') == |u| - slash
  {
    var head := u[slash..];
    assert head == [u[slash]] + u[slash + 1..];
    assert (u + tail)[slash..] == head + tail;
    FirstSemicolonAfter(head, tail);
  }

  /** After the last `/`, the first `;` is the one that starts the appended tail. */
  lemma FirstSemicolonOfTail(u: string, tail: string)
    requires '/' in u && ';' !in LastSegment(u) && tail != "" && tail[0] == ';'
    ensures IndexOf((u + tail)[RFind(u, '/')..], ';') == |u| - RFind(u, '/')
  {
    LastSlashFound(u);
    FirstSemicolonFrom(u, RFind(u, '/'), tail);
  }

  /** Parameters appended to a last segment without any are exactly what is cut. */
  lemma StripParamsOfAppendedParams(u: string, params: string)
    requires ';' !in LastSegment(u) && '/' in u && '/' !in params
    ensures StripParams(u + ";" + params) == u
  {
    var tail := ";" + params;
    assert '/' !in tail by {
      assert forall i :: 0 < i < |tail| ==> tail[i] == params[i - 1];
    }
    var v := u + tail;
    assert v == u + ";" + params;
    RFindAppend(u, tail, '/');
    FirstSemicolonOfTail(u, tail);
    assert ';' in v by {
      assert v[|u|] == ';';
    }
    assert v[..|u|] == u;
  }

  /** `urlparse(url).path` for a `str`, or the error it raises. */
  function UrlParsePath(url: string): (r: Result<string, UrlError>)
    ensures r.Ok? ==> '?' !in r.value && '#' !in r.value
    ensures r.Err? <==> UrlSplit(url).Err?
  {
    match UrlSplit(url)
    case Err(e) => Err(e)
    case Ok(parts) =>
      Ok(if parts.scheme in UsesParams && ';' in parts.path then StripParams(parts.path) else parts.path)
  }

  /** A string without brackets always parses. */
  lemma BracketFreeParses(url: string)
    requires '[' !in url && ']' !in url
    ensures UrlSplit(url).Ok?
  {
    SanitizedChars(url);
    SplitSchemeChars(Sanitized(url));
    SplitAuthorityChars(SplitScheme(Sanitized(url)).1);
  }

  /** A path that starts with exactly one `/`: no scheme, no network location. */
  predicate SingleSlashPath(s: string)
  {
    |s| > 0 && s[0] == '/' && (|s| == 1 || s[1] != '/') && forall i :: 0 <= i < |s| ==> !IsUnsafe(s[i])
  }

  /** Text appended to a single-slash path that does not begin a `//` keeps it one. */
  lemma SingleSlashAppend(s: string, t: string)
    requires SingleSlashPath(s)
    requires forall c :: c in t ==> !IsUnsafe(c)
    requires |s| == 1 && t != "" ==> t[0] != '/'
    ensures SingleSlashPath(s + t)
  {
    var u := s + t;
    assert u[0] == s[0];
    if |s| > 1 {
      assert u[1] == s[1];
    } else if t != "" {
      assert u[1] == t[0];
    }
    forall i | 0 <= i < |u| ensures !IsUnsafe(u[i]) {
      if i < |s| {
        assert u[i] == s[i];
      } else {
        assert u[i] == t[i - |s|];
        assert u[i] in t;
      }
    }
  }

  /**
   * On a path starting with one `/`, `urlparse` only cuts the fragment,
   * the query and the last segment's parameters.
   */
  lemma SingleSlashUrlPath(s: string)
    requires SingleSlashPath(s)
    ensures UrlParsePath(s) == Ok(StripParams(Before(Before(s, '#'), '?')))
  {
    assert LStripC0(s) == s;
    RemoveUnsafeClean(s);
    assert !HasScheme(s);
  }

  /** Sanitising stops being affected by the input after a character it keeps. */
  lemma SanitizedAppend(p: string, d: char, t: string)
    requires !IsC0ControlOrSpace(d)
    ensures Sanitized(p + [d] + t) == Sanitized(p) + [d] + RemoveUnsafe(t)
  {
    var dt := [d] + t;
    assert p + [d] + t == p + dt;
    LStripC0Append(p, dt);
    var a := LStripC0(p);
    assert LStripC0(p + dt) == a + dt;
    RemoveUnsafeAppend(a, dt);
    RemoveUnsafeAppend([d], t);
    RemoveUnsafeClean([d]);
    assert RemoveUnsafe(dt) == [d] + RemoveUnsafe(t);
    assert Sanitized(p + dt) == RemoveUnsafe(a) + ([d] + RemoveUnsafe(t));
  }

  /** A network location made of ordinary characters. */
  predicate PlainNetloc(n: string)
  {
    forall c :: c in n ==> !IsNetlocDelim(c) && !IsUnsafe(c)
  }

  /** `//`, a network location and a path starting with `/` split into those two parts. */
  lemma AuthoritySplit(n: string, p: string)
    requires PlainNetloc(n) && SingleSlashPath(p)
    ensures SplitAuthority("//" + n + p) == (n, p)
  {
    var u := "//" + n + p;
    assert u[0] == '/' && u[1] == '/';
    assert u[2..] == n + p;
    FirstDelimAppend(n, p);
    assert FirstDelim(n) == |n|;
    assert (n + p)[..|n|] == n && (n + p)[|n|..] == p;
  }

  lemma NoUnsafeInAuthority(prefix: string, n: string, p: string)
    requires forall c :: c in prefix ==> !IsUnsafe(c)
    requires PlainNetloc(n) && SingleSlashPath(p)
    ensures RemoveUnsafe(prefix + "//" + n + p) == prefix + "//" + n + p
  {
    var u := prefix + "//" + n + p;
    forall c | c in u ensures !IsUnsafe(c) {
      if c in p {
        var i :| 0 <= i < |p| && p[i] == c;
      }
    }
    RemoveUnsafeClean(u);
  }

  /**
   * A reference `//netloc/path` has the network location `netloc` and the
   * same path as `/path` alone; an unbalanced bracket in `netloc` raises.
   */
  lemma AuthorityPath(n: string, p: string)
    requires PlainNetloc(n) && SingleSlashPath(p)
    ensures UrlSplit("//" + n + p).Err? <==> Unbalanced(n)
    ensures !Unbalanced(n) ==> UrlSplit("//" + n + p).value.netloc == n
    ensures !Unbalanced(n) ==> UrlParsePath("//" + n + p) == UrlParsePath(p)
  {
    var u := "//" + n + p;
    assert LStripC0(u) == u;
    NoUnsafeInAuthority("", n, p);
    assert "" + "//" + n + p == u;
    assert !HasScheme(u);
    AuthoritySplit(n, p);
    SingleSlashUrlPath(p);
  }

  /** A scheme name: a letter, then letters, digits, `+`, `-` or `.`. */
  predicate SchemeName(sc: string)
  {
    |sc| > 0 && IsCased(sc[0]) && forall k :: 0 <= k < |sc| ==> IsSchemeChar(sc[k])
  }

  /**
   * `scheme://netloc/path` has the lower-cased scheme, the network location
   * `netloc` and, for a scheme with parameters, the same path as `/path`.
   */
  lemma SchemeAuthorityPath(sc: string, n: string, p: string)
    requires SchemeName(sc) && PlainNetloc(n) && SingleSlashPath(p)
    ensures UrlSplit(sc + "://" + n + p).Err? <==> Unbalanced(n)
    ensures !Unbalanced(n) ==> UrlSplit(sc + "://" + n + p).value.scheme == Lower(sc)
    ensures !Unbalanced(n) ==> UrlSplit(sc + "://" + n + p).value.netloc == n
    ensures !Unbalanced(n) && Lower(sc) in UsesParams ==> UrlParsePath(sc + "://" + n + p) == UrlParsePath(p)
  {
    var u := sc + "://" + n + p;
    var rest := "//" + n + p;
    SchemeSanitized(sc, n, p);
    SchemeSeparator(sc, n, p);
    SchemeSplit(sc, rest);
    AuthoritySplit(n, p);
    if !Unbalanced(n) {
      var path := Before(Before(p, '#'), '?');
      assert UrlSplit(u) == Ok(SplitResult(Lower(sc), n, path, After(Before(p, '#'), '?'), After(p, '#')));
      SingleSlashUrlPath(p);
      assert "" in UsesParams;
    }
  }

  lemma SchemeSeparator(sc: string, n: string, p: string)
    ensures sc + "://" + n + p == sc + ":" + ("//" + n + p)
  {
    assert "://" == ":" + "//";
  }

  lemma SchemeSanitized(sc: string, n: string, p: string)
    requires SchemeName(sc) && PlainNetloc(n) && SingleSlashPath(p)
    ensures Sanitized(sc + "://" + n + p) == sc + "://" + n + p
  {
    var u := sc + "://" + n + p;
    assert u[0] == sc[0];
    assert LStripC0(u) == u;
    assert forall c :: c in sc ==> !IsUnsafe(c) by {
      forall c | c in sc ensures !IsUnsafe(c) {
        var k :| 0 <= k < |sc| && sc[k] == c;
      }
    }
    assert forall c :: c in sc + ":" ==> !IsUnsafe(c);
    assert sc + "://" + n + p == sc + ":" + "//" + n + p;
    NoUnsafeInAuthority(sc + ":", n, p);
  }

  /** The text before the first `:`, when it is a scheme name, is the scheme. */
  lemma SchemeSplit(sc: string, rest: string)
    requires SchemeName(sc)
    ensures SplitScheme(sc + ":" + rest) == (Lower(sc), rest)
  {
    var u := sc + ":" + rest;
    assert u == sc + (":" + rest);
    assert ':' !in sc by {
      forall c | c in sc ensures c != ':' {
        var k :| 0 <= k < |sc| && sc[k] == c;
      }
    }
    IndexOfAppend(sc, ":" + rest, ':');
    assert IndexOf(u, ':') == |sc|;
    assert u[..|sc|] == sc;
    assert u[0] == sc[0];
    assert HasScheme(u);
    assert u[|sc| + 1..] == rest;
  }

  /** A `?` or `#` suffix after a `:` leaves the scheme test unchanged. */
  lemma HasSchemeAppendFound(s: string, d: char, t: string)
    requires ':' in s
    ensures IndexOf(s + [d] + t, ':') == IndexOf(s, ':')
    ensures HasScheme(s + [d] + t) <==> HasScheme(s)
  {
    var u := s + [d] + t;
    assert u == s + ([d] + t);
    IndexOfAppend(s, [d] + t, ':');
    assert forall k :: 0 <= k < |s| ==> u[k] == s[k];
  }

  /** Without a `:` before it, a `?` or `#` rules a scheme out. */
  lemma HasSchemeAppendMissing(s: string, d: char, t: string)
    requires d == '?' || d == '#'
    requires ':' !in s
    ensures !HasScheme(s) && !HasScheme(s + [d] + t)
  {
    var u := s + [d] + t;
    assert u == s + ([d] + t);
    IndexOfAppend(s, [d] + t, ':');
    assert IndexOf([d] + t, ':') > 0;
    assert u[|s|] == d && !IsSchemeChar(d);
  }

  /** A scheme split is undisturbed by a `?` or `#` and whatever follows it. */
  lemma SplitSchemeAppend(s: string, d: char, t: string)
    requires d == '?' || d == '#'
    ensures SplitScheme(s + [d] + t) == (SplitScheme(s).0, SplitScheme(s).1 + [d] + t)
  {
    var u := s + [d] + t;
    if ':' in s {
      HasSchemeAppendFound(s, d, t);
      if HasScheme(s) {
        var i := IndexOf(s, ':');
        assert u[..i] == s[..i];
        assert u[i + 1..] == s[i + 1..] + [d] + t;
      }
    } else {
      HasSchemeAppendMissing(s, d, t);
    }
  }

  /** A network location split is undisturbed by a `?` or `#` and whatever follows it. */
  lemma SplitAuthorityAppend(s: string, d: char, t: string)
    requires d == '?' || d == '#'
    ensures SplitAuthority(s + [d] + t) == (SplitAuthority(s).0, SplitAuthority(s).1 + [d] + t)
  {
    var u := s + [d] + t;
    if HasAuthority(s) {
      assert u[0] == s[0] && u[1] == s[1];
      assert u[2..] == s[2..] + ([d] + t);
      FirstDelimAppend(s[2..], [d] + t);
      var k := FirstDelim(s[2..]);
      assert u[2..][..k] == s[2..][..k];
      assert u[2..][k..] == s[2..][k..] + [d] + t;
    } else {
      assert !HasAuthority(u) by {
        if |s| >= 2 {
          assert u[0] == s[0] && u[1] == s[1];
        } else if |s| == 1 {
          assert u[1] == d;
        } else {
          assert u[0] == d;
        }
      }
    }
  }

  /** The path cut is undisturbed by a `?` or `#` that comes first, and whatever follows it. */
  lemma PathCutAppend(s: string, d: char, t: string)
    requires d == '?' || d == '#'
    requires '#' !in s && (d == '?' ==> '?' !in s)
    ensures Before(Before(s + [d] + t, '#'), '?') == Before(Before(s, '#'), '?')
  {
    assert s + [d] + t == s + ([d] + t);
    BeforeAppend(s, [d] + t, '#');
    if d == '#' {
      assert Before([d] + t, '#') == "";
      assert s + "" == s;
    } else {
      var f := Before([d] + t, '#');
      BeforeAppend([d], t, '#');
      assert f == [d] + Before(t, '#');
      BeforeAppend(s, f, '?');
      assert Before(f, '?') == "";
      assert s + "" == s;
    }
  }

  /** The components `urlsplit` finds before the first `#`, or before a first `?` that precedes any `#`. */
  lemma SuffixIgnoredSplit(p: string, d: char, t: string)
    requires d == '?' || d == '#'
    requires '#' !in p && (d == '?' ==> '?' !in p)
    ensures UrlSplit(p + [d] + t).Err? <==> UrlSplit(p).Err?
    ensures UrlSplit(p).Ok? ==>
      var a := UrlSplit(p + [d] + t).value;
      var b := UrlSplit(p).value;
      a.scheme == b.scheme && a.netloc == b.netloc && a.path == b.path
  {
    SanitizedAppend(p, d, t);
    var u := Sanitized(p);
    var tail := RemoveUnsafe(t);
    SplitSchemeAppend(u, d, tail);
    var rest := SplitScheme(u).1;
    SanitizedChars(p);
    SplitSchemeChars(u);
    SplitAuthorityChars(rest);
    SplitAuthorityAppend(rest, d, tail);
    PathCutAppend(SplitAuthority(rest).1, d, tail);
  }

  /**
   * Whatever follows the first `#`, or a first `?` that comes before any
   * `#`, never reaches the path `urlparse` returns.
   */
  lemma SuffixIgnored(p: string, d: char, t: string)
    requires d == '?' || d == '#'
    requires '#' !in p && (d == '?' ==> '?' !in p)
    ensures UrlParsePath(p + [d] + t) == UrlParsePath(p)
  {
    SuffixIgnoredSplit(p, d, t);
  }
}

=== FILE: wrappers.dfy ===
/** Failure-carrying datatypes shared by the whole model. */
module Wrappers {

  /** Python's `None` versus a value. */
  datatype Option<+T> = None | Some(value: T)

  /** A computation that either returns a value or raises an error. */
  datatype Result<+T, +E> = Ok(value: T) | Err(error: E)

  /** A check that either passes or raises an error (no value). */
  datatype Outcome<+E> = Pass | Fail(error: E)
}

=== FILE: wsgi.dfy ===
/**
 * The WSGI adapter: the environ-to-headers translation of PEP 3333
 * ("environ Variables"), the status capture done by the wrapped
 * `start_response`, and the middleware object that tracks every request.
 */
module Wsgi {
  import opened Wrappers
  import opened PyValues
  import opened PyStrings
  import opened Types
  import opened Urls
  import opened Payload
  import opened Client

  /**
   * The environ dict's string entries in insertion order. A dict holds
   * each key once (`DistinctKeys`), which every operation on a whole
   * environ demands.
   */
  type Environ = seq<(string, string)>

  /** No key occurs twice, as in any dict. */
  predicate DistinctKeys(env: Environ)
  {
    forall i, j :: 0 <= i < j < |env| ==> env[i].0 != env[j].0
  }

  /** `environ.get(key)`: the last entry with that key, the only one in a dict. */
  function Lookup(env: Environ, key: string): (r: Option<string>)
    ensures r.None? <==> forall i :: 0 <= i < |env| ==> env[i].0 != key
    ensures r.Some? ==> exists i :: 0 <= i < |env| && env[i] == (key, r.value)
  {
    if env == [] then None
    else if env[|env| - 1].0 == key then Some(env[|env| - 1].1)
    else
      var r := Lookup(env[..|env| - 1], key);
      assert forall i :: 0 <= i < |env| - 1 ==> env[..|env| - 1][i] == env[i];
      r
  }

  /** In a dict, looking up an entry's key gives that entry's value. */
  lemma {:induction false} LookupEntry(env: Environ, i: nat)
    requires DistinctKeys(env) && i < |env|
    ensures Lookup(env, env[i].0) == Some(env[i].1)
  {
    if i < |env| - 1 {
      var init := env[..|env| - 1];
      assert env[i].0 != env[|env| - 1].0;
      assert init[i] == env[i];
      assert DistinctKeys(init) by {
        forall a, b | 0 <= a < b < |init| ensures init[a].0 != init[b].0 {
          assert init[a] == env[a] && init[b] == env[b];
        }
      }
      LookupEntry(init, i);
    }
  }

  /** `environ.get(key, default)`. */
  function LookupOr(env: Environ, key: string, default: string): string
  {
    match Lookup(env, key)
    case Some(v) => v
    case None => default
  }

  /** A key the loop turns into a header: it starts with `HTTP_`. */
  predicate IsHttpKey(key: string)
  {
    StartsWith(key, "HTTP_")
  }

  /** `key[5:].replace('_', '-').title()`. */
  function HeaderName(key: string): string
    requires IsHttpKey(key)
  {
    Title(ReplaceChar(key[5..], '_', '-'))
  }

  /** Entry `i` of the environ becomes header `name` in the loop. */
  predicate Names(env: Environ, i: int, name: string)
  {
    0 <= i < |env| && IsHttpKey(env[i].0) && HeaderName(env[i].0) == name
  }

  /** The header dict after the `for key, value in environ.items()` loop. */
  function LoopHeaders(env: Environ): Headers
  {
    if env == [] then map[]
    else
      var headers := LoopHeaders(env[..|env| - 1]);
      var (key, value) := env[|env| - 1];
      if IsHttpKey(key) then headers[HeaderName(key) := Text(value)] else headers
  }

  /** `_extract_headers_from_environ`: the loop, then the two content keys. */
  function EnvironHeaders(env: Environ): Headers
  {
    var loop := LoopHeaders(env);
    var typed := match Lookup(env, "CONTENT_TYPE")
      case Some(v) => loop["Content-Type" := Text(v)]
      case None => loop;
    match Lookup(env, "CONTENT_LENGTH")
    case Some(v) => typed["Content-Length" := Text(v)]
    case None => typed
  }

  /** `_extract_headers_from_environ`, loop and all. */
  method HeadersFromEnviron(env: Environ) returns (headers: Headers)
    requires DistinctKeys(env)
    ensures headers == EnvironHeaders(env)
  {
    headers := map[];
    for i := 0 to |env|
      invariant headers == LoopHeaders(env[..i])
    {
      assert env[..i + 1][..i] == env[..i];
      var (key, value) := env[i];
      if StartsWith(key, "HTTP_") {
        headers := headers[HeaderName(key) := Text(value)];
      }
    }
    assert env[..|env|] == env;
    match Lookup(env, "CONTENT_TYPE") {
      case Some(v) =>
        headers := headers["Content-Type" := Text(v)];
      case None =>
    }
    match Lookup(env, "CONTENT_LENGTH") {
      case Some(v) =>
        headers := headers["Content-Length" := Text(v)];
      case None =>
    }
  }

  /** A header name comes out of the loop exactly when some `HTTP_` key names it. */
  lemma {:induction false} LoopHeaderNames(env: Environ, name: string)
    ensures name in LoopHeaders(env) <==> exists i :: Names(env, i, name)
  {
    if env != [] {
      var init := env[..|env| - 1];
      var last := |env| - 1;
      LoopHeaderNames(init, name);
      assert forall i :: Names(init, i, name) ==> Names(env, i, name);
      assert forall i :: Names(env, i, name) && i < last ==> Names(init, i, name);
      if Names(env, last, name) {
        assert name in LoopHeaders(env);
      } else {
        assert name in LoopHeaders(env) <==> name in LoopHeaders(init);
      }
    }
  }

  /** The value of a header is that of the last `HTTP_` key that names it. */
  lemma {:induction false} LoopHeaderValue(env: Environ, j: nat, name: string)
    requires Names(env, j, name)
    requires forall i :: j < i < |env| ==> !Names(env, i, name)
    ensures name in LoopHeaders(env) && LoopHeaders(env)[name] == Text(env[j].1)
  {
    var init := env[..|env| - 1];
    if j < |env| - 1 {
      assert !Names(env, |env| - 1, name);
      assert Names(init, j, name);
      assert forall i :: j < i < |init| && Names(init, i, name) ==> Names(env, i, name);
      LoopHeaderValue(init, j, name);
    }
  }

  /** Every name the loop produces is title-cased. */
  lemma LoopHeaderNamesTitled(env: Environ)
    ensures forall name :: name in LoopHeaders(env) ==> IsTitled(name)
  {
    forall name | name in LoopHeaders(env) ensures IsTitled(name) {
      LoopHeaderNames(env, name);
      var i :| Names(env, i, name);
      TitleIsTitled(ReplaceChar(env[i].0[5..], '_', '-'));
    }
  }

  lemma ContentNamesTitled()
    ensures IsTitled("Content-Type") && IsTitled("Content-Length")
  {
    LiteralTitled("Content-Type");
    LiteralTitled("Content-Length");
  }

  lemma LiteralTitled(t: string)
    requires t == "Content-Type" || t == "Content-Length"
    ensures IsTitled(t)
  {
    forall i | 0 <= i < |t| ensures TitledAt(t, i) {
    }
  }

  /** Every header name of the translation is title-cased. */
  lemma EnvironHeaderNamesTitled(env: Environ)
    ensures forall name :: name in EnvironHeaders(env) ==> IsTitled(name)
  {
    LoopHeaderNamesTitled(env);
    ContentNamesTitled();
  }

  /**
   * Hence the lower- and upper-case spellings the extractors also try
   * never occur: only `User-Agent`, `Referer` and `Referrer` can match.
   */
  lemma OtherSpellingsAbsent(env: Environ)
    ensures "user-agent" !in EnvironHeaders(env) && "USER-AGENT" !in EnvironHeaders(env)
    ensures "referer" !in EnvironHeaders(env) && "REFERER" !in EnvironHeaders(env)
    ensures "referrer" !in EnvironHeaders(env)
  {
    EnvironHeaderNamesTitled(env);
    TitledHeadersMiss(EnvironHeaders(env));
  }

  lemma TitledHeadersMiss(headers: Headers)
    requires forall name :: name in headers ==> IsTitled(name)
    ensures "user-agent" !in headers && "USER-AGENT" !in headers
    ensures "referer" !in headers && "REFERER" !in headers && "referrer" !in headers
  {
    LowerStartNotTitled("user-agent");
    LowerStartNotTitled("referer");
    LowerStartNotTitled("referrer");
    UpperAfterCasedNotTitled("USER-AGENT", 1);
    UpperAfterCasedNotTitled("REFERER", 1);
  }

  /** `CONTENT_TYPE` wins over an `HTTP_CONTENT_TYPE` entry, and `CONTENT_LENGTH` likewise. */
  lemma ContentKeysOverride(env: Environ)
    ensures Lookup(env, "CONTENT_TYPE").Some? ==>
      EnvironHeaders(env)["Content-Type"] == Text(Lookup(env, "CONTENT_TYPE").value)
    ensures Lookup(env, "CONTENT_LENGTH").Some? ==>
      EnvironHeaders(env)["Content-Length"] == Text(Lookup(env, "CONTENT_LENGTH").value)
  {
  }

  lemma LookupAppend(env: Environ, key: string, value: string, other: string)
    requires key != other
    ensures Lookup(env + [(key, value)], other) == Lookup(env, other)
  {
    assert (env + [(key, value)])[..|env|] == env;
  }

  /** An entry that is neither an `HTTP_` key nor a content key leaves the headers as they were. */
  lemma OtherKeysIgnored(env: Environ, key: string, value: string)
    requires !IsHttpKey(key) && key != "CONTENT_TYPE" && key != "CONTENT_LENGTH"
    ensures EnvironHeaders(env + [(key, value)]) == EnvironHeaders(env)
  {
    var env' := env + [(key, value)];
    assert env'[..|env'| - 1] == env;
    LookupAppend(env, key, value, "CONTENT_TYPE");
    LookupAppend(env, key, value, "CONTENT_LENGTH");
  }

  /** `HTTP_USER_AGENT` becomes `User-Agent`, the first spelling the user-agent extractor tries. */
  lemma UserAgentKeyName(key: string)
    requires key == "HTTP_USER_AGENT"
    ensures IsHttpKey(key) && HeaderName(key) == "User-Agent"
  {
    var t := "User-Agent";
    assert key[..5] == "HTTP_";
    var d := ReplaceChar(key[5..], '_', '-');
    forall i | 0 <= i < |d| ensures Title(d)[i] == t[i] {
      TitleAt(d, i);
    }
  }

  /** `HTTP_REFERER` becomes `Referer`, the first spelling the referrer extractor tries. */
  lemma RefererKeyName(key: string)
    requires key == "HTTP_REFERER"
    ensures IsHttpKey(key) && HeaderName(key) == "Referer"
  {
    var t := "Referer";
    assert key[..5] == "HTTP_";
    var d := ReplaceChar(key[5..], '_', '-');
    forall i | 0 <= i < |d| ensures Title(d)[i] == t[i] {
      TitleAt(d, i);
    }
  }

  /** The user agent a WSGI request reports is the last `HTTP_` entry named `User-Agent`. */
  lemma EnvironUserAgent(env: Environ, j: nat)
    requires Names(env, j, "User-Agent")
    requires forall i :: j < i < |env| ==> !Names(env, i, "User-Agent")
    ensures ExtractUserAgent(EnvironHeaders(env)) == env[j].1
  {
    LoopHeaderValue(env, j, "User-Agent");
  }

  /** Without such an entry the user agent is `'Unknown'`. */
  lemma EnvironUserAgentMissing(env: Environ)
    requires forall i :: !Names(env, i, "User-Agent")
    ensures ExtractUserAgent(EnvironHeaders(env)) == "Unknown"
  {
    LoopHeaderNames(env, "User-Agent");
    OtherSpellingsAbsent(env);
  }

  /** Why the status string given to `start_response` could not be read. */
  datatype StatusError =
    | NoStatusToken     // `status.split()[0]` raises `IndexError`
    | StatusNotInteger  // `int(...)` raises `ValueError`

  /** `int(status.split()[0])`. */
  function ParseStatus(status: string): (r: Result<int, StatusError>)
  {
    match FirstToken(status)
    case None => Err(NoStatusToken)
    case Some(token) =>
      match ParseInt(token)
      case None => Err(StatusNotInteger)
      case Some(code) => Ok(code)
  }

  /** `split()` finds no word exactly when the status is all whitespace. */
  lemma BlankStatusRejected(status: string)
    ensures ParseStatus(status) == Err(NoStatusToken) <==> forall c :: c in status ==> IsSpace(c)
  {
    FirstTokenShape(status);
  }

  /** A status line `"<code> <reason>"` yields its code. */
  lemma StatusLineCode(code: nat, reason: string)
    ensures ParseStatus(DecimalString(code) + " " + reason) == Ok(code)
  {
    var digits := DecimalString(code);
    assert forall c :: c in digits ==> !IsSpace(c);
    FirstTokenOfWord(digits, ' ', reason);
    ParseDecimalString(code);
  }

  /** A status line whose first word is not a number raises `ValueError`. */
  lemma StatusWordRejected(word: string, reason: string)
    requires word != "" && forall c :: c in word ==> IsLower(c)
    ensures ParseStatus(word + " " + reason) == Err(StatusNotInteger)
  {
    assert forall c :: c in word ==> !IsSpace(c);
    FirstTokenOfWord(word, ' ', reason);
    assert word + " " + reason == word + [' '] + reason;
    assert word[0] in word;
    NonDigitStartNoGroups(word);
  }

  /**
   * The cell `status_code[0]` after the given `start_response` calls: 200
   * at first, then each call's code in turn; the first unreadable status
   * raises, and nothing after it runs.
   */
  function CapturedStatus(starts: seq<StartCall>): Result<int, StatusError>
  {
    if starts == [] then Ok(200)
    else
      match CapturedStatus(starts[..|starts| - 1])
      case Err(e) => Err(e)
      case Ok(_) => ParseStatus(starts[|starts| - 1].status)
  }

  /** One more call: the cell keeps its error, or takes the new call's code or error. */
  lemma CapturedStatusStep(starts: seq<StartCall>, i: nat)
    requires i < |starts|
    ensures CapturedStatus(starts[..i + 1]) ==
      match CapturedStatus(starts[..i])
      case Err(e) => Err(e)
      case Ok(_) => ParseStatus(starts[i].status)
  {
    assert starts[..i + 1][..i] == starts[..i];
  }

  /** Once the cell has raised, later calls do not matter. */
  lemma {:induction false} CapturedStatusErrorSticks(starts: seq<StartCall>, n: nat)
    requires n <= |starts| && CapturedStatus(starts[..n]).Err?
    ensures CapturedStatus(starts) == CapturedStatus(starts[..n])
    decreases |starts| - n
  {
    if n < |starts| {
      assert starts[..n + 1][..n] == starts[..n];
      CapturedStatusErrorSticks(starts, n + 1);
    } else {
      assert starts[..n] == starts;
    }
  }

  /** When every status is readable, the captured one is the last call's, or 200 without calls. */
  lemma {:induction false} CapturedStatusIsLast(starts: seq<StartCall>)
    requires forall i :: 0 <= i < |starts| ==> ParseStatus(starts[i].status).Ok?
    ensures starts == [] ==> CapturedStatus(starts) == Ok(200)
    ensures starts != [] ==> CapturedStatus(starts) == ParseStatus(starts[|starts| - 1].status)
  {
    if |starts| > 1 {
      var init := starts[..|starts| - 1];
      assert forall i :: 0 <= i < |init| ==> init[i] == starts[i];
      CapturedStatusIsLast(init);
    }
  }

  /** The first unreadable status decides the error, whatever follows it. */
  lemma CapturedStatusFirstError(starts: seq<StartCall>, j: nat)
    requires j < |starts| && ParseStatus(starts[j].status).Err?
    requires forall i :: 0 <= i < j ==> ParseStatus(starts[i].status).Ok?
    ensures CapturedStatus(starts) == ParseStatus(starts[j].status)
  {
    var upto := starts[..j];
    assert forall i :: 0 <= i < |upto| ==> upto[i] == starts[i];
    CapturedStatusIsLast(upto);
    CapturedStatusStep(starts, j);
    CapturedStatusErrorSticks(starts, j + 1);
  }

  /** The keyword options given to a middleware constructor. */
  type Options = map<string, PyValue>

  /**
   * The configuration record both generic middlewares build from their
   * keyword options: `script_key` defaults to `''`, `endpoint` to `None`,
   * `timeout` to 0.05, `debug` to `False` and `enabled` to `True`.
   */
  function ConfigFromOptions(options: Options): Config
  {
    Config(
      Get(options, "script_key", PyStr("")),
      Get(options, "endpoint", PyNone),
      Get(options, "timeout", PyFloat(DefaultTimeout)),
      Get(options, "debug", PyBool(false)),
      Get(options, "enabled", PyBool(true)))
  }

  /** Options naming only a script key give the configuration built from that key alone. */
  lemma KeyOnlyOptions(key: PyValue)
    ensures ConfigFromOptions(map["script_key" := key]) == ConfigWithKey(key)
  {
  }

  /** Without a `script_key` option the middleware cannot be built: the key is required. */
  lemma MissingKeyOption(options: Options)
    requires "script_key" !in options
    ensures ConstructionError(ConfigFromOptions(options)) == Some(Invalid(KeyRequired))
  {
  }

  /** The arguments of one `start_response(status, response_headers)` call. */
  datatype StartCall = StartCall(status: string, responseHeaders: seq<(string, string)>)

  /** The response iterable the application returns; the middleware never looks inside. */
  type Body = seq<string>

  /**
   * What the wrapped application does with one request: the
   * `start_response` calls it makes before returning, then either the
   * response it returns or the message of the exception it raises.
   */
  datatype AppRun = AppRun(starts: seq<StartCall>, outcome: Result<Body, string>)

  /** Why a call of the middleware raises. */
  datatype CallError =
    | StatusRaised(status: StatusError)  // from `int(status.split()[0])`, inside the application
    | AppRaised(message: string)          // the application's own exception
    | PathRaised(url: UrlError)           // from `urlparse` in `build_payload`

  /** The number of leading calls whose status can be read; only those reach the server. */
  function ReadableCount(starts: seq<StartCall>): (n: nat)
    ensures n <= |starts|
  {
    if starts == [] then 0
    else if ParseStatus(starts[0].status).Err? then 0
    else 1 + ReadableCount(starts[1..])
  }

  /** The calls before the count are readable, and the one at the count, if any, is not. */
  lemma {:induction false} ReadablePrefix(starts: seq<StartCall>, i: nat)
    requires i < |starts|
    ensures i < ReadableCount(starts) ==> ParseStatus(starts[i].status).Ok?
    ensures i == ReadableCount(starts) ==> ParseStatus(starts[i].status).Err?
  {
    if i > 0 && ParseStatus(starts[0].status).Ok? {
      ReadablePrefix(starts[1..], i - 1);
      assert starts[1..][i - 1] == starts[i];
    }
  }

  /** The request metadata `__call__` builds once the application has returned. */
  function RequestOf(env: Environ, status: int): RequestMetadata
  {
    RequestMetadata(
      LookupOr(env, "PATH_INFO", "/"),
      LookupOr(env, "REQUEST_METHOD", "GET"),
      EnvironHeaders(env),
      Present(Some(status)))
  }

  /**
   * One call of the middleware: the response the application returned and
   * the payload to track, or the exception that escapes.
   */
  function Handle(run: AppRun, env: Environ, now: int, requestId: string): Result<(Body, TrackingPayload), CallError>
    requires DistinctKeys(env)
  {
    match CapturedStatus(run.starts)
    case Err(e) => Err(StatusRaised(e))
    case Ok(status) =>
      match run.outcome
      case Err(m) => Err(AppRaised(m))
      case Ok(body) =>
        match BuildPayload(RequestOf(env, status), now, requestId)
        case Err(u) => Err(PathRaised(u))
        case Ok(payload) => Ok((body, payload))
  }

  /**
   * A request whose statuses are readable, whose application returns and
   * whose path parses is tracked with the last status (200 without any
   * call), the environ's path and method (defaulting to `'/'` and
   * `'GET'`), and the translated headers; the response is passed back
   * unchanged.
   */
  lemma HandledRequest(run: AppRun, env: Environ, now: int, requestId: string)
    requires DistinctKeys(env)
    requires forall i :: 0 <= i < |run.starts| ==> ParseStatus(run.starts[i].status).Ok?
    requires run.outcome.Ok?
    requires NormalizePath(LookupOr(env, "PATH_INFO", "/")).Ok?
    ensures Handle(run, env, now, requestId).Ok?
    ensures Handle(run, env, now, requestId).value.0 == run.outcome.value
    ensures var p := Handle(run, env, now, requestId).value.1;
      p.statusCode == Present(Some(if run.starts == [] then 200 else ParseStatus(run.starts[|run.starts| - 1].status).value)) &&
      p.path == Present(NormalizePath(LookupOr(env, "PATH_INFO", "/")).value) &&
      p.httpMethod == Present(Upper(LookupOr(env, "REQUEST_METHOD", "GET"))) &&
      p.userAgent == Present(ExtractUserAgent(EnvironHeaders(env))) &&
      p.referrer == Present(ExtractReferrer(EnvironHeaders(env))) &&
      p.timestamp == Present(now) && p.requestId == Present(Some(requestId))
  {
    CapturedStatusIsLast(run.starts);
  }

  /**
   * The first unreadable status escapes as that error, so nothing is
   * tracked, and exactly the calls before it reach the server.
   */
  lemma UnreadableStatusRaises(run: AppRun, env: Environ, now: int, requestId: string, j: nat)
    requires DistinctKeys(env)
    requires j < |run.starts| && ParseStatus(run.starts[j].status).Err?
    requires forall i :: 0 <= i < j ==> ParseStatus(run.starts[i].status).Ok?
    ensures Handle(run, env, now, requestId) == Err(StatusRaised(ParseStatus(run.starts[j].status).error))
    ensures ReadableCount(run.starts) == j
  {
    CapturedStatusFirstError(run.starts, j);
    ReadablePrefix(run.starts, j);
    var n := ReadableCount(run.starts);
    if n < j {
      ReadablePrefix(run.starts, n);
    }
  }

  /** One turn of the capture loop: the call at `i` either raises for good or moves the cell on. */
  lemma CaptureStep(starts: seq<StartCall>, i: nat, statusCode: int)
    requires i < |starts| && i <= ReadableCount(starts)
    requires CapturedStatus(starts[..i]) == Ok(statusCode)
    ensures ParseStatus(starts[i].status).Err? ==>
      CapturedStatus(starts) == ParseStatus(starts[i].status) && ReadableCount(starts) == i
    ensures ParseStatus(starts[i].status).Ok? ==>
      CapturedStatus(starts[..i + 1]) == ParseStatus(starts[i].status) && i + 1 <= ReadableCount(starts)
  {
    CapturedStatusStep(starts, i);
    ReadablePrefix(starts, i);
    if ParseStatus(starts[i].status).Err? {
      CapturedStatusErrorSticks(starts, i + 1);
    }
  }

  /**
   * The `start_response` calls through `custom_start_response`: each
   * status is parsed into the cell `status_code[0]` before the call is
   * passed on, so the first unreadable status raises and is not passed on.
   */
  method CaptureStatus(starts: seq<StartCall>) returns (forwarded: seq<StartCall>, captured: Result<int, StatusError>)
    ensures forwarded == starts[..ReadableCount(starts)]
    ensures captured == CapturedStatus(starts)
  {
    var statusCode := 200;
    forwarded := [];
    for i := 0 to |starts|
      invariant CapturedStatus(starts[..i]) == Ok(statusCode)
      invariant i <= ReadableCount(starts) && forwarded == starts[..i]
    {
      var parsed := ParseStatus(starts[i].status);
      CaptureStep(starts, i, statusCode);
      if parsed.Err? {
        return forwarded, parsed;
      }
      statusCode := parsed.value;
      assert starts[..i + 1] == starts[..i] + [starts[i]];
      forwarded := forwarded + [starts[i]];
    }
    assert starts[..|starts|] == starts;
    return forwarded, Ok(statusCode);
  }

  /** The generic WSGI middleware around an application. */
  class WsgiMiddleware {
    const app: Environ -> AppRun
    const client: SurfgeoClient

    ghost predicate Valid()
    {
      client.Valid()
    }

    constructor (app: Environ -> AppRun, client: SurfgeoClient)
      requires client.Valid()
      ensures Valid() && this.app == app && this.client == client
    {
      this.app := app;
      this.client := client;
    }

    /** `surfgeoWSGIMiddleware(app, **config)`: builds the client, or raises its error. */
    static method Create(app: Environ -> AppRun, options: Options) returns (r: Result<WsgiMiddleware, CreateError>)
      ensures r.Err? <==> ConstructionError(ConfigFromOptions(options)).Some?
      ensures r.Err? ==> r.error == ConstructionError(ConfigFromOptions(options)).value
      ensures r.Ok? ==> fresh(r.value) && fresh(r.value.client) && r.value.Valid() && r.value.app == app
      ensures r.Ok? ==> r.value.client.config == StoredConfig(ConfigFromOptions(options)) && r.value.client.sent == []
    {
      var created := SurfgeoClient.Create(ConfigFromOptions(options));
      match created {
        case Err(e) =>
          return Err(e);
        case Ok(client) =>
          var middleware := new WsgiMiddleware(app, client);
          return Ok(middleware);
      }
    }

    /**
     * `__call__(environ, start_response)`. Returns the calls passed on to
     * the server's `start_response`, in order and unchanged, and the
     * response or the exception that escapes. A request is tracked once,
     * after the application returns, and only when nothing raised.
     */
    method Call(env: Environ, now: int, requestId: string) returns (forwarded: seq<StartCall>, r: Result<Body, CallError>)
      requires Valid() && DistinctKeys(env)
      modifies client`sent
      ensures forwarded == app(env).starts[..ReadableCount(app(env).starts)]
      ensures var h := Handle(app(env), env, now, requestId);
        (r.Ok? <==> h.Ok?) && (r.Ok? ==> r.value == h.value.0) && (r.Err? ==> r.error == h.error)
      ensures var h := Handle(app(env), env, now, requestId);
        client.sent == old(client.sent) + (if h.Ok? then Outbox(client.config, h.value.1) else [])
    {
      var run := app(env);
      var captured;
      forwarded, captured := CaptureStatus(run.starts);
      if captured.Err? {
        return forwarded, Err(StatusRaised(captured.error));
      }
      var statusCode := captured.value;
      if run.outcome.Err? {
        return forwarded, Err(AppRaised(run.outcome.error));
      }
      var headers := HeadersFromEnviron(env);
      var metadata := RequestMetadata(LookupOr(env, "PATH_INFO", "/"), LookupOr(env, "REQUEST_METHOD", "GET"),
        headers, Present(Some(statusCode)));
      match BuildPayload(metadata, now, requestId) {
        case Err(u) =>
          return forwarded, Err(PathRaised(u));
        case Ok(payload) =>
          client.Track(payload);
          return forwarded, Ok(run.outcome.value);
      }
    }
  }
}
